=== FILE: README.md ===
# Session-expiry analysis, modelled in Dafny

This project models the part of the companion-agent backend that analyses
conversations before their stored state disappears. It covers:

- **The store.** A Redis-like key-value store with per-key expiry
  (`TtlStore`). The model covers GET, TTL, SETEX, SET, EXPIRE and a logical
  clock. An expired key is evicted lazily: every probe treats it as absent,
  but a scan may still yield its key.
- **The session registry** (`SessionRegistry`). Each conversation has one
  JSON record under `session:{workflow_id}`. It is written with the message
  expiry, found by a scan when its remaining TTL falls inside the trigger
  window, and rewritten as analyzed without changing its remaining TTL.
- **The trigger service** (`TriggerService`). It holds the graph a factory
  builds. It turns one session into one invocation of the conversation
  analyzer and fans a batch out into a `workflow_id -> bool` dict.
  `ResultDict` models that dict with Python's key equality (`True == 1`)
  and insertion order.
- **The scheduler** (`ConversationScheduler`). This covers one tick of the
  periodic job, the manual check that reports a summary, the
  `start`/`stop` flag machine and the module-level singleton.
- **Agent history.** This covers the message key (`HistoryKeyMapping`),
  loading (`HistoryLoader`), saving (`HistorySaver`) and the pydantic base
  class with its two subclasses (`AgentHistory`).
- **`file_to_prompt_parts`** (`FileInput`). It turns a text and optional
  file information into prompt parts.
- **The Markdown reports.** `Markdown` holds the shared line model. The
  conversation analyzer's report (`ConversationAnalyzer`) and the journal
  analyzer's report (`JournalAnalyzer`) build on it, each with its node
  function.
- **The three graph routers.** `Routing` holds what they share.
  `WorkflowGraph` models `graph.py`, `CompanionGraph` models
  `graphs/companion.py` and `GeneralGraph` models `main.py`.

All state is immutable. Each operation is a function from the store, and
from what the outside world does during the call, to the new store and the
result:

- **Store failures.** A store client that raises is an `up: bool`
  parameter. A failing expiry reset on load is a separate `expireUp`.
- **Model runs.** These are function parameters that give the structured
  output, or None when the run raises.
- **Graph invocations, factory calls and file writes.** Each is given as
  its outcome.
- **Exceptions.** Python exceptions that escape are values of
  `Raising<T>`. The exceptions the code catches become the defaults it
  returns.

## Model

| member | source | states |
|---|---|---|
| TtlStore.Read | storage/redis/session_registry.py:93 | GET answers exactly for a live key, with the stored text; an expired key reads as missing |
| TtlStore.Ttl | storage/redis/session_registry.py:123 | TTL is -2 exactly for a missing or expired key, -1 exactly for a key without expiry, otherwise the positive seconds left; never 0 |
| TtlStore.SetEx | storage/redis/session_registry.py:58-62 | after SETEX the key reads the new value with the given TTL, and no other key and not the clock changes |
| TtlStore.SetPersist | storage/redis/session_registry.py:189 | SET without options reads back the value with no expiry (TTL -1), nothing else changes |
| TtlStore.Expire | storage/redis/agent_history/load_history.py:40 | EXPIRE keeps the value, gives a live key the new TTL, and leaves a missing key's store unchanged |
| TtlStore.TtlCountsDown | storage/redis/session_registry.py:123-131 | a key's TTL falls by exactly the elapsed time while it lives, and the key reads as gone (-2) once the time runs out |
| Json.Decode | storage/redis/agent_history/load_history.py:46 | `json.loads` succeeds exactly on an encoding and returns the encoded value |
| Json.SameKeyTruthy | storage/redis/scheduler/trigger_service.py:153-160 | two values equal as dict keys are equally truthy, so a result key is as truthy as the workflow id that made it |
| SessionRegistry.RegisterSession | storage/redis/session_registry.py:22-72 | succeeds exactly when the store answers and all three ids are non-empty; then the key holds the unanalyzed record with the message expiry; otherwise nothing is written; no other key changes |
| SessionRegistry.GetSession | storage/redis/session_registry.py:75-103 | returns a value exactly for a non-empty id whose live key holds JSON, and that value is what the key encodes |
| SessionRegistry.Classify | storage/redis/session_registry.py:121-141 | a scanned key is reported exactly when its TTL is in `0 < ttl <= offset*60` and it holds a JSON object, tagged with `ttl_seconds`; a non-object JSON value in the window aborts the scan |
| SessionRegistry.ScanExpiring | storage/redis/session_registry.py:118-144 | the scan aborts exactly when some key aborts; otherwise every result is some key's tagged record, and every key's tagged record is in the result |
| SessionRegistry.GetSessionsExpiringSoon | storage/redis/session_registry.py:106-148 | [] on a store failure or an aborting scan; otherwise exactly the records in the window, each tagged with its TTL |
| SessionRegistry.MarkSessionAnalyzed | storage/redis/session_registry.py:151-200 | succeeds exactly when the id's live key holds a JSON object; the record gains `analyzed: true` and the stamp, keeps every other field and keeps its remaining TTL; no other key changes |
| SessionRegistry.IsSessionAnalyzed | storage/redis/session_registry.py:203-217 | false for an unknown session and for a falsy record, the record's `analyzed` value (default false) for an object, and AttributeError exactly for a truthy non-object |
| SessionRegistry.CountGone | storage/redis/session_registry.py:233-237 | counts the scanned keys whose TTL reads -2: none when all are live, all when none is |
| SessionRegistry.CleanupExpiredSessions | storage/redis/session_registry.py:220-244 | the number of vanished scanned keys, 0 on a store failure; nothing is deleted |
| SessionRegistry.CountGoneAppend | storage/redis/session_registry.py:233-237 | the count over two scans run back to back is the sum of the counts |
| SessionRegistry.RegisterThenRead | storage/redis/session_registry.py:22-103 | a registration with all ids reads back as exactly the new record and as not analyzed, whatever was stored before |
| SessionRegistry.NeverRegistered | storage/redis/session_registry.py:203-217 | an id never written has no session and reads as not analyzed |
| SessionRegistry.MarkThenAnalyzed | storage/redis/session_registry.py:151-217 | after a successful mark the session reads as analyzed |
| SessionRegistry.MarkIdempotent | storage/redis/session_registry.py:151-200 | marking again with the same stamp succeeds and leaves the store exactly as the first mark did |
| SessionRegistry.ExpiringIffInWindow | storage/redis/session_registry.py:123-141 | a stored session is reported if and only if its remaining TTL is inside the window |
| SessionRegistry.ExpiringScenario | storage/redis/session_registry.py:58-62 | a session registered for 600 seconds and probed 350 seconds later is reported with 250 seconds left in a 5-minute window |
| HistoryKeyMapping.MessageKey | storage/redis/agent_history/history_key_mapping.py:6-17 | the key is `workflow:`, the workflow id, `:messages:`, the agent type, with the two ids at fixed places |
| HistoryKeyMapping.MessageKeyInjectiveInWorkflow | storage/redis/agent_history/history_key_mapping.py:17 | for one agent type, different workflows never share a key |
| HistoryKeyMapping.MessageKeyInjectiveInAgent | storage/redis/agent_history/history_key_mapping.py:17 | for one workflow, different agent types never share a key |
| HistoryKeyMapping.GeneralAndCompanionApart | agents/companion/history.py:5-11 | the general and the companion history never share a key, whatever the two workflow ids |
| HistoryKeyMapping.MessageKeyNotJointlyInjective | storage/redis/agent_history/history_key_mapping.py:17 | a workflow id containing `:messages:` collides with another workflow's history of another agent type |
| HistoryKeyMapping.MessageKeyNotSessionKey | storage/redis/agent_history/history_key_mapping.py:17 | message keys never collide with session keys |
| HistoryLoader.LoadHistory | storage/redis/agent_history/load_history.py:10-55 | `[]` unless both names are given, the store answers and a non-empty value is stored; a value that is not a list, object or string also reads as `[]`; a successful read resets the key's TTL to the message expiry; the stored value never changes |
| HistoryLoader.ExpireFailureKeepsMessages | storage/redis/agent_history/load_history.py:39-43 | a failing expiry reset never changes the messages returned |
| HistoryLoader.LoadTwiceSame | storage/redis/agent_history/load_history.py:38-48 | loading twice returns the same messages: the read only moves the expiry |
| HistorySaver.Dumps | storage/redis/agent_history/save_history.py:41 | `json.dumps` fails exactly when a model object sits somewhere inside the value |
| HistorySaver.SaveMessagesToRedis | storage/redis/agent_history/save_history.py:10-55 | false for a missing name, true without writing for an empty list; otherwise true exactly when the store answers and the value encodes, and then the key holds the encoding with the message expiry; only that key can change |
| HistorySaver.SaveThenLoad | storage/redis/agent_history/save_history.py:41-48 | a non-empty JSON list that is saved loads back unchanged, in order |
| HistorySaver.SaveThenLoadValue | storage/redis/agent_history/save_history.py:41-48 | any saved list that encodes loads back as its encoding |
| AgentHistory.DefineSubclass | storage/redis/agent_history/base.py:26-30 | defining a subclass raises ValueError exactly when its `agent_type` is empty |
| AgentHistory.AsMessage | storage/redis/agent_history/base.py:58 | a loaded JSON object becomes a message with the same keys, each holding its JSON value |
| AgentHistory.Validate | storage/redis/agent_history/base.py:58 | pydantic accepts a loaded value exactly when it is a list of objects, and keeps them in order |
| AgentHistory.LoadOrCreate | storage/redis/agent_history/base.py:33-66 | ValueError for an empty id before any read; otherwise the stored messages when they are non-empty and validate, and an empty history in every other case |
| AgentHistory.LoadOrCreateDependsOnKey | storage/redis/agent_history/base.py:53 | two stores that agree at the class's message key give the same loaded history |
| AgentHistory.Serializable | storage/redis/agent_history/base.py:87-95 | the same number of messages with the same keys; each top-level model object is replaced by its dump, and every other field is kept |
| AgentHistory.PayloadHoldsModel | storage/redis/agent_history/base.py:87-99 | the payload fails to encode exactly when some field holds a model object below its top level |
| AgentHistory.Save | storage/redis/agent_history/base.py:68-108 | ValueError for an empty id; otherwise true exactly when the history is empty, or the store answers and no field holds a nested model object; a non-empty save then leaves the payload's encoding under the class's own key with the message expiry; a failed save writes nothing and only that key can change |
| AgentHistory.SaveKeepsSessions | storage/redis/agent_history/base.py:99 | saving never touches a session record |
| AgentHistory.SaveKeepsOtherAgents | storage/redis/agent_history/base.py:99 | saving one agent's history leaves every other agent's history of the workflow as it was |
| AgentHistory.NestedModelFailsSave | storage/redis/agent_history/base.py:90-95 | a model object nested one level down is not dumped, so the save returns false and writes nothing |
| AgentHistory.SaveThenLoadOrCreate | storage/redis/agent_history/base.py:33-108 | a non-empty flat history that is saved loads back with the same messages, in order |
| AgentHistory.FlatPayloadEncodes | storage/redis/agent_history/base.py:87-95 | a flat history's payload encodes as a list with one object per message, each holding its fields' encodings |
| ResultDict.Lookup | storage/redis/scheduler/trigger_service.py:153-160 | `d.get(k)` finds a value exactly when the dict holds a key equal to `k` |
| ResultDict.Put | storage/redis/scheduler/trigger_service.py:158-160 | `d[k] = v`: an equal key keeps its place and takes the new value; a new key goes last; other keys keep their values |
| ResultDict.PutWellFormed | storage/redis/scheduler/trigger_service.py:158-160 | an assignment keeps one key per equality class, in insertion order |
| ResultDict.PutNewWellFormed | storage/redis/scheduler/trigger_service.py:158-160 | a new key's class is the one class the assignment adds |
| ResultDict.CollectWellFormed | storage/redis/scheduler/trigger_service.py:153-160 | a run of assignments from `{}` builds a well-formed dict |
| ResultDict.CollectKeys | storage/redis/scheduler/trigger_service.py:153-160 | the dict's keys are the assigned keys, up to key equality |
| ResultDict.CollectLastWins | storage/redis/scheduler/trigger_service.py:153-160 | the last assignment to a key decides its value |
| ResultDict.CollectAllFalse | storage/redis/scheduler/trigger_service.py:169 | assignments that are all false leave every value false |
| ResultDict.Assignments | storage/redis/scheduler/trigger_service.py:126-160 | the loop makes at most one assignment per element; AssignmentsFrom and AssignmentsHas say which |
| ResultDict.AssignmentsFrom | storage/redis/scheduler/trigger_service.py:126-142 | every assignment comes from a kept element and carries its key and value |
| ResultDict.AssignmentsHas | storage/redis/scheduler/trigger_service.py:126-142 | every kept element makes an assignment to its key |
| ResultDict.AssignmentsKeys | storage/redis/scheduler/trigger_service.py:126-160 | the assigned keys are exactly the kept elements' keys |
| ResultDict.AssignmentsLastWins | storage/redis/scheduler/trigger_service.py:154-160 | a kept element with no later kept element of an equal key makes the last assignment to that key |
| ResultDict.Assign | storage/redis/scheduler/trigger_service.py:126-169 | a well-formed dict holding exactly the kept elements' keys, up to key equality, with no true value when every value is false |
| ResultDict.AssignLastWins | storage/redis/scheduler/trigger_service.py:154-160 | a kept element's value is what the dict holds for its key, unless a later kept element reuses the key |
| ResultDict.Count | storage/redis/scheduler/conversation_scheduler.py:226-227 | never more than the number of keys; CountSplits and TrueKeys relate it to the entries |
| ResultDict.CountSplits | storage/redis/scheduler/conversation_scheduler.py:226-227 | successes and failures add up to the number of entries |
| ResultDict.TrueKeys | storage/redis/scheduler/conversation_scheduler.py:150-155 | exactly the keys whose value is true, as many as the true count |
| TriggerService.InitializeGraph | storage/redis/scheduler/trigger_service.py:28-45 | without a factory nothing changes; otherwise the graph is set exactly when the factory returns an object with `ainvoke`, and it is that object |
| TriggerService.NewService | storage/redis/scheduler/trigger_service.py:16-26 | the graph is built only when a factory is given, and only when it yields an object with `ainvoke` |
| TriggerService.SetGraphFactory | storage/redis/scheduler/trigger_service.py:180-188 | the new factory is installed, and the service is healthy exactly when it yields an object with `ainvoke` |
| TriggerService.Reinitialize | storage/redis/scheduler/trigger_service.py:190-203 | reports the health of the rebuilt service; without a factory the service stays as it was |
| TriggerService.TriggerConversationAnalysis | storage/redis/scheduler/trigger_service.py:47-104 | invokes the graph exactly when it exists and all three ids are truthy, with the analyzer state and the workflow id as thread id; true exactly when that invocation returns a truthy result |
| TriggerService.Calls | storage/redis/scheduler/trigger_service.py:126-150 | every invocation made belongs to a retained session, and every retained session is invoked when there is a graph |
| TriggerService.TriggerMultipleAnalyses | storage/redis/scheduler/trigger_service.py:106-169 | `{}` when no session is retained; TypeError exactly when a retained id is unhashable; otherwise a well-formed dict keyed exactly by the retained ids, all false when the gather block fails |
| TriggerService.OutcomeIsOwn | storage/redis/scheduler/trigger_service.py:154-160 | a retained session's entry is the success of its own invocation, when no later session reuses its id |
| TriggerService.GatherFaultAllFalse | storage/redis/scheduler/trigger_service.py:167-169 | when the gather block fails, every retained id reads false |
| TriggerService.OneFailureIsolated | storage/redis/scheduler/trigger_service.py:150-160 | with distinct ids, one failing invocation maps to false while every succeeding sibling maps to true |
| ConversationScheduler.Unanalyzed | storage/redis/scheduler/conversation_scheduler.py:130-133 | keeps exactly the sessions not marked analyzed |
| ConversationScheduler.MarkedReadsAnalyzed | storage/redis/session_registry.py:203-217 | a session marked by a tick reads as analyzed |
| ConversationScheduler.MarkOne | storage/redis/scheduler/conversation_scheduler.py:150-157 | marking one result id marks its session when the id is truthy, the store answers and a record exists; a falsy id or a failing store changes nothing; no other key changes |
| ConversationScheduler.MarkOneKeeps | storage/redis/scheduler/conversation_scheduler.py:150-157 | a mark never unmarks a session and never drops a stored record |
| ConversationScheduler.MarkAll | storage/redis/scheduler/conversation_scheduler.py:150-159 | each id's mark is independent of the others: every markable id ends up marked, earlier marks persist, and untouched keys keep their entries |
| ConversationScheduler.Tick | storage/redis/scheduler/conversation_scheduler.py:109-174 | nothing happens without unanalyzed expiring sessions; the batch receives exactly those sessions; exactly the true result ids are marked; a TypeError ends the tick before any mark; only the marked ids' keys can change, with the analysis run's own store effect left out |
| ConversationScheduler.ResultKeysTruthy | storage/redis/scheduler/trigger_service.py:126-165 | every key of the result dict is a truthy, hashable workflow id |
| ConversationScheduler.RunManualCheck | storage/redis/scheduler/conversation_scheduler.py:184-240 | the summary's counts are the expiring sessions, the unanalyzed ones, and the true and false results, which add up to the dict's size; a TypeError gives the all-zero error summary and leaves the store as it was |
| ConversationScheduler.ManualCheckMatchesTick | storage/redis/scheduler/conversation_scheduler.py:109-216 | the manual check changes the store exactly as a tick over the same world does |
| ConversationScheduler.MarkedSessionFiltered | storage/redis/scheduler/conversation_scheduler.py:130-133 | a session marked analyzed is never handed to the batch again, wherever its TTL stands |
| ConversationScheduler.Start | storage/redis/scheduler/conversation_scheduler.py:56-86 | a running scheduler refuses to start again; otherwise it runs exactly when the start succeeds |
| ConversationScheduler.Stop | storage/redis/scheduler/conversation_scheduler.py:88-107 | stopping an idle scheduler succeeds; a failing shutdown leaves the flag set |
| ConversationScheduler.GetStatus | storage/redis/scheduler/conversation_scheduler.py:242-258 | reports the flag, the service's health and the configuration; the next run is present only while running |
| ConversationScheduler.GetScheduler | storage/redis/scheduler/conversation_scheduler.py:276-284 | an existing instance is returned, with a given factory installed; otherwise a fresh idle instance is made and stored |
| ConversationScheduler.StartScheduler | storage/redis/scheduler/conversation_scheduler.py:286-289 | fetches the singleton and starts it: true exactly when the fetched instance was idle and the start succeeds, and the slot then holds the started instance; an already running one stays running and reports false |
| ConversationScheduler.StopScheduler | storage/redis/scheduler/conversation_scheduler.py:291-298 | the slot is emptied in any case; true without an instance, else the stop's result |
| ConversationScheduler.SameInstanceUntilStopped | storage/redis/scheduler/conversation_scheduler.py:279-284 | two fetches without a stop in between give the same instance |
| ConversationScheduler.FreshAfterStop | storage/redis/scheduler/conversation_scheduler.py:291-298 | after stop_scheduler the next fetch makes a new idle instance, never the stopped one |
| FileInput.GuessMediaType | utils/file_input.py:10-13 | the guessed type when there is one, else `application/octet-stream` |
| FileInput.BytesFromMaybeBase64 | utils/file_input.py:16-25 | bytes pass through; a string is base64-decoded, or encoded when decoding fails; anything else gives None |
| FileInput.MediaTypeOr | utils/file_input.py:67 | a truthy given media type wins over the fallback |
| FileInput.FileToPromptParts | utils/file_input.py:28-95 | the text part always comes first, with at most one file part after it; falsy info gives the text alone; it raises exactly for a usable URL whose given media type is truthy but not a string (TypeError or AttributeError) and for an existing file that cannot be read (OSError) |
| FileInput.StringParts | utils/file_input.py:46-62 | a web URL gives one URL part typed by the guess for the string, a readable file one binary part typed by the guess for `str(Path(s))`, an unreadable file OSError, anything else nothing |
| FileInput.DictPathPart | utils/file_input.py:75-82 | a dict `path` naming a readable file, with no media type, gives the file's bytes typed by the guess for `str(Path(path))` |
| FileInput.UnreadableFileRaises | utils/file_input.py:58-59 | an existing file that cannot be read makes the call raise OSError, whether it is named by a str, a Path or a dict's `path` |
| FileInput.WebUrlPart | utils/file_input.py:49-55 | a web URL string gives an image part exactly when its guessed type is an image type, carrying the URL |
| FileInput.SchemeCaseInsensitive | utils/file_input.py:49 | the scheme check ignores case |
| FileInput.PlainTextOnly | utils/file_input.py:46-62 | a string that is neither a web URL nor an existing file gives the text alone |
| FileInput.UrlWins | utils/file_input.py:65-72 | with a usable `url`, whatever `path` and `bytes` hold does not change the result |
| FileInput.MediaTypeOverridesGuess | utils/file_input.py:67-71 | a given string media type overrides the guess for a URL |
| FileInput.InvalidPathIgnoresBytes | utils/file_input.py:75-85 | a usable `path` naming no existing file gives the text alone, even when `bytes` is present |
| FileInput.BytesDefault | utils/file_input.py:88-92 | raw bytes without a media type pass through as `application/octet-stream` |
| FileInput.UnknownShape | utils/file_input.py:95 | a dict with no usable `url`, `path` or `bytes` gives the text alone |
| Markdown.Split | agents/companion/conversation_analyzer.py:101 | splitting on newlines always gives at least one piece; SplitJoin and JoinSplit relate it to the join |
| Markdown.SplitConcat | agents/companion/conversation_analyzer.py:101 | splitting at a newline splits each side separately |
| Markdown.SplitJoin | agents/companion/conversation_analyzer.py:101 | joining lines without newlines and splitting again gives the lines back |
| Markdown.JoinSplit | agents/companion/conversation_analyzer.py:101 | splitting any text and joining again gives the text back |
| Markdown.JoinAppend | agents/companion/conversation_analyzer.py:60 | joining two non-empty runs of lines puts exactly one newline between them |
| Markdown.FieldValue | agents/companion/conversation_analyzer.py:66 | a value read from a line is one the line was formatted from, as a field of that name |
| Markdown.FieldValueInverse | agents/companion/conversation_analyzer.py:66 | the value of a formatted field line is the value formatted |
| Markdown.Bullets | agents/companion/conversation_analyzer.py:59 | one bullet line per item, in order |
| Markdown.Headings | agents/companion/conversation_analyzer.py:65-96 | never more headings than lines; HeadingsAppend and the report lemmas say which they are |
| Markdown.HeadingsAppend | agents/companion/conversation_analyzer.py:65-96 | the headings of two runs of lines are the headings of each, in order |
| Markdown.ListLinesNoHeading | agents/companion/conversation_analyzer.py:57-60 | a list section holds no heading line |
| Markdown.BulletsNoHeading | agents/companion/conversation_analyzer.py:59 | bullet lines are never heading lines |
| Markdown.ParseBulletsInverse | agents/companion/conversation_analyzer.py:59 | the bullet lines of some items read back as those items |
| Markdown.FormatListSection | agents/companion/conversation_analyzer.py:57-60 | the title line alone for no items, otherwise the title line and a newline first and the last item's bullet last; ListSectionRoundTrip gives every line |
| Markdown.JoinLast | agents/companion/conversation_analyzer.py:60 | a newline join of two or more lines ends with a newline and the last line |
| Markdown.ListSectionRoundTrip | agents/companion/conversation_analyzer.py:57-60 | when no title or item holds a newline, a list section has `len(items)+1` lines, the title line and then one bullet per item in order, and reads back as its title and items |
| Markdown.SectionSplit | agents/companion/conversation_analyzer.py:63-99 | each appended string splits into the lines the entry is meant to show |
| Markdown.Texts | agents/companion/conversation_analyzer.py:63-99 | one appended string per entry, in order |
| Markdown.DocumentLines | agents/companion/conversation_analyzer.py:101 | a report's lines are its entries' lines in order, then the empty line after the final newline |
| Markdown.JoinedLines | agents/companion/conversation_analyzer.py:101 | joining the entries' strings and splitting gives the entries' lines in order |
| Markdown.SectionLinesHeadings | agents/companion/conversation_analyzer.py:70 | an entry's lines hold exactly the heading the entry contributes |
| Markdown.FlattenHeadings | agents/companion/conversation_analyzer.py:65-96 | the headings of the entries' lines are the entries' headings |
| Markdown.HeadingsOfAppend | agents/companion/conversation_analyzer.py:65-96 | the headings of two runs of entries are the headings of each, in order |
| Markdown.NoHeadings | agents/companion/conversation_analyzer.py:66-99 | fields and list sections contribute no heading |
| Markdown.DocumentShape | agents/companion/conversation_analyzer.py:101 | a report of several entries opens with the first entry and ends with a newline |
| ConversationAnalyzer.FormatAnalysisToMarkdown | agents/companion/conversation_analyzer.py:62-101 | the report opens with the `# Conversation Analysis` banner and ends with a newline |
| ConversationAnalyzer.SectionsStart | agents/companion/conversation_analyzer.py:63-65 | the sections open with the banner and then the Session Metadata heading |
| ConversationAnalyzer.ReportLines | agents/companion/conversation_analyzer.py:62-101 | with single-line fields, the report's lines are the banner, each group's blank line and heading, each field's line, and each list's title and one bullet per item, in the order written, then a final empty line |
| ConversationAnalyzer.ReportHeadings | agents/companion/conversation_analyzer.py:65-96 | when no field or list item holds a newline, the report's heading lines are exactly the six group headings, in order |
| ConversationAnalyzer.SectionsHeadings | agents/companion/conversation_analyzer.py:65-96 | the sections contribute exactly the six group headings, in order |
| ConversationAnalyzer.HeadingsOfSeven | agents/companion/conversation_analyzer.py:63-99 | the headings of the seven runs of sections are those of each run, in order |
| ConversationAnalyzer.GroupHeadings | agents/companion/conversation_analyzer.py:65-99 | each group contributes its own heading and no other |
| ConversationAnalyzer.HeadingsOfGroup | agents/companion/conversation_analyzer.py:65-99 | a group that opens with a heading, followed by fields and lists, contributes only that heading |
| ConversationAnalyzer.GetConversationHistory | agents/companion/conversation_analyzer.py:112-133 | `general_agent` and `companion_agent` select their history classes; any other hashable name is a KeyError and an unhashable one a TypeError |
| ConversationAnalyzer.ConversationAnalyzerAgent | agents/companion/conversation_analyzer.py:136-189 | a bad agent name or an empty id raises before any read and leaves the store unchanged; otherwise the previous agent's history is loaded and analysed, and the report is written |
| ConversationAnalyzer.Analyze | agents/companion/conversation_analyzer.py:164-189 | succeeds exactly when the model run and the write succeed; it then returns the report of the model's analysis and writes that report to `conversation_analyzed/{id}.md`; any failure is a bare Exception |
| ConversationAnalyzer.AnalysisReadsOwnHistory | agents/companion/conversation_analyzer.py:154-169 | two stores that agree at the analysed agent's message key give the same result |
| JournalAnalyzer.MoodLiterals | agents/journal/journal_analyzer.py:13 | the mood names are exactly the strings validation accepts, one per mood |
| JournalAnalyzer.CategoryLiterals | agents/journal/journal_analyzer.py:14 | the category names are exactly the strings validation accepts, one per category |
| JournalAnalyzer.NamesOneLine | agents/journal/journal_analyzer.py:13-14 | no mood or category name holds a newline |
| JournalAnalyzer.FormatAnalysisToMarkdown | agents/journal/journal_analyzer.py:18-24 | the report opens with the `# Journal Intent Analysis` banner line and ends with a newline; ReportLines gives every line and ReportRoundTrip reads the analysis back |
| JournalAnalyzer.ReportLines | agents/journal/journal_analyzer.py:18-24 | the report's lines are the banner, the mood and category fields, a blank line and the analysis heading, then the analysis text's own lines, then a final empty line |
| JournalAnalyzer.HeaderLines | agents/journal/journal_analyzer.py:19-22 | the five lines before the analysis text are the banner, two fields, a blank line and the heading |
| JournalAnalyzer.FiveSections | agents/journal/journal_analyzer.py:19-23 | five appended sections split into the expected lines |
| JournalAnalyzer.ReportRoundTrip | agents/journal/journal_analyzer.py:18-24 | every analysis reads back from its report unchanged, whatever its text holds |
| JournalAnalyzer.ParseMoodName | agents/journal/journal_analyzer.py:13 | a mood's name validates as that mood |
| JournalAnalyzer.ParseCategoryName | agents/journal/journal_analyzer.py:14 | a category's name validates as that category |
| JournalAnalyzer.JournalEntryAsWritten | agents/journal/journal_analyzer.py:37 | the entry is the `response` of a dict input (default `""`); a missing or non-dict input raises AttributeError |
| JournalAnalyzer.MissingInputRaises | agents/journal/journal_analyzer.py:37 | a state without `user_input` raises instead of giving an empty entry |
| JournalAnalyzer.JournalEntry | agents/journal/journal_analyzer.py:37 | a missing input reads as the empty entry; any given input behaves as written |
| JournalAnalyzer.MissingInputIsEmpty | agents/journal/journal_analyzer.py:37 | a missing input and a dict without `response` both give the empty entry |
| JournalAnalyzer.AnalyzeEntry | agents/journal/journal_analyzer.py:39-63 | a result comes only from a read entry and a successful model run, is that run's analysis, and its report, written to `journal_analyzed/{id}.md`, reads back as the analysis |
| JournalAnalyzer.JournalAnalyzerAgent | agents/journal/journal_analyzer.py:36-63 | as written: a state without `user_input` or with a non-dict one raises AttributeError, a failing model run its own error, a failing write OSError; otherwise it returns the analysis, and the report written to `journal_analyzed/{id}.md` reads back as that analysis |
| JournalAnalyzer.JournalAnalyzerAgentCorrected | agents/journal/journal_analyzer.py:36-63 | the same node with the corrected entry read: a missing `user_input` is analysed as the empty entry |
| JournalAnalyzer.NodesDifferOnMissingInput | agents/journal/journal_analyzer.py:37 | the node as written and the corrected node agree whenever `user_input` is present; without it the first raises and the second succeeds when the run and the write do |
| Routing.Steps | main.py:59-87 | a run executes at most `fuel` nodes, none when START picks END, and the first one is the node START picked |
| Routing.OneNodeRuns | graph.py:35-36 | when every node's edge leads to END, a run executes at most one node: the one START picked |
| Routing.EndingNodeIsLast | main.py:69-77 | a node whose edge leads to END can only be the last node run |
| WorkflowGraph.Router | graph.py:12-18 | `companion_agent` and `conversation_analyzer_agent` go to their nodes; anything else, a missing name included, goes to END |
| WorkflowGraph.AtMostOneNode | graph.py:25-36 | an invocation runs at most one node, the one the router picked |
| WorkflowGraph.RoutersDifferOnMissingName | graphs/companion.py:9-10 | the two agent routers differ only on a missing name, which only the companion graph sends to the companion |
| WorkflowGraph.TriggeredRunIsAnalysis | storage/redis/scheduler/trigger_service.py:74-93 | the state the trigger service builds runs the analyzer node once, then ends |
| CompanionGraph.Router | graphs/companion.py:6-16 | a missing name or `companion_agent` goes to the companion, `conversation_analyzer_agent` to the analyzer, anything else to END |
| CompanionGraph.AtMostOneNode | graphs/companion.py:23-34 | an invocation runs at most one node, the one the router picked |
| CompanionGraph.TriggeredRunIsAnalysis | graphs/companion.py:33-34 | the triggered state runs the analyzer node once, then ends |
| GeneralGraph.Router | main.py:46-52 | `next` of `general_agent` or `summarize_conversation` goes to that node, anything else to END |
| GeneralGraph.GeneralAgentNode | main.py:14-40 | an empty id raises ValueError; a failing model run raises a bare Exception with the store as the load left it; a successful turn saves the history plus one message and sets `next` to `user_input`; the load and the save each succeed or fail on their own |
| GeneralGraph.ReadFailureOverwritesHistory | main.py:16-35 | when the load fails but the save goes through, the stored general history becomes the new turn alone, whatever it held before |
| GeneralGraph.GeneralTurnEnds | main.py:39 | a run started at the general node executes it once and ends |
| GeneralGraph.GeneralNodeIsLast | main.py:69-77 | in any run the general node, once reached, is the last node run |
| GeneralGraph.TurnAppendsMessage | main.py:16-35 | after a successful turn the stored general history is the loaded one plus exactly the new user/assistant message |
| GeneralGraph.LoadedPlain | storage/redis/agent_history/base.py:53-58 | every field of a loaded history is a plain JSON value |
| GeneralGraph.PlainIsFlat | storage/redis/agent_history/base.py:87-95 | a history of plain JSON fields holds no model object |

## Left out

- The Redis client and its connection are not modelled. A client that raises on a call is the `up` flag, and a failing expiry reset on load is `expireUp`. The general node, which loads and saves in separate calls, has one flag for each (`loadUp`, `saveUp`).
- `SCAN` is not modelled. The keys a scan yields come in as a sequence; that covers any order and expired keys that have not been evicted yet.
- Timestamps (`registered_at`, `analyzed_at`, the next run time) are opaque strings given by the caller, because the clock is outside the model.
- Floating-point JSON numbers are not modelled, since no core operation relies on them. `duration_seconds` is left out for the same reason.
- Logging is left out, because it changes no result.
- APScheduler is not modelled: no job store, no interval trigger, no event listeners. A tick is one call of `ConversationScheduler.Tick`, and starting or stopping the scheduler is a `fails` flag.
- Concurrency is not modelled: `asyncio.gather` is a sequential map whose entries do not depend on each other. An exception inside the gather block is the `gatherFault` flag. The invoker is a pure function, so two sessions with the same ids in one batch get the same outcome; in the program the second run may differ, and its outcome then takes the dict slot.
- The graph factory, `ainvoke`, the model runs (`agent.run`) and the prompts composed for them are parameters. Their outcomes are given, and their text is not modelled.
- File writes and `os.makedirs` are modelled only by whether they succeed (`writeOk`). The written file is its path and its content.
- `mimetypes.guess_type`, path resolution, reading a file, base64 decoding and `str.encode` are the `Env` functions in `FileInput`; `pathStr` is `str(Path(s))`, pathlib's normalised spelling. Reading a path gives no regular file, an unreadable file (the OSError `read_bytes` raises) or its contents.
- `str.lower` is modelled for ASCII letters only. That is enough for the `http://` and `https://` checks.
- The summarize-conversation sub-graph is not part of this model. What it sets `next` to is a parameter.
- The MongoDB checkpoint saver and the graph compilation are left out, because they do not affect routing.
- `Routing.Steps` takes a `fuel` bound standing in for the graph runtime's recursion limit; runs longer than the fuel are not modelled.
- SCHEDULER_INTERVAL_SECONDS, TRIGGER_OFFSET_MINUTES and MESSAGE_EXPIRY_SECONDS are parameters. `config/` is not part of this model. The expiry is a positive number of seconds; a zero or negative expiry, which the store would reject, is not modelled.
- The scheduler's own `cleanup_expired_sessions` wrapper adds only a catch around `SessionRegistry.CleanupExpiredSessions`, which already returns 0 on failure.
- The `is_healthy` of the trigger service is the predicate `TriggerService.IsHealthy`, and `scheduler_healthy` is always true, because the scheduler object is made in the constructor.
- Pydantic coercions beyond the list-of-dicts check are not modelled: a model object's dump is given as JSON, and the analysis outputs are Dafny datatypes.
- The workflow id handed to the analyzer and general nodes is a string. A non-string id, which `SystemState` does not allow, is not modelled there.
- In the journal node the `user_input` value is JSON. A non-JSON Python object there is not modelled.
- SessionRegistry.GetSessionsExpiringSoon: states which records the result holds, both ways, and its length bound, not their order (which follows the scan).
- SessionRegistry.ScanExpiring: states membership both ways, not the order of the records.
- ConversationScheduler.Unanalyzed: states membership both ways, not that the filter keeps the sessions' order.
- TriggerService.Calls: states which invocations are made, both ways, not their order.
- ConversationScheduler.Tick: the graph invocation is a pure function of its `Invocation` and does not touch the store. In the program each triggered run loads the analysed agent's history, and that load resets the TTL of `workflow:{id}:messages:{agent}` (`ConversationAnalyzer.ConversationAnalyzerAgent` models the reset). So the frame "only the marked ids' keys change" holds for the model's tick, not for the program's; the same goes for `ConversationScheduler.RunManualCheck` and `ConversationScheduler.ManualCheckMatchesTick`.
- ConversationScheduler.Tick: states that every markable true id ends up marked, not the exact record a mark writes (that is `SessionRegistry.MarkSessionAnalyzed`'s contract).
- ConversationAnalyzer.ReportHeadings: proved only when no field or list item holds a newline. A field such as `"x\n## y"` adds a heading line of its own to the report.

## Findings

| source | as written | input that shows it | evidently intended | confidence | as-written member | corrected member |
|---|---|---|---|---|---|---|
| agents/journal/journal_analyzer.py:37 | `state.get("user_input", "").get("response", "")`: the `""` default has no `.get` | a state without `user_input` | a missing input reads as an empty journal entry | not executed; medium | JournalAnalyzer.MissingInputRaises | JournalAnalyzer.MissingInputIsEmpty |

=== FILE: agent_history.dfy ===
/**
 * BaseAgentHistory: a pydantic model holding one agent's messages, loaded
 * from and saved to the store under the subclass's own `agent_type`.
 *
 * A history class is its `agent_type`; a message is a dict from field name
 * to any value, a pydantic model object among them.
 */
module AgentHistory {
  import opened Wrappers
  import opened Json
  import opened TtlStore
  import opened SessionRegistry
  import opened HistoryKeyMapping
  import opened HistoryLoader
  import opened HistorySaver

  datatype HistoryClass = HistoryClass(agentType: string)

  /** BaseAgentHistory itself, whose `agent_type` is left empty. */
  const Base := HistoryClass("")

  /** The two subclasses the agents use. */
  const GeneralAgentHistory := HistoryClass(GeneralAgentType)
  const CompanionAgentHistory := HistoryClass(CompanionAgentType)

  type Message = map<string, PyValue>

  datatype History = History(messages: seq<Message>)

  /** `cls()`: the `messages` field defaults to an empty list. */
  const Empty := History([])

  /** `__init_subclass__`: a subclass must set a non-empty `agent_type`. */
  function DefineSubclass(agentType: string): (r: Raising<HistoryClass>)
    ensures r.Value? <==> agentType != ""
    ensures r.Value? ==> r.value.agentType == agentType
    ensures r.Raise? ==> r.error == ValueError
  {
    if agentType == "" then Raise(ValueError) else Value(HistoryClass(agentType))
  }

  /** A stored JSON object as a message: every field holds its decoded value. */
  function AsMessage(o: map<string, Json>): (m: Message)
    ensures m.Keys == o.Keys
    ensures forall k :: k in m ==> m[k] == PyJson(o[k])
  {
    map k | k in o :: PyJson(o[k])
  }

  /** pydantic's check of `messages: List[Dict[str, Any]]` on a loaded value. */
  function Validate(v: Json): (r: Option<seq<Message>>)
    ensures r.Some? <==> v.JArr? && forall i :: 0 <= i < |v.items| ==> v.items[i].JObj?
    ensures r.Some? ==> |r.value| == |v.items|
                        && forall i :: 0 <= i < |v.items| ==> r.value[i] == AsMessage(v.items[i].fields)
  {
    if v.JArr? && forall i :: 0 <= i < |v.items| ==> v.items[i].JObj? then
      Some(seq(|v.items|, i requires 0 <= i < |v.items| => AsMessage(v.items[i].fields)))
    else None
  }

  /**
   * load_or_create: the stored messages when there are some and they pass
   * validation, otherwise an empty history; an empty id raises ValueError.
   */
  function LoadOrCreate(cls: HistoryClass, st: Store, up: bool, expireUp: bool, expiry: Seconds,
                        workflowId: string): (r: Raising<Reply<History>>)
    ensures r.Raise? <==> workflowId == ""
    ensures r.Raise? ==> r.error == ValueError
    ensures r.Value? ==>
              r.value.store == HistoryLoader.LoadHistory(st, up, expireUp, expiry, workflowId, cls.agentType).store
    ensures r.Value? ==>
              var loaded := HistoryLoader.LoadHistory(st, up, expireUp, expiry, workflowId, cls.agentType).value;
              var ms := r.value.value.messages;
              && (|ms| > 0 <==> loaded.JArr? && |loaded.items| > 0
                                && forall i :: 0 <= i < |loaded.items| ==> loaded.items[i].JObj?)
              && (|ms| > 0 ==> |ms| == |loaded.items|
                               && forall i :: 0 <= i < |ms| ==> ms[i] == AsMessage(loaded.items[i].fields))
  {
    if workflowId == "" then Raise(ValueError)
    else
      var loaded := HistoryLoader.LoadHistory(st, up, expireUp, expiry, workflowId, cls.agentType);
      if !Truthy(loaded.value) then Value(Reply(loaded.store, Empty))
      else match Validate(loaded.value)
        case None => Value(Reply(loaded.store, Empty))
        case Some(ms) => Value(Reply(loaded.store, History(ms)))
  }

  /** The history loaded depends on the store only through the class's own message key. */
  lemma LoadOrCreateDependsOnKey(cls: HistoryClass, st1: Store, st2: Store, up: bool, expireUp: bool,
                                 expiry: Seconds, workflowId: string)
    requires workflowId != ""
    requires Read(st1, MessageKey(workflowId, cls.agentType)) == Read(st2, MessageKey(workflowId, cls.agentType))
    ensures LoadOrCreate(cls, st1, up, expireUp, expiry, workflowId).value.value
            == LoadOrCreate(cls, st2, up, expireUp, expiry, workflowId).value.value
  {
    var v1 := HistoryLoader.LoadHistory(st1, up, expireUp, expiry, workflowId, cls.agentType).value;
    var v2 := HistoryLoader.LoadHistory(st2, up, expireUp, expiry, workflowId, cls.agentType).value;
    assert v1 == v2;
  }

  /** The value stored for one field: a model object becomes its model_dump(); anything else stays. */
  function Unwrap(v: PyValue): PyValue {
    if v.PyModel? then PyJson(v.dump) else v
  }

  /** The serialisation loop of `save`: one level of model_dump per message field. */
  function Serializable(messages: seq<Message>): (r: seq<Message>)
    ensures |r| == |messages|
    ensures forall i :: 0 <= i < |r| ==> r[i].Keys == messages[i].Keys
    ensures forall i, k :: 0 <= i < |r| && k in r[i] && messages[i][k].PyModel? ==>
              r[i][k] == PyJson(messages[i][k].dump)
    ensures forall i, k :: 0 <= i < |r| && k in r[i] && !messages[i][k].PyModel? ==> r[i][k] == messages[i][k]
  {
    seq(|messages|, i requires 0 <= i < |messages| => map k | k in messages[i] :: Unwrap(messages[i][k]))
  }

  /** The list handed to save_messages_to_redis. */
  function Payload(messages: seq<Message>): PyValue {
    var s := Serializable(messages);
    PyList(seq(|s|, i requires 0 <= i < |s| => PyDict(s[i])))
  }

  /** The payload can be encoded exactly when no field holds a model object below its top level. */
  lemma PayloadHoldsModel(messages: seq<Message>)
    ensures HoldsModel(Payload(messages)) <==> !Flat(messages)
  {
    var s := Serializable(messages);
    var p := Payload(messages);
    if !Flat(messages) {
      var i, k :| 0 <= i < |messages| && k in messages[i] && HoldsModel(Unwrap(messages[i][k]));
      assert s[i][k] == Unwrap(messages[i][k]);
      assert p.items[i] == PyDict(s[i]);
      assert HoldsModel(p.items[i]);
    }
    if HoldsModel(p) {
      var i :| 0 <= i < |p.items| && HoldsModel(p.items[i]);
      assert p.items[i] == PyDict(s[i]);
      var k :| k in s[i] && HoldsModel(s[i][k]);
      assert s[i][k] == Unwrap(messages[i][k]);
    }
  }

  /** save: write the serialised messages under the class's own agent type; an empty id raises ValueError. */
  function Save(cls: HistoryClass, h: History, st: Store, up: bool, expiry: Seconds, workflowId: string)
    : (r: Raising<Reply<bool>>)
    ensures r.Raise? <==> workflowId == ""
    ensures r.Raise? ==> r.error == ValueError
    ensures r.Value? ==> Untouched(st, r.value.store, MessageKey(workflowId, cls.agentType))
    ensures r.Value? && cls.agentType == "" ==> r.value == Reply(st, false)
    ensures r.Value? && cls.agentType != "" ==>
              (r.value.value <==> h.messages == [] || (up && Flat(h.messages)))
    ensures r.Value? && cls.agentType != "" && h.messages != [] && r.value.value ==>
              Read(r.value.store, MessageKey(workflowId, cls.agentType)) == Some(Encoded(Dumps(Payload(h.messages)).value))
              && Ttl(r.value.store, MessageKey(workflowId, cls.agentType)) == expiry
    ensures r.Value? && !r.value.value ==> r.value.store == st
  {
    PayloadHoldsModel(h.messages);
    if workflowId == "" then Raise(ValueError)
    else Value(SaveMessagesToRedis(st, up, expiry, workflowId, cls.agentType, Payload(h.messages)))
  }

  /** Saving touches no session record: those live under `session:` keys. */
  lemma SaveKeepsSessions(cls: HistoryClass, h: History, st: Store, up: bool, expiry: Seconds,
                          workflowId: string, sessionId: string)
    requires workflowId != ""
    ensures SameAt(st, Save(cls, h, st, up, expiry, workflowId).value.store, SessionKey(sessionId))
  {
    MessageKeyNotSessionKey(workflowId, cls.agentType, sessionId);
    UntouchedSameAt(st, Save(cls, h, st, up, expiry, workflowId).value.store,
                    MessageKey(workflowId, cls.agentType), SessionKey(sessionId));
  }

  /** Saving one agent's history leaves every other agent's history of the workflow as it was. */
  lemma SaveKeepsOtherAgents(cls: HistoryClass, other: string, h: History, st: Store, up: bool, expiry: Seconds,
                             workflowId: string)
    requires workflowId != "" && other != cls.agentType
    ensures SameAt(st, Save(cls, h, st, up, expiry, workflowId).value.store, MessageKey(workflowId, other))
  {
    if MessageKey(workflowId, other) == MessageKey(workflowId, cls.agentType) {
      MessageKeyInjectiveInAgent(workflowId, other, cls.agentType);
    }
    UntouchedSameAt(st, Save(cls, h, st, up, expiry, workflowId).value.store,
                    MessageKey(workflowId, cls.agentType), MessageKey(workflowId, other));
  }

  /** A model object one level down is not unwrapped, so the save fails and nothing is written. */
  lemma NestedModelFailsSave(cls: HistoryClass, h: History, st: Store, up: bool, expiry: Seconds,
                             workflowId: string, i: int, k: string, j: int)
    requires workflowId != "" && cls.agentType != ""
    requires 0 <= i < |h.messages| && k in h.messages[i] && h.messages[i][k].PyList?
    requires 0 <= j < |h.messages[i][k].items| && h.messages[i][k].items[j].PyModel?
    ensures Save(cls, h, st, up, expiry, workflowId) == Value(Reply(st, false))
  {
    var s := Serializable(h.messages);
    var p := Payload(h.messages);
    assert s[i][k] == h.messages[i][k];
    assert HoldsModel(s[i][k]);
    assert p.items[i] == PyDict(s[i]);
    assert HoldsModel(p.items[i]);
  }

  /** What a saved field reads back as: the JSON encoding of its serialised value. */
  function Stored(v: PyValue): PyValue
    requires !HoldsModel(Unwrap(v))
  {
    PyJson(Dumps(Unwrap(v)).value)
  }

  /** No field holds a model object below its top level. */
  predicate Flat(messages: seq<Message>) {
    forall i, k :: 0 <= i < |messages| && k in messages[i] ==> !HoldsModel(Unwrap(messages[i][k]))
  }

  /**
   * Round trip through the base class: saving a non-empty flat history and
   * loading it back gives the same messages in the same order, each field now
   * the JSON of its serialised value.
   */
  lemma SaveThenLoadOrCreate(cls: HistoryClass, h: History, st: Store, expiry: Seconds, workflowId: string,
                             expireUp: bool, expiry': Seconds)
    requires workflowId != "" && cls.agentType != "" && |h.messages| > 0 && Flat(h.messages)
    ensures var saved := Save(cls, h, st, true, expiry, workflowId).value;
            && saved.value
            && var back := LoadOrCreate(cls, saved.store, true, expireUp, expiry', workflowId).value.value;
               && |back.messages| == |h.messages|
               && forall i :: 0 <= i < |h.messages| ==>
                    back.messages[i].Keys == h.messages[i].Keys
                    && forall k :: k in h.messages[i] ==> back.messages[i][k] == Stored(h.messages[i][k])
  {
    var s := Serializable(h.messages);
    var p := Payload(h.messages);
    FlatPayloadEncodes(h.messages);
    var saved := Save(cls, h, st, true, expiry, workflowId).value;
    var j := Dumps(p).value;
    SaveThenLoadValue(st, expiry, workflowId, cls.agentType, p.items, expireUp, expiry');
    var loaded := HistoryLoader.LoadHistory(saved.store, true, expireUp, expiry', workflowId, cls.agentType).value;
    assert loaded == j;
    assert Truthy(loaded);
    var ms := Validate(loaded).value;
    forall i | 0 <= i < |h.messages|
      ensures ms[i].Keys == h.messages[i].Keys
      ensures forall k :: k in h.messages[i] ==> ms[i][k] == Stored(h.messages[i][k])
    {
      assert ms[i] == AsMessage(j.items[i].fields);
      forall k | k in h.messages[i] ensures ms[i][k] == Stored(h.messages[i][k]) {
        assert s[i][k] == Unwrap(h.messages[i][k]);
      }
    }
  }

  /** A flat history's payload encodes as a list with one object per message. */
  lemma FlatPayloadEncodes(messages: seq<Message>)
    requires Flat(messages)
    ensures !HoldsModel(Payload(messages))
    ensures var j := Dumps(Payload(messages)).value;
            && j.JArr? && |j.items| == |messages|
            && forall i :: 0 <= i < |messages| ==>
                 j.items[i] == JObj(map k | k in Serializable(messages)[i] :: Dumps(Serializable(messages)[i][k]).value)
  {
    var s := Serializable(messages);
    var p := Payload(messages);
    forall i | 0 <= i < |p.items| ensures !HoldsModel(p.items[i]) {
      assert p.items[i] == PyDict(s[i]);
      forall k | k in s[i] ensures !HoldsModel(s[i][k]) {
        assert s[i][k] == Unwrap(messages[i][k]);
      }
    }
    assert !HoldsModel(p);
    var j := Dumps(p).value;
    forall i | 0 <= i < |j.items| ensures j.items[i] == JObj(map k | k in s[i] :: Dumps(s[i][k]).value) {
      assert j.items[i] == Dumps(p.items[i]).value;
      assert p.items[i] == PyDict(s[i]);
    }
  }
}

=== FILE: companion_graph.dfy ===
/**
 * The companion graph (graphs/companion.py): START routes on `agent_name`
 * to the companion or the analyzer node, and both nodes lead to END.
 * A missing `agent_name` (read as None) goes to the companion.
 */
module CompanionGraph {
  import opened Json
  import opened Routing
  import opened TriggerService

  const CompanionAgentName := "companion_agent"

  /** router, on `state.get("agent_name")`. */
  function Router(agentName: Json): (t: Target)
    ensures t == To(CompanionAgent) <==> agentName == JNull || agentName == JStr(CompanionAgentName)
    ensures t == To(ConversationAnalyzerAgent) <==> agentName == JStr(AnalyzerAgent)
    ensures t == End <==> !(agentName == JNull || agentName == JStr(CompanionAgentName) || agentName == JStr(AnalyzerAgent))
  {
    if agentName == JNull then To(CompanionAgent)
    else if agentName == JStr(CompanionAgentName) then To(CompanionAgent)
    else if agentName == JStr(AnalyzerAgent) then To(ConversationAnalyzerAgent)
    else End
  }

  /** The fixed edges: both nodes go straight to END. */
  function Edge(n: Node): Target {
    End
  }

  function Run(agentName: Json, fuel: nat): seq<Node> {
    Steps(Router(agentName), Edge, fuel)
  }

  /** One invocation runs at most one agent node, the one the router picked. */
  lemma AtMostOneNode(agentName: Json, fuel: nat)
    ensures |Run(agentName, fuel)| <= 1
    ensures fuel > 0 && Router(agentName).To? ==> Run(agentName, fuel) == [Router(agentName).node]
  {
    OneNodeRuns(Router(agentName), Edge, fuel);
  }

  /** The state the trigger service builds runs the analyzer node once, then ends. */
  lemma TriggeredRunIsAnalysis(s: Service, invoke: Invoker, userId: Json, workflowId: Json, agentName: Json, fuel: nat)
    requires fuel > 0
    requires TriggerConversationAnalysis(s, invoke, userId, workflowId, agentName).call.Some?
    ensures var c := TriggerConversationAnalysis(s, invoke, userId, workflowId, agentName).call.value;
            Run(JStr(c.state.agentName), fuel) == [ConversationAnalyzerAgent]
  {
    OneNodeRuns(To(ConversationAnalyzerAgent), Edge, fuel);
  }
}

=== FILE: conversation_analyzer.dfy ===
/**
 * The conversation analyzer: the structured analysis the model returns, its
 * Markdown report, the lookup of the analysed agent's history class, and
 * the graph node that ties them together.
 *
 * The language model and the report file write are parameters: `analyze`
 * gives the analysis for the history it is shown (None when the run
 * fails), and `writeOk` says whether creating the directory and writing the
 * file succeed.
 */
module ConversationAnalyzer {
  import opened Wrappers
  import opened Json
  import opened TtlStore
  import opened HistoryKeyMapping
  import opened HistoryLoader
  import opened AgentHistory
  import opened Markdown

  datatype SessionMetadata = SessionMetadata(
    companionName: string,
    companionGender: string,
    interactionType: string)

  datatype IntentAnalysis = IntentAnalysis(
    primaryIntent: string,
    secondaryIntents: seq<string>,
    intentFulfillment: string,
    evolvingNeeds: string)

  datatype EmotionalProfile = EmotionalProfile(
    initialState: string,
    emotionalJourney: seq<string>,
    finalState: string,
    emotionalNeeds: seq<string>,
    triggers: seq<string>)

  datatype RelationshipDynamics = RelationshipDynamics(
    interactionStyle: string,
    trustIndicators: seq<string>,
    companionPerformance: string,
    attachmentSignals: string)

  datatype ContextualInsights = ContextualInsights(
    sessionQuality: string,
    userEngagement: string,
    conversationFlow: string,
    preferredTopics: seq<string>,
    avoidedTopics: seq<string>)

  datatype Recommendations = Recommendations(
    companionImprovements: seq<string>,
    userPatterns: string,
    futureSessionGuidance: string)

  datatype ConversationAnalyzed = ConversationAnalyzed(
    sessionMetadata: SessionMetadata,
    intentAnalysis: IntentAnalysis,
    emotionalProfile: EmotionalProfile,
    relationshipDynamics: RelationshipDynamics,
    contextualInsights: ContextualInsights,
    recommendations: Recommendations)

  /** The `sections` list of format_analysis_to_markdown, one section per append. */
  function Sections(data: ConversationAnalyzed): seq<Section> {
    [Banner("Conversation Analysis")]
    + MetadataSections(data.sessionMetadata)
    + IntentSections(data.intentAnalysis)
    + EmotionalSections(data.emotionalProfile)
    + RelationshipSections(data.relationshipDynamics)
    + ContextualSections(data.contextualInsights)
    + RecommendationSections(data.recommendations)
  }

  function MetadataSections(m: SessionMetadata): seq<Section> {
    [ Heading("Session Metadata", false),
      FieldEntry("Companion Name", m.companionName),
      FieldEntry("Companion Gender", m.companionGender),
      FieldEntry("Interaction Type", m.interactionType) ]
  }

  function IntentSections(i: IntentAnalysis): seq<Section> {
    [ Heading("Intent Analysis", true),
      FieldEntry("Primary Intent", i.primaryIntent),
      ListEntry("Secondary Intents", i.secondaryIntents),
      FieldEntry("Intent Fulfillment", i.intentFulfillment),
      FieldEntry("Evolving Needs", i.evolvingNeeds) ]
  }

  function EmotionalSections(e: EmotionalProfile): seq<Section> {
    [ Heading("Emotional Profile", true),
      FieldEntry("Initial State", e.initialState),
      ListEntry("Emotional Journey", e.emotionalJourney),
      FieldEntry("Final State", e.finalState),
      ListEntry("Emotional Needs", e.emotionalNeeds),
      ListEntry("Triggers", e.triggers) ]
  }

  function RelationshipSections(d: RelationshipDynamics): seq<Section> {
    [ Heading("Relationship Dynamics", true),
      FieldEntry("Interaction Style", d.interactionStyle),
      ListEntry("Trust Indicators", d.trustIndicators),
      FieldEntry("Companion Performance", d.companionPerformance),
      FieldEntry("Attachment Signals", d.attachmentSignals) ]
  }

  function ContextualSections(c: ContextualInsights): seq<Section> {
    [ Heading("Contextual Insights", true),
      FieldEntry("Session Quality", c.sessionQuality),
      FieldEntry("User Engagement", c.userEngagement),
      FieldEntry("Conversation Flow", c.conversationFlow),
      ListEntry("Preferred Topics", c.preferredTopics),
      ListEntry("Avoided Topics", c.avoidedTopics) ]
  }

  function RecommendationSections(r: Recommendations): seq<Section> {
    [ Heading("Recommendations", true),
      ListEntry("Companion Improvements", r.companionImprovements),
      FieldEntry("User Patterns", r.userPatterns),
      FieldEntry("Future Session Guidance", r.futureSessionGuidance) ]
  }

  /** format_analysis_to_markdown: the banner line first, a final newline last. */
  function FormatAnalysisToMarkdown(data: ConversationAnalyzed): (md: string)
    ensures StartsWith(md, BannerLine("Conversation Analysis") + "\n")
    ensures md[|md| - 1] == '\n'
  {
    SectionsStart(data);
    DocumentShape(Sections(data));
    Document(Sections(data))
  }

  /** The report opens with the banner and then the Session Metadata heading. */
  lemma SectionsStart(data: ConversationAnalyzed)
    ensures |Sections(data)| >= 2 && Sections(data)[0] == Banner("Conversation Analysis")
    ensures Sections(data)[1] == Heading("Session Metadata", false)
  {
  }

  /** No field or list item of the analysis holds a newline. */
  predicate SingleLineFields(data: ConversationAnalyzed) {
    forall i :: 0 <= i < |Sections(data)| ==> SectionOneLine(Sections(data)[i])
  }

  /**
   * The report line by line: every entry's own lines in order, each list
   * field expanded to its title line and one bullet per item, then the empty
   * line after the closing newline.
   */
  lemma ReportLines(data: ConversationAnalyzed)
    requires SingleLineFields(data)
    ensures Split(FormatAnalysisToMarkdown(data)) == Flatten(Sections(data)) + [""]
  {
    DocumentLines(Sections(data));
  }

  /** The six section headings, in their fixed order. */
  const AnalysisHeadings := [HeadingLine("Session Metadata"), HeadingLine("Intent Analysis"),
                             HeadingLine("Emotional Profile"), HeadingLine("Relationship Dynamics"),
                             HeadingLine("Contextual Insights"), HeadingLine("Recommendations")]

  lemma ReportHeadings(data: ConversationAnalyzed)
    requires SingleLineFields(data)
    ensures Headings(Split(FormatAnalysisToMarkdown(data))) == AnalysisHeadings
  {
    var es := Sections(data);
    ReportLines(data);
    FlattenHeadings(es);
    HeadingsAppend(Flatten(es), [""]);
    assert Headings([""]) == [];
    SectionsHeadings(data);
  }

  lemma SectionsHeadings(data: ConversationAnalyzed)
    ensures HeadingsOf(Sections(data)) == AnalysisHeadings
  {
    var b := [Banner("Conversation Analysis")];
    var m := MetadataSections(data.sessionMetadata);
    var i := IntentSections(data.intentAnalysis);
    var e := EmotionalSections(data.emotionalProfile);
    var d := RelationshipSections(data.relationshipDynamics);
    var c := ContextualSections(data.contextualInsights);
    var r := RecommendationSections(data.recommendations);
    assert HeadingsOf(b) == [];
    GroupHeadings(data);
    HeadingsOfSeven(b, m, i, e, d, c, r);
  }

  /** The headings of seven runs of entries, one run after another. */
  lemma HeadingsOfSeven(b: seq<Section>, m: seq<Section>, i: seq<Section>, e: seq<Section>,
                        d: seq<Section>, c: seq<Section>, r: seq<Section>)
    ensures HeadingsOf(b + m + i + e + d + c + r)
            == HeadingsOf(b) + HeadingsOf(m) + HeadingsOf(i) + HeadingsOf(e) + HeadingsOf(d) + HeadingsOf(c) + HeadingsOf(r)
  {
    HeadingsOfAppend(b, m);
    HeadingsOfAppend(b + m, i);
    HeadingsOfAppend(b + m + i, e);
    HeadingsOfAppend(b + m + i + e, d);
    HeadingsOfAppend(b + m + i + e + d, c);
    HeadingsOfAppend(b + m + i + e + d + c, r);
  }

  lemma GroupHeadings(data: ConversationAnalyzed)
    ensures HeadingsOf(MetadataSections(data.sessionMetadata)) == [HeadingLine("Session Metadata")]
    ensures HeadingsOf(IntentSections(data.intentAnalysis)) == [HeadingLine("Intent Analysis")]
    ensures HeadingsOf(EmotionalSections(data.emotionalProfile)) == [HeadingLine("Emotional Profile")]
    ensures HeadingsOf(RelationshipSections(data.relationshipDynamics)) == [HeadingLine("Relationship Dynamics")]
    ensures HeadingsOf(ContextualSections(data.contextualInsights)) == [HeadingLine("Contextual Insights")]
    ensures HeadingsOf(RecommendationSections(data.recommendations)) == [HeadingLine("Recommendations")]
  {
    HeadingsOfGroup(MetadataSections(data.sessionMetadata));
    HeadingsOfGroup(IntentSections(data.intentAnalysis));
    HeadingsOfGroup(EmotionalSections(data.emotionalProfile));
    HeadingsOfGroup(RelationshipSections(data.relationshipDynamics));
    HeadingsOfGroup(ContextualSections(data.contextualInsights));
    HeadingsOfGroup(RecommendationSections(data.recommendations));
  }

  /** A group opens with its heading and holds no other. */
  lemma HeadingsOfGroup(g: seq<Section>)
    requires |g| > 0 && g[0].Heading?
    requires forall j :: 1 <= j < |g| ==> g[j].FieldEntry? || g[j].ListEntry?
    ensures HeadingsOf(g) == [HeadingLine(g[0].title)]
  {
    NoHeadings(g[1..]);
  }

  /**
   * get_conversation_history: the history class for the two agent names;
   * any other key is a KeyError, an unhashable one a TypeError.
   */
  function GetConversationHistory(agentName: Json): (r: Raising<HistoryClass>)
    ensures r.Value? <==> agentName == JStr(GeneralAgentType) || agentName == JStr(CompanionAgentType)
    ensures r.Value? ==> agentName == JStr(r.value.agentType)
    ensures r.Raise? ==> r.error == (if Hashable(agentName) then KeyError else TypeError)
  {
    if agentName == JStr(GeneralAgentType) then Value(GeneralAgentHistory)
    else if agentName == JStr(CompanionAgentType) then Value(CompanionAgentHistory)
    else if !Hashable(agentName) then Raise(TypeError)
    else Raise(KeyError)
  }

  /** The node's state update and the file it wrote. */
  datatype Analyzed = Analyzed(conversationAnalyzed: string, file: Artifact)

  function ReportPath(workflowId: string): string {
    "conversation_analyzed/" + workflowId + ".md"
  }

  /**
   * conversation_analyzer_agent. A failure of the model or of the write is
   * wrapped in a bare Exception; the history lookup and an empty workflow id
   * raise before that, leaving the store as it was.
   */
  function ConversationAnalyzerAgent(st: Store, up: bool, expireUp: bool, expiry: Seconds,
                                     previousAgent: Json, workflowId: string,
                                     analyze: History -> Option<ConversationAnalyzed>, writeOk: bool)
    : (r: Reply<Raising<Analyzed>>)
    ensures GetConversationHistory(previousAgent).Raise? ==>
              r == Reply(st, Raise(GetConversationHistory(previousAgent).error))
    ensures GetConversationHistory(previousAgent).Value? && workflowId == "" ==> r == Reply(st, Raise(ValueError))
    ensures GetConversationHistory(previousAgent).Value? && workflowId != "" ==>
              var loaded := LoadOrCreate(GetConversationHistory(previousAgent).value, st, up, expireUp, expiry,
                                         workflowId).value;
              && r.store == loaded.store
              && (r.value.Value? <==> analyze(loaded.value).Some? && writeOk)
              && (r.value.Raise? ==> r.value.error == PlainException)
    ensures r.value.Value? ==>
              && r.value.value.conversationAnalyzed == r.value.value.file.content
              && r.value.value.file.path == ReportPath(workflowId)
              && exists data :: r.value.value.file.content == FormatAnalysisToMarkdown(data)
  {
    match GetConversationHistory(previousAgent)
    case Raise(e) => Reply(st, Raise(e))
    case Value(cls) =>
      match LoadOrCreate(cls, st, up, expireUp, expiry, workflowId)
      case Raise(e) => Reply(st, Raise(e))
      case Value(loaded) => Reply(loaded.store, Analyze(loaded.value, workflowId, analyze, writeOk))
  }

  /** The node's work once the history is loaded: analyse it, then write the report. */
  function Analyze(h: History, workflowId: string, analyze: History -> Option<ConversationAnalyzed>, writeOk: bool)
    : (r: Raising<Analyzed>)
    ensures r.Value? <==> analyze(h).Some? && writeOk
    ensures r.Raise? ==> r.error == PlainException
    ensures r.Value? ==>
              && r.value.conversationAnalyzed == r.value.file.content
              && r.value.file.path == ReportPath(workflowId)
              && r.value.file.content == FormatAnalysisToMarkdown(analyze(h).value)
  {
    match analyze(h)
    case None => Raise(PlainException)
    case Some(data) =>
      if !writeOk then Raise(PlainException)
      else
        var md := FormatAnalysisToMarkdown(data);
        Value(Analyzed(md, Artifact(ReportPath(workflowId), md)))
  }

  /**
   * The analysis sees the analysed agent's own history only: two stores that
   * hold the same value under that agent's message key give the same result.
   */
  lemma AnalysisReadsOwnHistory(st1: Store, st2: Store, up: bool, expireUp: bool, expiry: Seconds,
                                previousAgent: Json, workflowId: string,
                                analyze: History -> Option<ConversationAnalyzed>, writeOk: bool)
    requires GetConversationHistory(previousAgent).Value?
    requires var k := MessageKey(workflowId, GetConversationHistory(previousAgent).value.agentType);
             Read(st1, k) == Read(st2, k)
    ensures ConversationAnalyzerAgent(st1, up, expireUp, expiry, previousAgent, workflowId, analyze, writeOk).value
            == ConversationAnalyzerAgent(st2, up, expireUp, expiry, previousAgent, workflowId, analyze, writeOk).value
  {
    var cls := GetConversationHistory(previousAgent).value;
    if workflowId != "" {
      var l1 := LoadOrCreate(cls, st1, up, expireUp, expiry, workflowId).value;
      var l2 := LoadOrCreate(cls, st2, up, expireUp, expiry, workflowId).value;
      LoadOrCreateDependsOnKey(cls, st1, st2, up, expireUp, expiry, workflowId);
      assert ConversationAnalyzerAgent(st1, up, expireUp, expiry, previousAgent, workflowId, analyze, writeOk).value
             == Analyze(l1.value, workflowId, analyze, writeOk);
      assert ConversationAnalyzerAgent(st2, up, expireUp, expiry, previousAgent, workflowId, analyze, writeOk).value
             == Analyze(l2.value, workflowId, analyze, writeOk);
    }
  }
}

=== FILE: conversation_scheduler.dfy ===
/**
 * The background scheduler: one tick of the periodic expiring-sessions job,
 * the manual check that runs the same pipeline and reports a summary, the
 * running flag behind `start`/`stop`, and the module-level singleton.
 *
 * A tick is a function from the store and what the world does during it
 * (store availability, the scan order, the graph's answers, mark failures,
 * timestamps) to the new store and what the tick did.
 */
module ConversationScheduler {
  import opened Wrappers
  import opened Json
  import opened TtlStore
  import opened SessionRegistry
  import opened ResultDict
  import opened TriggerService

  const JobId := "conversation_analysis_job"

  /** SCHEDULER_INTERVAL_SECONDS and TRIGGER_OFFSET_MINUTES. */
  datatype Config = Config(intervalSeconds: Seconds, offsetMinutes: Seconds)

  /**
   * What a tick meets: whether the store answers the scan, the keys the scan
   * yields, the graph's `ainvoke`, whether the gather block fails, the ids
   * whose mark meets a failing store, and the `analyzed_at` stamp of each mark.
   */
  datatype World = World(
    scanUp: bool,
    scan: seq<string>,
    invoke: Invoker,
    gatherFault: bool,
    markDown: set<Json>,
    stampOf: Json -> string)

  /** The filter the scheduler applies before handing sessions to the trigger service. */
  function Unanalyzed(sessions: seq<Object>): (r: seq<Object>)
    ensures |r| <= |sessions|
    ensures forall o :: o in r <==> o in sessions && NotAnalyzed(o)
  {
    if |sessions| == 0 then []
    else
      var rest := Unanalyzed(sessions[1..]);
      assert forall o :: o in sessions <==> o == sessions[0] || o in sessions[1..];
      if NotAnalyzed(sessions[0]) then [sessions[0]] + rest else rest
  }

  /** The session key behind the mark of one result id: `f"session:{workflow_id}"`. */
  function MarkKey(id: Json): string
    requires Hashable(id)
  {
    SessionKey(Render(id))
  }

  /** The record at `w`'s session key reads `analyzed: true`. */
  predicate IsMarked(st: Store, w: string) {
    StoredObject(st, SessionKey(w)).Some? && GetOr(StoredObject(st, SessionKey(w)).value, "analyzed", JBool(false)) == JBool(true)
  }

  /** A marked session is what `is_session_analyzed` reports as analyzed. */
  lemma MarkedReadsAnalyzed(st: Store, w: string)
    requires w != ""
    ensures IsMarked(st, w) ==> IsSessionAnalyzed(st, true, w) == Value(JBool(true))
  {
    if IsMarked(st, w) {
      var o := StoredObject(st, SessionKey(w)).value;
      assert Read(st, SessionKey(w)) == Some(Encoded(JObj(o)));
    }
  }

  /** `mark_session_analyzed(workflow_id)` for one id of the result dict; a falsy id is refused. */
  function MarkOne(st: Store, id: Json, w: World): (r: Store)
    requires Hashable(id)
    ensures Untouched(st, r, MarkKey(id))
    ensures Truthy(id) && id !in w.markDown && StoredObject(st, MarkKey(id)).Some? ==> IsMarked(r, Render(id))
    ensures !Truthy(id) || id in w.markDown ==> r == st
  {
    if !Truthy(id) then st
    else
      assert Render(id) != "";
      var m := MarkSessionAnalyzed(st, id !in w.markDown, Render(id), w.stampOf(id));
      assert m.value ==> GetOr(StoredObject(m.store, MarkKey(id)).value, "analyzed", JBool(false)) == JBool(true);
      m.store
  }

  /** A mark never unmarks anything and never drops a stored record. */
  lemma MarkOneKeeps(st: Store, id: Json, w: World, v: string)
    requires Hashable(id)
    ensures IsMarked(st, v) ==> IsMarked(MarkOne(st, id, w), v)
    ensures StoredObject(st, SessionKey(v)).Some? ==> StoredObject(MarkOne(st, id, w), SessionKey(v)).Some?
  {
    var r := MarkOne(st, id, w);
    if SessionKey(v) != MarkKey(id) {
      UntouchedSameAt(st, r, MarkKey(id), SessionKey(v));
    } else if Truthy(id) && id !in w.markDown {
      var m := MarkSessionAnalyzed(st, true, Render(id), w.stampOf(id));
      assert m.value <==> StoredObject(st, MarkKey(id)).Some?;
    }
  }

  /** Some id in `ids` marks key `k`. */
  predicate Touches(ids: seq<Json>, k: string) {
    exists i :: 0 <= i < |ids| && Hashable(ids[i]) && k == MarkKey(ids[i])
  }

  /**
   * The marking loop: every id in order, each mark independent of whether
   * the previous ones succeeded.
   */
  function MarkAll(st: Store, ids: seq<Json>, w: World): (r: Store)
    requires forall i :: 0 <= i < |ids| ==> Hashable(ids[i])
    ensures r.now == st.now
    ensures forall k :: !Touches(ids, k) ==> SameEntry(st, r, k)
    ensures forall v :: IsMarked(st, v) ==> IsMarked(r, v)
    ensures forall i :: (0 <= i < |ids| && Truthy(ids[i]) && ids[i] !in w.markDown
                         && StoredObject(st, MarkKey(ids[i])).Some?) ==> IsMarked(r, Render(ids[i]))
    decreases |ids|
  {
    if |ids| == 0 then st
    else
      var st1 := MarkOne(st, ids[0], w);
      var rest := ids[1..];
      assert forall i :: 1 <= i < |ids| ==> ids[i] == rest[i - 1];
      var r := MarkAll(st1, rest, w);
      forall v ensures (IsMarked(st, v) ==> IsMarked(r, v))
                   && (StoredObject(st, SessionKey(v)).Some? ==> StoredObject(st1, SessionKey(v)).Some?) {
        MarkOneKeeps(st, ids[0], w, v);
      }
      assert forall k :: !Touches(ids, k) ==> k != MarkKey(ids[0]) && !Touches(rest, k);
      r
  }

  datatype TickResult = TickResult(
    store: Store,
    passed: seq<Object>,        // what went to trigger_multiple_analyses ([] when not called)
    calls: seq<Invocation>,     // the graph invocations made
    results: Option<Dict>,      // the result dict, when the batch returned one
    markCalls: seq<Json>)       // the ids passed to mark_session_analyzed, in order

  /** The expiring-soon list a tick or a manual check starts from. */
  function Expiring(cfg: Config, st: Store, w: World): seq<Object> {
    GetSessionsExpiringSoon(st, w.scanUp, w.scan, cfg.offsetMinutes)
  }

  /**
   * _check_expiring_sessions. The only exception that can reach its handler is
   * the TypeError of an unhashable workflow id; it ends the tick before any mark.
   */
  function Tick(cfg: Config, svc: Service, st: Store, w: World): (r: TickResult)
    ensures var pending := Unanalyzed(Expiring(cfg, st, w));
            pending == [] ==> r == TickResult(st, [], [], None, [])
    ensures forall o :: o in r.passed <==> o in Expiring(cfg, st, w) && NotAnalyzed(o)
    ensures r.passed != [] ==>
              r.calls == TriggerMultipleAnalyses(svc, w.invoke, r.passed, w.gatherFault).calls
    ensures r.results.None? ==> r.store == st && r.markCalls == []
    ensures r.results.None? && r.passed != [] ==> UnhashableRetained(r.passed)
    ensures r.results.Some? ==>
              TriggerMultipleAnalyses(svc, w.invoke, r.passed, w.gatherFault).outcome == Results(r.results.value)
    ensures r.results.Some? ==> var d := r.results.value;
              forall k :: k in r.markCalls <==> k in d.order && Lookup(d, k) == Some(true)
    ensures forall k :: k in r.markCalls ==> Hashable(k) && Truthy(k)
    ensures r.store.now == st.now
    ensures forall k :: !Touches(r.markCalls, k) ==> SameEntry(st, r.store, k)
    ensures forall k :: k in r.markCalls && k !in w.markDown && StoredObject(st, MarkKey(k)).Some? ==>
              IsMarked(r.store, Render(k))
  {
    var expiring := Expiring(cfg, st, w);
    if expiring == [] then TickResult(st, [], [], None, [])
    else
      var pending := Unanalyzed(expiring);
      if pending == [] then TickResult(st, [], [], None, [])
      else
        var batch := TriggerMultipleAnalyses(svc, w.invoke, pending, w.gatherFault);
        match batch.outcome
        case BatchRaises => TickResult(st, pending, batch.calls, None, [])
        case Results(d) =>
          var ids := TrueKeys(d);
          ResultKeysTruthy(pending, svc, w.invoke, w.gatherFault, d);
          forall i | 0 <= i < |ids| ensures Hashable(ids[i]) && Truthy(ids[i]) {
            assert ids[i] in ids;
          }
          TickResult(MarkAll(st, ids, w), pending, batch.calls, Some(d), ids)
  }

  /** Every key of the result dict is a truthy, hashable workflow id. */
  lemma ResultKeysTruthy(sessions: seq<Object>, svc: Service, invoke: Invoker, fault: bool, d: Dict)
    requires TriggerMultipleAnalyses(svc, invoke, sessions, fault).outcome == Results(d)
    ensures WellFormed(d)
    ensures forall k :: k in d.order ==> Hashable(k) && Truthy(k)
  {
    forall k | k in d.order ensures Hashable(k) && Truthy(k) {
      var i :| 0 <= i < |d.order| && d.order[i] == k;
      assert HasKey(d, k);
      var j :| 0 <= j < |sessions| && Retained(sessions[j]) && SameKey(WorkflowId(sessions[j]), k);
      SameKeyTruthy(WorkflowId(sessions[j]), k);
    }
  }

  /** The dict `run_manual_check` returns. */
  datatype Summary = Summary(
    totalExpiring: nat,
    sessionsAnalyzed: nat,
    results: Dict,
    successful: nat,
    failed: nat,
    error: Option<Exception>)

  /** run_manual_check: the tick's pipeline without its early returns, reported as a summary. */
  function RunManualCheck(cfg: Config, svc: Service, st: Store, w: World): (r: Reply<Summary>)
    ensures var pending := Unanalyzed(Expiring(cfg, st, w));
            r.value.error.Some? <==> pending != [] && UnhashableRetained(pending)
    ensures r.value.error.Some? ==>
              r == Reply(st, Summary(0, 0, Empty, 0, 0, Some(TypeError)))
    ensures r.value.error.None? ==>
              && r.value.totalExpiring == |Expiring(cfg, st, w)|
              && r.value.sessionsAnalyzed == |Unanalyzed(Expiring(cfg, st, w))|
              && r.value.successful == Count(r.value.results, true)
              && r.value.failed == Count(r.value.results, false)
              && r.value.successful + r.value.failed == |r.value.results.order|
    ensures Unanalyzed(Expiring(cfg, st, w)) == [] ==> r == Reply(st, Summary(|Expiring(cfg, st, w)|, 0, Empty, 0, 0, None))
    ensures r.value.error.None? && Unanalyzed(Expiring(cfg, st, w)) != [] ==>
              TriggerMultipleAnalyses(svc, w.invoke, Unanalyzed(Expiring(cfg, st, w)), w.gatherFault).outcome
                == Results(r.value.results)
  {
    var expiring := Expiring(cfg, st, w);
    var pending := Unanalyzed(expiring);
    if pending == [] then Reply(st, Summary(|expiring|, 0, Empty, 0, 0, None))
    else
      var batch := TriggerMultipleAnalyses(svc, w.invoke, pending, w.gatherFault);
      match batch.outcome
      case BatchRaises => Reply(st, Summary(0, 0, Empty, 0, 0, Some(TypeError)))
      case Results(d) =>
        ResultKeysTruthy(pending, svc, w.invoke, w.gatherFault, d);
        CountSplits(d);
        var ids := TrueKeys(d);
        assert forall i :: 0 <= i < |ids| ==> Hashable(ids[i]) by {
          forall i | 0 <= i < |ids| ensures Hashable(ids[i]) {
            assert ids[i] in ids;
          }
        }
        Reply(MarkAll(st, ids, w), Summary(|expiring|, |pending|, d, Count(d, true), Count(d, false), None))
  }

  /** The manual check leaves the store exactly as a tick over the same world does. */
  lemma ManualCheckMatchesTick(cfg: Config, svc: Service, st: Store, w: World)
    ensures RunManualCheck(cfg, svc, st, w).store == Tick(cfg, svc, st, w).store
  {
    var expiring := Expiring(cfg, st, w);
    if expiring == [] {
      assert Unanalyzed(expiring) == [];
    }
  }

  /** A session marked by one tick is filtered out of the next one, wherever its TTL stands. */
  lemma MarkedSessionFiltered(cfg: Config, st: Store, w: World, v: string)
    requires IsMarked(st, v)
    ensures var tagged := StoredObject(st, SessionKey(v)).value["ttl_seconds" := JNum(Ttl(st, SessionKey(v)))];
            tagged !in Unanalyzed(Expiring(cfg, st, w))
  {
    var tagged := StoredObject(st, SessionKey(v)).value["ttl_seconds" := JNum(Ttl(st, SessionKey(v)))];
    assert tagged["analyzed"] == JBool(true);
    assert !NotAnalyzed(tagged);
  }

  /** The scheduler object: its trigger service and the running flag. */
  datatype Scheduler = Scheduler(id: nat, service: Service, isRunning: bool)

  /** start: `fails` stands for the APScheduler start or `add_job` raising. */
  function Start(s: Scheduler, fails: bool): (r: (Scheduler, bool))
    ensures s.isRunning ==> r == (s, false)
    ensures !s.isRunning ==> (r.1 <==> !fails) && r.0.isRunning == r.1
    ensures r.0.id == s.id && r.0.service == s.service
  {
    if s.isRunning then (s, false)
    else if fails then (s.(isRunning := false), false)
    else (s.(isRunning := true), true)
  }

  /** stop: `fails` stands for the shutdown raising, which leaves the flag set. */
  function Stop(s: Scheduler, fails: bool): (r: (Scheduler, bool))
    ensures !s.isRunning ==> r == (s, true)
    ensures s.isRunning ==> (r.1 <==> !fails) && r.0.isRunning == fails
    ensures r.0.id == s.id && r.0.service == s.service
  {
    if !s.isRunning then (s, true)
    else if fails then (s, false)
    else (s.(isRunning := false), true)
  }

  /** The dict `get_status` returns; the timestamp of the next run is opaque. */
  datatype Status = Status(
    isRunning: bool,
    schedulerHealthy: bool,
    triggerServiceHealthy: bool,
    intervalSeconds: int,
    triggerOffsetMinutes: int,
    nextRun: Option<string>)

  /** get_status; `jobNextRun` is the job's next run time when the job exists. */
  function GetStatus(cfg: Config, s: Scheduler, jobNextRun: Option<string>): (r: Status)
    ensures !s.isRunning ==> r.nextRun.None?
    ensures s.isRunning ==> r.nextRun == jobNextRun
    ensures r.isRunning == s.isRunning && r.triggerServiceHealthy == IsHealthy(s.service)
    ensures r.intervalSeconds == cfg.intervalSeconds && r.triggerOffsetMinutes == cfg.offsetMinutes
  {
    Status(s.isRunning, true, IsHealthy(s.service), cfg.intervalSeconds, cfg.offsetMinutes,
           if s.isRunning then jobNextRun else None)
  }

  /** The global `_scheduler_instance`; `created` counts the instances made so far. */
  datatype Slot = Slot(instance: Option<Scheduler>, created: nat)

  /** Every instance in the slot was made before the current count. */
  predicate SlotValid(slot: Slot) {
    slot.instance.Some? ==> slot.instance.value.id < slot.created
  }

  /**
   * get_scheduler. `factory` is the graph factory given, as what calling it
   * does this time; None is no factory.
   */
  function GetScheduler(slot: Slot, factory: Option<FactoryCall>): (r: (Slot, Scheduler))
    requires SlotValid(slot)
    ensures SlotValid(r.0) && r.0.instance == Some(r.1)
    ensures slot.instance.Some? ==> r.1.id == slot.instance.value.id && r.0.created == slot.created
    ensures slot.instance.Some? ==> r.1.isRunning == slot.instance.value.isRunning
    ensures slot.instance.Some? && factory.None? ==> r.1 == slot.instance.value
    ensures slot.instance.Some? && factory.Some? ==>
              r.1.service == SetGraphFactory(slot.instance.value.service, factory.value)
    ensures slot.instance.None? ==>
              && r.1 == Scheduler(slot.created, NewService(factory.Some?, GivenCall(factory)), false)
              && r.0.created == slot.created + 1
  {
    match slot.instance
    case None =>
      var s := Scheduler(slot.created, NewService(factory.Some?, GivenCall(factory)), false);
      (Slot(Some(s), slot.created + 1), s)
    case Some(s) =>
      if factory.Some? then
        var s' := s.(service := SetGraphFactory(s.service, factory.value));
        (slot.(instance := Some(s')), s')
      else (slot, s)
  }

  function GivenCall(factory: Option<FactoryCall>): FactoryCall {
    if factory.Some? then factory.value else FactoryRaises
  }

  /** start_scheduler: fetch the singleton and start it. */
  function StartScheduler(slot: Slot, factory: Option<FactoryCall>, fails: bool): (r: (Slot, bool))
    requires SlotValid(slot)
    ensures SlotValid(r.0) && r.0.instance.Some?
    ensures slot.instance.Some? ==> r.0.instance.value.id == slot.instance.value.id
    ensures slot.instance.Some? && slot.instance.value.isRunning ==> !r.1 && r.0.instance.value.isRunning
    ensures r.1 ==> r.0.instance.value.isRunning
    ensures r.1 <==> !GetScheduler(slot, factory).1.isRunning && !fails
    ensures r.0 == GetScheduler(slot, factory).0.(instance := Some(Start(GetScheduler(slot, factory).1, fails).0))
  {
    var (slot', s) := GetScheduler(slot, factory);
    var (s', ok) := Start(s, fails);
    (slot'.(instance := Some(s')), ok)
  }

  /** stop_scheduler: stop the singleton if there is one, and drop it either way. */
  function StopScheduler(slot: Slot, fails: bool): (r: (Slot, bool))
    requires SlotValid(slot)
    ensures SlotValid(r.0) && r.0.instance.None? && r.0.created == slot.created
    ensures slot.instance.None? ==> r.1
    ensures slot.instance.Some? ==> r.1 == Stop(slot.instance.value, fails).1
  {
    match slot.instance
    case None => (slot, true)
    case Some(s) => (slot.(instance := None), Stop(s, fails).1)
  }

  /** Two fetches without a stop in between give the same instance. */
  lemma SameInstanceUntilStopped(slot: Slot, f1: Option<FactoryCall>, f2: Option<FactoryCall>)
    requires SlotValid(slot)
    ensures var (slot1, s1) := GetScheduler(slot, f1);
            var (_, s2) := GetScheduler(slot1, f2);
            s2.id == s1.id
  {
  }

  /** After stop_scheduler the next fetch makes a new instance, never the one stopped. */
  lemma FreshAfterStop(slot: Slot, fails: bool, f: Option<FactoryCall>)
    requires SlotValid(slot) && slot.instance.Some?
    ensures var (slot1, _) := StopScheduler(slot, fails);
            var (_, s) := GetScheduler(slot1, f);
            s.id != slot.instance.value.id && !s.isRunning
  {
  }
}

=== FILE: file_input.dfy ===
/**
 * file_to_prompt_parts: the prompt parts for a text plus optional file
 * information — the text first, then at most one part for the file.
 *
 * `mimetypes.guess_type`, the filesystem and base64 decoding are outside the
 * model and come in as an `Env` of functions.
 */
module FileInput {
  import opened Wrappers

  newtype byte = b: int | 0 <= b < 256

  /** A value inside a file-information dict. */
  datatype Value =
    | VStr(s: string)
    | VBytes(data: seq<byte>)        // bytes or bytearray
    | VOther(truthy: bool)           // any other value, by its truthiness

  /** The `file_info` argument: None, a str, a Path (by its `str()`), or a dict. */
  datatype FileInfo =
    | NoInfo
    | Text(s: string)
    | PathValue(s: string)
    | Info(fields: map<string, Value>)

  datatype Part =
    | TextPart(text: string)
    | ImageUrl(url: string)
    | DocumentUrl(url: string)
    | Binary(data: Option<seq<byte>>, mediaType: Value)   // BinaryContent; None data is the None the helper returns

  /**
   * What `p.exists() and p.is_file()` followed by `p.read_bytes()` gives: no
   * regular file, a file whose read raises OSError, or its contents.
   */
  datatype FileRead = NotAFile | Unreadable | Contents(data: seq<byte>)

  /**
   * `guess(s)` is `mimetypes.guess_type(s)[0]`, `pathStr(s)` is `str(Path(s))`
   * (pathlib's normalised spelling, without a trailing `/` or `.` parts),
   * `readFile(p)` what probing and reading `Path(p)` gives, `b64(s)`
   * `base64.b64decode(s)` (None when it raises), `encode(s)` `s.encode()`.
   */
  datatype Env = Env(
    guess: string -> Option<string>,
    readFile: string -> FileRead,
    b64: string -> Option<seq<byte>>,
    encode: string -> seq<byte>,
    pathStr: string -> string)

  const OctetStream := "application/octet-stream"

  function ValueTruthy(v: Value): bool {
    match v
    case VStr(s) => s != ""
    case VBytes(d) => |d| > 0
    case VOther(t) => t
  }

  /** `not file_info`; a Path is always truthy. */
  predicate InfoTruthy(info: FileInfo) {
    match info
    case NoInfo => false
    case Text(s) => s != ""
    case PathValue(_) => true
    case Info(fields) => |fields| > 0
  }

  /** _guess_media_type: the guess, or the default when there is none. */
  function GuessMediaType(env: Env, s: string): (m: string)
    ensures env.guess(s).Some? && env.guess(s).value != "" ==> m == env.guess(s).value
    ensures env.guess(s).None? || env.guess(s).value == "" ==> m == OctetStream
  {
    match env.guess(s)
    case Some(g) => if g != "" then g else OctetStream
    case None => OctetStream
  }

  function Lower(c: char): char {
    if 'A' <= c <= 'Z' then (c as int + 32) as char else c
  }

  /** `s.lower().startswith(prefix)` for a lower-case ASCII prefix. */
  predicate StartsWithFolded(s: string, prefix: string) {
    |prefix| <= |s| && forall i :: 0 <= i < |prefix| ==> Lower(s[i]) == prefix[i]
  }

  predicate IsWebUrl(s: string) {
    StartsWithFolded(s, "http://") || StartsWithFolded(s, "https://")
  }

  predicate StartsWith(s: string, prefix: string) {
    |prefix| <= |s| && s[..|prefix|] == prefix
  }

  predicate IsImage(mediaType: string) {
    StartsWith(mediaType, "image/")
  }

  /** The part for a URL whose media type is a string. */
  function UrlPart(url: string, mediaType: string): Part {
    if IsImage(mediaType) then ImageUrl(url) else DocumentUrl(url)
  }

  /** _bytes_from_maybe_base64: bytes pass through, a str is decoded, anything else gives None. */
  function BytesFromMaybeBase64(env: Env, v: Value): (r: Option<seq<byte>>)
    ensures v.VBytes? ==> r == Some(v.data)
    ensures v.VStr? ==> r.Some? && r.value == (if env.b64(v.s).Some? then env.b64(v.s).value else env.encode(v.s))
    ensures v.VOther? ==> r.None?
  {
    match v
    case VBytes(d) => Some(d)
    case VStr(s) => Some(match env.b64(s) case Some(d) => d case None => env.encode(s))
    case VOther(_) => None
  }

  /** `isinstance(file_info.get(name), str)` and non-empty. */
  predicate HasText(fields: map<string, Value>, name: string) {
    name in fields && fields[name].VStr? && fields[name].s != ""
  }

  /** `file_info.get("media_type") or fallback`. */
  function MediaTypeOr(fields: map<string, Value>, fallback: string): (m: Value)
    ensures "media_type" in fields && ValueTruthy(fields["media_type"]) ==> m == fields["media_type"]
    ensures !("media_type" in fields && ValueTruthy(fields["media_type"])) ==> m == VStr(fallback)
  {
    if "media_type" in fields && ValueTruthy(fields["media_type"]) then fields["media_type"] else VStr(fallback)
  }

  /** A dict with a usable `url` whose given media type is truthy but not a string. */
  predicate MediaTypeFails(info: FileInfo) {
    info.Info? && HasText(info.fields, "url") && "media_type" in info.fields
    && ValueTruthy(info.fields["media_type"]) && !info.fields["media_type"].VStr?
  }

  /** The local path the call reads, when it reads one. */
  function ReadPath(info: FileInfo): Option<string> {
    match info
    case NoInfo => None
    case Text(s) => if s != "" && !IsWebUrl(s) then Some(s) else None
    case PathValue(s) => if !IsWebUrl(s) then Some(s) else None
    case Info(fields) =>
      if !HasText(fields, "url") && HasText(fields, "path") then Some(fields["path"].s) else None
  }

  /**
   * file_to_prompt_parts. It raises in the URL branch of a dict, where
   * `.startswith` is called on a given media type that is not a string, and
   * wherever an existing file cannot be read.
   */
  function FileToPromptParts(env: Env, text: string, info: FileInfo): (r: Raising<seq<Part>>)
    ensures r.Value? ==> 1 <= |r.value| <= 2 && r.value[0] == TextPart(text)
    ensures !InfoTruthy(info) ==> r == Value([TextPart(text)])
    ensures r.Raise? <==> MediaTypeFails(info) || (ReadPath(info).Some? && env.readFile(ReadPath(info).value).Unreadable?)
    ensures r.Raise? && MediaTypeFails(info) ==>
              r.error == (if info.fields["media_type"].VBytes? then TypeError else AttributeError)
    ensures r.Raise? && !MediaTypeFails(info) ==> r.error == OSError
  {
    var parts := [TextPart(text)];
    if !InfoTruthy(info) then Value(parts)
    else match info
      case Text(s) =>
        (match StringParts(env, s) case Value(ps) => Value(parts + ps) case Raise(e) => Raise(e))
      case PathValue(s) =>
        (match StringParts(env, s) case Value(ps) => Value(parts + ps) case Raise(e) => Raise(e))
      case Info(fields) =>
        if HasText(fields, "url") then
          var url := fields["url"].s;
          match MediaTypeOr(fields, GuessMediaType(env, url))
          case VStr(m) => Value(parts + [UrlPart(url, m)])
          case VBytes(_) => Raise(TypeError)
          case VOther(_) => Raise(AttributeError)
        else if HasText(fields, "path") then
          var p := fields["path"].s;
          match env.readFile(p)
          case Contents(data) => Value(parts + [Binary(Some(data), MediaTypeOr(fields, GuessMediaType(env, env.pathStr(p))))])
          case Unreadable => Raise(OSError)
          case NotAFile => Value(parts)
        else if "bytes" in fields then
          Value(parts + [Binary(BytesFromMaybeBase64(env, fields["bytes"]), MediaTypeOr(fields, OctetStream))])
        else Value(parts)
  }

  /**
   * What a str or Path adds: a URL part for a web URL, the file's bytes for an
   * existing file, else nothing; an existing file that cannot be read raises.
   * A URL's type is guessed from the string, a file's from `str(Path(s))`.
   */
  function StringParts(env: Env, s: string): (r: Raising<seq<Part>>)
    ensures r.Value? ==> |r.value| <= 1
    ensures IsWebUrl(s) ==> r == Value([UrlPart(s, GuessMediaType(env, s))])
    ensures !IsWebUrl(s) && env.readFile(s).Contents? ==>
              r == Value([Binary(Some(env.readFile(s).data), VStr(GuessMediaType(env, env.pathStr(s))))])
    ensures !IsWebUrl(s) && env.readFile(s).NotAFile? ==> r == Value([])
    ensures r.Raise? <==> !IsWebUrl(s) && env.readFile(s).Unreadable?
    ensures r.Raise? ==> r.error == OSError
  {
    if IsWebUrl(s) then Value([UrlPart(s, GuessMediaType(env, s))])
    else match env.readFile(s)
      case Contents(data) => Value([Binary(Some(data), VStr(GuessMediaType(env, env.pathStr(s))))])
      case Unreadable => Raise(OSError)
      case NotAFile => Value([])
  }

  /** A web URL given as a str becomes an image part exactly when its guessed type is an image type. */
  lemma WebUrlPart(env: Env, text: string, s: string)
    requires IsWebUrl(s)
    ensures var r := FileToPromptParts(env, text, Text(s));
            && r.Value? && |r.value| == 2
            && (r.value[1].ImageUrl? <==> IsImage(GuessMediaType(env, s)))
            && (r.value[1].DocumentUrl? <==> !IsImage(GuessMediaType(env, s)))
            && r.value[1].url == s
  {
  }

  /** The scheme check ignores case: `HTTPS://` is a web URL as much as `https://`. */
  lemma SchemeCaseInsensitive(s: string)
    requires |s| >= 8 && s[..8] == "HTTPS://"
    ensures IsWebUrl(s)
  {
    assert Lower(s[0]) == 'h' && Lower(s[4]) == 's';
  }

  /** A str that is neither a web URL nor an existing file adds nothing. */
  lemma PlainTextOnly(env: Env, text: string, s: string)
    requires s != "" && !IsWebUrl(s) && env.readFile(s).NotAFile?
    ensures FileToPromptParts(env, text, Text(s)) == Value([TextPart(text)])
  {
    assert StringParts(env, s) == Value([]);
    assert [TextPart(text)] + [] == [TextPart(text)];
  }

  /** In a dict a usable `url` wins: whatever `path` and `bytes` hold does not change the outcome. */
  lemma UrlWins(env: Env, text: string, fields: map<string, Value>, path: Value, bytes: Value)
    requires HasText(fields, "url")
    ensures FileToPromptParts(env, text, Info(fields["path" := path]["bytes" := bytes]))
            == FileToPromptParts(env, text, Info(fields))
  {
    var f := fields["path" := path]["bytes" := bytes];
    assert HasText(f, "url") && f["url"] == fields["url"];
    assert MediaTypeOr(f, GuessMediaType(env, fields["url"].s)) == MediaTypeOr(fields, GuessMediaType(env, fields["url"].s));
  }

  /** A given string media type overrides the guess for a URL. */
  lemma MediaTypeOverridesGuess(env: Env, text: string, url: string, m: string)
    requires url != "" && m != ""
    ensures FileToPromptParts(env, text, Info(map["url" := VStr(url), "media_type" := VStr(m)]))
            == Value([TextPart(text), UrlPart(url, m)])
  {
    var f := map["url" := VStr(url), "media_type" := VStr(m)];
    assert HasText(f, "url");
    assert MediaTypeOr(f, GuessMediaType(env, url)) == VStr(m);
    assert [TextPart(text)] + [UrlPart(url, m)] == [TextPart(text), UrlPart(url, m)];
  }

  /** A usable `path` naming no existing file gives the text alone, even with `bytes` present. */
  lemma InvalidPathIgnoresBytes(env: Env, text: string, fields: map<string, Value>)
    requires !HasText(fields, "url") && HasText(fields, "path") && env.readFile(fields["path"].s).NotAFile?
    ensures FileToPromptParts(env, text, Info(fields)) == Value([TextPart(text)])
  {
  }

  /**
   * An existing file that cannot be read makes the call raise OSError, whether
   * it is named by a str, a Path or a dict's `path`.
   */
  lemma UnreadableFileRaises(env: Env, text: string, s: string, fields: map<string, Value>)
    requires s != "" && !IsWebUrl(s) && env.readFile(s).Unreadable?
    requires !HasText(fields, "url")
    ensures FileToPromptParts(env, text, Text(s)) == Raise(OSError)
    ensures FileToPromptParts(env, text, PathValue(s)) == Raise(OSError)
    ensures FileToPromptParts(env, text, Info(fields["path" := VStr(s)])) == Raise(OSError)
  {
    var f := fields["path" := VStr(s)];
    assert !HasText(f, "url") && HasText(f, "path") && f["path"].s == s;
  }

  /**
   * A dict `path` naming a readable file and no media type gives the file's
   * bytes, typed by the guess for `str(Path(path))`.
   */
  lemma DictPathPart(env: Env, text: string, p: string)
    requires p != "" && env.readFile(p).Contents?
    ensures FileToPromptParts(env, text, Info(map["path" := VStr(p)]))
            == Value([TextPart(text), Binary(Some(env.readFile(p).data), VStr(GuessMediaType(env, env.pathStr(p))))])
  {
    var f := map["path" := VStr(p)];
    assert !HasText(f, "url") && HasText(f, "path") && f["path"].s == p;
    assert MediaTypeOr(f, GuessMediaType(env, env.pathStr(p))) == VStr(GuessMediaType(env, env.pathStr(p)));
    assert "path" in f && InfoTruthy(Info(f));
    var b := Binary(Some(env.readFile(p).data), VStr(GuessMediaType(env, env.pathStr(p))));
    assert [TextPart(text)] + [b] == [TextPart(text), b];
  }

  /** Raw bytes without a media type are `application/octet-stream` and pass through unchanged. */
  lemma BytesDefault(env: Env, text: string, data: seq<byte>)
    ensures FileToPromptParts(env, text, Info(map["bytes" := VBytes(data)]))
            == Value([TextPart(text), Binary(Some(data), VStr(OctetStream))])
  {
    var f := map["bytes" := VBytes(data)];
    assert !HasText(f, "url") && !HasText(f, "path") && MediaTypeOr(f, OctetStream) == VStr(OctetStream);
    assert [TextPart(text)] + [Binary(Some(data), VStr(OctetStream))] == [TextPart(text), Binary(Some(data), VStr(OctetStream))];
  }

  /** A dict with none of `url`, `path` or `bytes` in usable form gives the text alone. */
  lemma UnknownShape(env: Env, text: string, fields: map<string, Value>)
    requires !HasText(fields, "url") && !HasText(fields, "path") && "bytes" !in fields
    ensures FileToPromptParts(env, text, Info(fields)) == Value([TextPart(text)])
  {
  }
}

=== FILE: general_graph.dfy ===
/**
 * The general-agent graph in main.py: START and both nodes route on the
 * state's `next`. The general node answers one user turn, records it in the
 * general agent's history and sets `next` to "user_input", which the router
 * sends to END.
 *
 * The model run is a parameter: `respond` gives the response text for the
 * loaded history and the user input, or None when the run fails. What the
 * summarize node sets `next` to is a parameter too, since its sub-graph is
 * not part of this model.
 */
module GeneralGraph {
  import opened Wrappers
  import opened Json
  import opened TtlStore
  import opened HistoryKeyMapping
  import opened HistoryLoader
  import opened HistorySaver
  import opened AgentHistory
  import opened Routing

  const GeneralAgentName := "general_agent"
  const SummarizeName := "summarize_conversation"
  const UserInputName := "user_input"

  /** router, on `state.get("next")`. */
  function Router(next: Json): (t: Target)
    ensures t == To(GeneralAgent) <==> next == JStr(GeneralAgentName)
    ensures t == To(SummarizeConversation) <==> next == JStr(SummarizeName)
    ensures t == End <==> next != JStr(GeneralAgentName) && next != JStr(SummarizeName)
  {
    if next == JStr(GeneralAgentName) then To(GeneralAgent)
    else if next == JStr(SummarizeName) then To(SummarizeConversation)
    else End
  }

  /** The message a turn appends: the user's input and the response. */
  function TurnMessage(userInput: Json, response: string): Message {
    map["user" := PyJson(userInput), "assistant" := PyJson(JStr(response))]
  }

  /** The node's state update. */
  datatype Update = Update(agentResponse: string, next: string)

  /**
   * general_agent_node. An empty workflow id raises ValueError before
   * anything is read; a failing model run raises a bare Exception after the
   * history was loaded; the save's own result is not checked. The load and
   * the save are separate store calls, so `loadUp` and `saveUp` say which of
   * them the store answers.
   */
  function GeneralAgentNode(st: Store, loadUp: bool, saveUp: bool, expireUp: bool, expiry: Seconds, workflowId: string,
                            userInput: Json, respond: (History, Json) -> Option<string>)
    : (r: Reply<Raising<Update>>)
    ensures workflowId == "" ==> r == Reply(st, Raise(ValueError))
    ensures workflowId != "" ==>
              var h := LoadOrCreate(GeneralAgentHistory, st, loadUp, expireUp, expiry, workflowId).value;
              && (r.value.Value? <==> respond(h.value, userInput).Some?)
              && (r.value.Raise? ==> r.value.error == PlainException && r.store == h.store)
              && (r.value.Value? ==>
                    r.value.value == Update(respond(h.value, userInput).value, UserInputName)
                    && r.store == Save(GeneralAgentHistory,
                                       History(h.value.messages + [TurnMessage(userInput, respond(h.value, userInput).value)]),
                                       h.store, saveUp, expiry, workflowId).value.store)
  {
    match LoadOrCreate(GeneralAgentHistory, st, loadUp, expireUp, expiry, workflowId)
    case Raise(e) => Reply(st, Raise(e))
    case Value(loaded) =>
      match respond(loaded.value, userInput)
      case None => Reply(loaded.store, Raise(PlainException))
      case Some(response) =>
        var h := History(loaded.value.messages + [TurnMessage(userInput, response)]);
        match Save(GeneralAgentHistory, h, loaded.store, saveUp, expiry, workflowId)
        case Raise(e) => Reply(loaded.store, Raise(e))
        case Value(saved) => Reply(saved.store, Value(Update(response, UserInputName)))
  }

  /** After a node, the run continues where the router sends the node's `next`. */
  function After(summaryNext: Json): Node -> Target {
    (n: Node) => Router(if n == GeneralAgent then JStr(UserInputName) else summaryNext)
  }

  function Run(next: Json, summaryNext: Json, fuel: nat): seq<Node> {
    Steps(Router(next), After(summaryNext), fuel)
  }

  /** A general turn ends the run: START on "general_agent" executes the general node exactly once. */
  lemma GeneralTurnEnds(summaryNext: Json, fuel: nat)
    requires fuel > 0
    ensures Run(JStr(GeneralAgentName), summaryNext, fuel) == [GeneralAgent]
  {
    assert After(summaryNext)(GeneralAgent) == End;
    assert Steps(End, After(summaryNext), fuel - 1) == [];
  }

  /** In any run the general node, once reached, is the last node executed. */
  lemma GeneralNodeIsLast(start: Target, summaryNext: Json, fuel: nat)
    ensures forall i :: 0 <= i < |Steps(start, After(summaryNext), fuel)| - 1 ==>
              Steps(start, After(summaryNext), fuel)[i] != GeneralAgent
  {
    assert After(summaryNext)(GeneralAgent) == End;
    EndingNodeIsLast(start, After(summaryNext), fuel, GeneralAgent);
  }

  /** What a loaded history holds: every field a plain JSON value. */
  predicate Plain(messages: seq<Message>) {
    forall i, k :: 0 <= i < |messages| && k in messages[i] ==> messages[i][k].PyJson?
  }

  /**
   * A successful turn appends exactly one message to the general agent's
   * stored history: loading it back gives the earlier messages and then the
   * new one.
   */
  lemma TurnAppendsMessage(st: Store, expiry: Seconds, workflowId: string, userInput: Json,
                           respond: (History, Json) -> Option<string>, expireUp: bool, expiry': Seconds)
    requires workflowId != ""
    requires var h := LoadOrCreate(GeneralAgentHistory, st, true, true, expiry, workflowId).value;
             respond(h.value, userInput).Some?
    ensures var h := LoadOrCreate(GeneralAgentHistory, st, true, true, expiry, workflowId).value;
            var r := GeneralAgentNode(st, true, true, true, expiry, workflowId, userInput, respond);
            LoadOrCreate(GeneralAgentHistory, r.store, true, expireUp, expiry', workflowId).value.value.messages
            == h.value.messages + [TurnMessage(userInput, respond(h.value, userInput).value)]
  {
    var h := LoadOrCreate(GeneralAgentHistory, st, true, true, expiry, workflowId).value;
    var response := respond(h.value, userInput).value;
    var ms := h.value.messages + [TurnMessage(userInput, response)];
    LoadedPlain(st, expiry, workflowId);
    assert Plain(ms) by {
      forall i, k | 0 <= i < |ms| && k in ms[i] ensures ms[i][k].PyJson? {
        if i < |h.value.messages| {
          assert ms[i] == h.value.messages[i];
        }
      }
    }
    PlainIsFlat(ms);
    SaveThenLoadOrCreate(GeneralAgentHistory, History(ms), h.store, expiry, workflowId, expireUp, expiry');
    var r := GeneralAgentNode(st, true, true, true, expiry, workflowId, userInput, respond);
    var back := LoadOrCreate(GeneralAgentHistory, r.store, true, expireUp, expiry', workflowId).value.value.messages;
    assert |back| == |ms|;
    forall i | 0 <= i < |ms| ensures back[i] == ms[i] {
      forall k | k in ms[i] ensures back[i][k] == ms[i][k] {
        assert ms[i][k].PyJson?;
      }
    }
  }

  /**
   * A read that fails is swallowed into an empty history, and a save that
   * then succeeds replaces whatever the general agent had stored with the
   * new turn alone.
   */
  lemma ReadFailureOverwritesHistory(st: Store, expireUp: bool, expiry: Seconds, workflowId: string,
                                     userInput: Json, respond: (History, Json) -> Option<string>,
                                     expireUp': bool, expiry': Seconds)
    requires workflowId != "" && respond(Empty, userInput).Some?
    ensures var r := GeneralAgentNode(st, false, true, expireUp, expiry, workflowId, userInput, respond);
            var back := LoadOrCreate(GeneralAgentHistory, r.store, true, expireUp', expiry', workflowId).value.value;
            back.messages == [TurnMessage(userInput, respond(Empty, userInput).value)]
  {
    var ms := [TurnMessage(userInput, respond(Empty, userInput).value)];
    var r := GeneralAgentNode(st, false, true, expireUp, expiry, workflowId, userInput, respond);
    assert r.store == Save(GeneralAgentHistory, History(ms), st, true, expiry, workflowId).value.store by {
      var h := LoadOrCreate(GeneralAgentHistory, st, false, expireUp, expiry, workflowId).value;
      assert h.value == Empty && h.store == st;
      assert h.value.messages + ms == ms;
    }
    assert Plain(ms);
    PlainIsFlat(ms);
    SaveThenLoadOrCreate(GeneralAgentHistory, History(ms), st, expiry, workflowId, expireUp', expiry');
    var back := LoadOrCreate(GeneralAgentHistory, r.store, true, expireUp', expiry', workflowId).value.value.messages;
    assert |back| == 1 && back[0].Keys == ms[0].Keys;
    forall k | k in ms[0] ensures back[0][k] == ms[0][k] {
      assert ms[0][k].PyJson?;
    }
    assert back[0] == ms[0];
    assert back == ms;
  }

  lemma LoadedPlain(st: Store, expiry: Seconds, workflowId: string)
    requires workflowId != ""
    ensures Plain(LoadOrCreate(GeneralAgentHistory, st, true, true, expiry, workflowId).value.value.messages)
  {
  }

  lemma PlainIsFlat(messages: seq<Message>)
    requires Plain(messages)
    ensures Flat(messages)
  {
  }
}

=== FILE: history_key_mapping.dfy ===
/**
 * The store key of one agent's message history in one workflow:
 * `workflow:{workflow_id}:messages:{agent_type}`.
 */
module HistoryKeyMapping {
  import opened SessionRegistry

  const WorkflowPrefix := "workflow:"
  const MessagesInfix := ":messages:"

  /** The `agent_type` of GeneralAgentHistory and of CompanionAgentHistory. */
  const GeneralAgentType := "general_agent"
  const CompanionAgentType := "companion_agent"

  function MessageKey(workflowId: string, agentType: string): (k: string)
    ensures |k| == |WorkflowPrefix| + |workflowId| + |MessagesInfix| + |agentType|
    ensures k[..|WorkflowPrefix|] == WorkflowPrefix
    ensures k[|WorkflowPrefix|..|WorkflowPrefix| + |workflowId|] == workflowId
    ensures k[|k| - |agentType|..] == agentType
  {
    WorkflowPrefix + workflowId + MessagesInfix + agentType
  }

  /** One agent type: different workflows never share a key. */
  lemma MessageKeyInjectiveInWorkflow(a: string, b: string, agentType: string)
    requires MessageKey(a, agentType) == MessageKey(b, agentType)
    ensures a == b
  {
    var k := MessageKey(a, agentType);
    assert |a| == |b|;
    assert a == k[|WorkflowPrefix|..|WorkflowPrefix| + |a|] == b;
  }

  /** One workflow: different agent types never share a key. */
  lemma MessageKeyInjectiveInAgent(workflowId: string, s: string, t: string)
    requires MessageKey(workflowId, s) == MessageKey(workflowId, t)
    ensures s == t
  {
    var k := MessageKey(workflowId, s);
    assert |s| == |t|;
    assert s == k[|k| - |s|..] == t;
  }

  /** The general and the companion history never share a key, whatever the two workflow ids. */
  lemma GeneralAndCompanionApart(a: string, b: string)
    ensures MessageKey(a, GeneralAgentType) != MessageKey(b, CompanionAgentType)
  {
    var c := MessageKey(b, CompanionAgentType);
    var n := |GeneralAgentType|;
    assert c[|c| - n..] == CompanionAgentType[2..] != GeneralAgentType;
  }

  /**
   * The key does not determine the pair: a workflow id holding the infix can
   * pass for another workflow's history of another agent type.
   */
  lemma MessageKeyNotJointlyInjective()
    ensures MessageKey("a:messages:b", "c") == MessageKey("a", "b:messages:c")
  {
  }

  /** Message keys and session keys live apart: `workflow:` against `session:`. */
  lemma MessageKeyNotSessionKey(workflowId: string, agentType: string, sessionId: string)
    ensures MessageKey(workflowId, agentType) != SessionKey(sessionId)
  {
    assert MessageKey(workflowId, agentType)[0] == 'w';
    assert SessionKey(sessionId)[0] == 's';
  }
}

=== FILE: journal_analyzer.dfy ===
/**
 * The journal analyzer: the mood and category literals the structured
 * output may take, its Markdown report, and the graph node.
 *
 * The language model and the report file write are parameters: `analyze`
 * gives the analysis for a journal entry or the exception the run raised,
 * and `writeOk` says whether the file write succeeds.
 */
module JournalAnalyzer {
  import opened Wrappers
  import opened Json
  import opened Markdown

  datatype Mood = Happy | Sad | Angry | Anxious | Calm | Excited | Frustrated | Hopeful | Lonely | Grateful

  datatype Category = General | Emotions | Relationships | Work | Health | Goals | Reflection

  function MoodName(m: Mood): string {
    match m
    case Happy => "happy"
    case Sad => "sad"
    case Angry => "angry"
    case Anxious => "anxious"
    case Calm => "calm"
    case Excited => "excited"
    case Frustrated => "frustrated"
    case Hopeful => "hopeful"
    case Lonely => "lonely"
    case Grateful => "grateful"
  }

  function CategoryName(c: Category): string {
    match c
    case General => "general"
    case Emotions => "emotions"
    case Relationships => "relationships"
    case Work => "work"
    case Health => "health"
    case Goals => "goals"
    case Reflection => "reflection"
  }

  /** pydantic's check of the `mood` literal: exactly one of the ten names. */
  function ParseMood(s: string): Option<Mood> {
    if s == "happy" then Some(Happy)
    else if s == "sad" then Some(Sad)
    else if s == "angry" then Some(Angry)
    else if s == "anxious" then Some(Anxious)
    else if s == "calm" then Some(Calm)
    else if s == "excited" then Some(Excited)
    else if s == "frustrated" then Some(Frustrated)
    else if s == "hopeful" then Some(Hopeful)
    else if s == "lonely" then Some(Lonely)
    else if s == "grateful" then Some(Grateful)
    else None
  }

  /** pydantic's check of the `category` literal: exactly one of the seven names. */
  function ParseCategory(s: string): Option<Category> {
    if s == "general" then Some(General)
    else if s == "emotions" then Some(Emotions)
    else if s == "relationships" then Some(Relationships)
    else if s == "work" then Some(Work)
    else if s == "health" then Some(Health)
    else if s == "goals" then Some(Goals)
    else if s == "reflection" then Some(Reflection)
    else None
  }

  const Moods := [Happy, Sad, Angry, Anxious, Calm, Excited, Frustrated, Hopeful, Lonely, Grateful]
  const Categories := [General, Emotions, Relationships, Work, Health, Goals, Reflection]

  /** The mood names are exactly the strings validation accepts, one per mood. */
  lemma MoodLiterals(s: string, m: Mood)
    ensures ParseMood(s) == Some(m) <==> MoodName(m) == s
    ensures m in Moods && |Moods| == 10
  {
  }

  /** The category names are exactly the strings validation accepts, one per category. */
  lemma CategoryLiterals(s: string, c: Category)
    ensures ParseCategory(s) == Some(c) <==> CategoryName(c) == s
    ensures c in Categories && |Categories| == 7
  {
  }

  datatype JournalAnalysis = JournalAnalysis(mood: Mood, category: Category, analysis: string)

  /** The `sections` list of format_analysis_to_markdown. */
  function Sections(data: JournalAnalysis): seq<Section> {
    [ Banner("Journal Intent Analysis"),
      FieldEntry("Mood", MoodName(data.mood)),
      FieldEntry("Category", CategoryName(data.category)),
      Heading("Analysis", true),
      TextEntry(data.analysis) ]
  }

  /**
   * format_analysis_to_markdown: the banner line first, a final newline last;
   * ReportLines gives every line and ReportRoundTrip reads the analysis back.
   */
  function FormatAnalysisToMarkdown(data: JournalAnalysis): (md: string)
    ensures StartsWith(md, BannerLine("Journal Intent Analysis") + "\n")
    ensures md[|md| - 1] == '\n'
  {
    DocumentShape(Sections(data));
    Document(Sections(data))
  }

  /** The five lines before the analysis text. */
  function Header(data: JournalAnalysis): seq<string> {
    [ BannerLine("Journal Intent Analysis"),
      Field("Mood", MoodName(data.mood)),
      Field("Category", CategoryName(data.category)),
      "",
      HeadingLine("Analysis") ]
  }

  lemma NamesOneLine(data: JournalAnalysis)
    ensures forall i :: 0 <= i < |Sections(data)| ==> SectionOneLine(Sections(data)[i])
  {
    MoodNameOneLine(data.mood);
    CategoryNameOneLine(data.category);
    LiteralsOneLine();
  }

  lemma LiteralsOneLine()
    ensures OneLine("Journal Intent Analysis") && OneLine("Mood") && OneLine("Category") && OneLine("Analysis")
  {
  }

  lemma MoodNameOneLine(m: Mood)
    ensures OneLine(MoodName(m))
  {
  }

  lemma CategoryNameOneLine(c: Category)
    ensures OneLine(CategoryName(c))
  {
  }

  /**
   * The report's lines: the banner, the mood and category fields, a blank
   * line and the analysis heading, then the analysis text verbatim, then the
   * empty line after the closing newline.
   */
  lemma ReportLines(data: JournalAnalysis)
    ensures var ls := Split(FormatAnalysisToMarkdown(data));
            && |ls| >= 7
            && ls[0] == BannerLine("Journal Intent Analysis")
            && ls[1] == Field("Mood", MoodName(data.mood))
            && ls[2] == Field("Category", CategoryName(data.category))
            && ls[3] == ""
            && ls[4] == HeadingLine("Analysis")
            && Join(ls[5..|ls| - 1]) == data.analysis
            && ls[|ls| - 1] == ""
  {
    var es := Sections(data);
    NamesOneLine(data);
    DocumentLines(es);
    var ls := Split(FormatAnalysisToMarkdown(data));
    var body := Split(data.analysis);
    HeaderLines(data);
    assert ls == Header(data) + body + [""];
    assert ls[5..|ls| - 1] == body;
    JoinSplit(data.analysis);
  }

  lemma HeaderLines(data: JournalAnalysis)
    ensures Flatten(Sections(data)) == Header(data) + Split(data.analysis)
  {
    FiveSections("Journal Intent Analysis", "Mood", MoodName(data.mood), "Category", CategoryName(data.category),
                 "Analysis", data.analysis);
  }

  lemma FiveSections(banner: string, a: string, x: string, b: string, y: string, heading: string, text: string)
    ensures Flatten([Banner(banner), FieldEntry(a, x), FieldEntry(b, y), Heading(heading, true), TextEntry(text)])
            == [BannerLine(banner), Field(a, x), Field(b, y), "", HeadingLine(heading)] + Split(text)
  {
    var t := Split(text);
    var e3 := [Heading(heading, true), TextEntry(text)];
    var e2 := [FieldEntry(b, y)] + e3;
    var e1 := [FieldEntry(a, x)] + e2;
    HeadedText(heading, text);
    FlattenCons(FieldEntry(b, y), e3);
    FlattenCons(FieldEntry(a, x), e2);
    FlattenCons(Banner(banner), e1);
    assert [Banner(banner)] + e1 == [Banner(banner), FieldEntry(a, x), FieldEntry(b, y), Heading(heading, true), TextEntry(text)];
  }

  /** A heading after a blank line, then free text. */
  lemma HeadedText(heading: string, text: string)
    ensures Flatten([Heading(heading, true), TextEntry(text)]) == ["", HeadingLine(heading)] + Split(text)
  {
    FlattenCons(TextEntry(text), []);
    FlattenCons(Heading(heading, true), [TextEntry(text)]);
    assert [Heading(heading, true)] + [TextEntry(text)] == [Heading(heading, true), TextEntry(text)];
  }

  /** Read a journal report back: the literal names and the analysis text. */
  function ParseReport(text: string): Option<JournalAnalysis> {
    var ls := Split(text);
    if |ls| >= 7 && ls[0] == BannerLine("Journal Intent Analysis") && ls[3] == ""
       && ls[4] == HeadingLine("Analysis") && ls[|ls| - 1] == "" then
      var m := FieldValue(ls[1], "Mood");
      var c := FieldValue(ls[2], "Category");
      if m.Some? && c.Some? && ParseMood(m.value).Some? && ParseCategory(c.value).Some? then
        Some(JournalAnalysis(ParseMood(m.value).value, ParseCategory(c.value).value, Join(ls[5..|ls| - 1])))
      else None
    else None
  }

  /** Round trip: every analysis, whatever its text holds, reads back from its report unchanged. */
  lemma ReportRoundTrip(data: JournalAnalysis)
    ensures ParseReport(FormatAnalysisToMarkdown(data)) == Some(data)
  {
    ReportLines(data);
    FieldValueInverse("Mood", MoodName(data.mood));
    FieldValueInverse("Category", CategoryName(data.category));
    ParseMoodName(data.mood);
    ParseCategoryName(data.category);
  }

  lemma ParseMoodName(m: Mood)
    ensures ParseMood(MoodName(m)) == Some(m)
  {
  }

  lemma ParseCategoryName(c: Category)
    ensures ParseCategory(CategoryName(c)) == Some(c)
  {
  }

  /**
   * The journal entry as the node reads it: `state.get("user_input", "")`,
   * then `.get("response", "")` on that. Only a dict has `.get`, so the `""`
   * default itself raises AttributeError.
   */
  function JournalEntryAsWritten(userInput: Option<Json>): (r: Raising<Json>)
    ensures r.Value? <==> userInput.Some? && userInput.value.JObj?
    ensures r.Value? ==> r.value == GetOr(userInput.value.fields, "response", JStr(""))
    ensures r.Raise? ==> r.error == AttributeError
  {
    var v := if userInput.Some? then userInput.value else JStr("");
    if v.JObj? then Value(GetOr(v.fields, "response", JStr(""))) else Raise(AttributeError)
  }

  /** A state without `user_input` fails instead of giving an empty entry. */
  lemma MissingInputRaises()
    ensures JournalEntryAsWritten(None) == Raise(AttributeError)
  {
  }

  /** The entry with the fallback the defaults aim at: no `user_input` reads as an empty entry. */
  function JournalEntry(userInput: Option<Json>): (r: Raising<Json>)
    ensures userInput.None? ==> r == Value(JStr(""))
    ensures userInput.Some? ==> r == JournalEntryAsWritten(userInput)
  {
    match userInput
    case None => Value(JStr(""))
    case Some(v) => if v.JObj? then Value(GetOr(v.fields, "response", JStr(""))) else Raise(AttributeError)
  }

  /** With the fallback, a missing input and a dict without `response` both give the empty entry. */
  lemma MissingInputIsEmpty(fields: map<string, Json>)
    requires "response" !in fields
    ensures JournalEntry(None) == JournalEntry(Some(JObj(fields))) == Value(JStr(""))
  {
  }

  datatype JournalRun = JournalRun(journalAnalysis: JournalAnalysis, file: Artifact)

  /** `f"journal_analyzed/{state.get('workflow_id')}.md"`; a missing id prints as `None`. */
  function JournalPath(workflowId: Option<string>): string {
    "journal_analyzed/" + (if workflowId.Some? then workflowId.value else "None") + ".md"
  }

  /** Analyse an entry, write the report, return the analysis; nothing is caught. */
  function AnalyzeEntry(entry: Raising<Json>, workflowId: Option<string>,
                        analyze: Json -> Raising<JournalAnalysis>, writeOk: bool): (r: Raising<JournalRun>)
    ensures r.Value? ==>
              && entry.Value? && analyze(entry.value).Value?
              && r.value.journalAnalysis == analyze(entry.value).value
              && r.value.file.path == JournalPath(workflowId)
              && ParseReport(r.value.file.content) == Some(r.value.journalAnalysis)
  {
    match entry
    case Raise(e) => Raise(e)
    case Value(v) =>
      match analyze(v)
      case Raise(e) => Raise(e)
      case Value(data) =>
        ReportRoundTrip(data);
        if !writeOk then Raise(OSError)
        else Value(JournalRun(data, Artifact(JournalPath(workflowId), FormatAnalysisToMarkdown(data))))
  }

  /**
   * journal_analyzer_agent as written: the entry is read with
   * JournalEntryAsWritten, so a state without `user_input` raises before the
   * model runs. A failing model run or write raises out.
   */
  function JournalAnalyzerAgent(userInput: Option<Json>, workflowId: Option<string>,
                                analyze: Json -> Raising<JournalAnalysis>, writeOk: bool): (r: Raising<JournalRun>)
    ensures userInput.None? ==> r == Raise(AttributeError)
    ensures JournalEntryAsWritten(userInput).Raise? ==> r == Raise(AttributeError)
    ensures JournalEntryAsWritten(userInput).Value? && analyze(JournalEntryAsWritten(userInput).value).Raise? ==>
              r == Raise(analyze(JournalEntryAsWritten(userInput).value).error)
    ensures JournalEntryAsWritten(userInput).Value? && analyze(JournalEntryAsWritten(userInput).value).Value? ==>
              (r.Value? <==> writeOk) && (r.Raise? ==> r.error == OSError)
    ensures r.Value? ==>
              && r.value.journalAnalysis == analyze(JournalEntryAsWritten(userInput).value).value
              && r.value.file.path == JournalPath(workflowId)
              && ParseReport(r.value.file.content) == Some(r.value.journalAnalysis)
  {
    AnalyzeEntry(JournalEntryAsWritten(userInput), workflowId, analyze, writeOk)
  }

  /**
   * The node with the corrected entry read: a state without `user_input`
   * analyses the empty entry instead of raising.
   */
  function JournalAnalyzerAgentCorrected(userInput: Option<Json>, workflowId: Option<string>,
                                         analyze: Json -> Raising<JournalAnalysis>, writeOk: bool)
    : (r: Raising<JournalRun>)
    ensures JournalEntry(userInput).Raise? ==> r == Raise(AttributeError)
    ensures JournalEntry(userInput).Value? && analyze(JournalEntry(userInput).value).Raise? ==>
              r == Raise(analyze(JournalEntry(userInput).value).error)
    ensures JournalEntry(userInput).Value? && analyze(JournalEntry(userInput).value).Value? ==>
              (r.Value? <==> writeOk) && (r.Raise? ==> r.error == OSError)
    ensures r.Value? ==>
              && r.value.journalAnalysis == analyze(JournalEntry(userInput).value).value
              && r.value.file.path == JournalPath(workflowId)
              && ParseReport(r.value.file.content) == Some(r.value.journalAnalysis)
  {
    AnalyzeEntry(JournalEntry(userInput), workflowId, analyze, writeOk)
  }

  /**
   * The two nodes differ only on a state without `user_input`: as written it
   * raises AttributeError, corrected it analyses the empty entry.
   */
  lemma NodesDifferOnMissingInput(userInput: Option<Json>, workflowId: Option<string>,
                                  analyze: Json -> Raising<JournalAnalysis>, writeOk: bool)
    ensures userInput.Some? ==>
              JournalAnalyzerAgent(userInput, workflowId, analyze, writeOk)
              == JournalAnalyzerAgentCorrected(userInput, workflowId, analyze, writeOk)
    ensures userInput.None? ==>
              && JournalAnalyzerAgent(userInput, workflowId, analyze, writeOk) == Raise(AttributeError)
              && (analyze(JStr("")).Value? && writeOk ==>
                    JournalAnalyzerAgentCorrected(userInput, workflowId, analyze, writeOk).Value?)
  {
  }
}

=== FILE: json.dfy ===
/**
 * Decoded JSON values as the Python code sees them after `json.loads`, with
 * Python's truthiness, `dict.get`, hashing and `str()` where the code relies
 * on them. Floating-point numbers are not part of this model.
 */
module Json {
  import opened Wrappers

  datatype Json =
    | JNull
    | JBool(b: bool)
    | JNum(n: int)
    | JStr(s: string)
    | JArr(items: seq<Json>)
    | JObj(fields: map<string, Json>)

  /** A Python `dict` decoded from a JSON object. */
  type Object = map<string, Json>

  /** Python's `bool(v)`: `None`, `False`, `0`, `""`, `[]` and `{}` are falsy. */
  predicate Truthy(j: Json) {
    match j
    case JNull => false
    case JBool(b) => b
    case JNum(n) => n != 0
    case JStr(s) => s != ""
    case JArr(items) => |items| > 0
    case JObj(fields) => |fields| > 0
  }

  /** `d.get(name, default)`. */
  function GetOr(d: Object, name: string, default: Json): Json {
    if name in d then d[name] else default
  }

  /** `d.get(name)`: a missing key reads as `None`. */
  function Get(d: Object, name: string): Json {
    GetOr(d, name, JNull)
  }

  /** Lists and dicts cannot be dictionary keys in Python. */
  predicate Hashable(j: Json) {
    !j.JArr? && !j.JObj?
  }

  /** Python dict-key equality: `True == 1` and `False == 0`. */
  function KeyNorm(j: Json): Json {
    match j
    case JBool(b) => JNum(if b then 1 else 0)
    case _ => j
  }

  predicate SameKey(a: Json, b: Json) {
    KeyNorm(a) == KeyNorm(b)
  }

  /** Keys equal as dict keys are equally truthy. */
  lemma SameKeyTruthy(a: Json, b: Json)
    requires SameKey(a, b)
    ensures Truthy(a) == Truthy(b)
  {
  }

  function DigitChar(d: nat): char
    requires d < 10
  {
    "0123456789"[d]
  }

  function NatText(n: nat): string
    decreases n
  {
    if n < 10 then [DigitChar(n)] else NatText(n / 10) + [DigitChar(n % 10)]
  }

  /** `str(v)` of a hashable value, as an f-string interpolates it. */
  function Render(j: Json): string
    requires Hashable(j)
  {
    match j
    case JNull => "None"
    case JBool(b) => if b then "True" else "False"
    case JNum(n) => if n < 0 then "-" + NatText(-n) else NatText(n)
    case JStr(s) => s
  }

  /**
   * The text a store key holds: the `json.dumps` encoding of a value, or text
   * that is not valid JSON (the empty string among them).
   */
  datatype Blob = Encoded(value: Json) | NotJson(text: string)

  /** `if not text`: only the empty string is falsy; an encoding is never empty. */
  predicate Present(b: Blob) {
    !(b.NotJson? && b.text == "")
  }

  /** `json.loads`: `None` stands for `JSONDecodeError`. */
  function Decode(b: Blob): (r: Option<Json>)
    ensures r.Some? <==> b.Encoded?
    ensures b.Encoded? ==> r.value == b.value
  {
    match b
    case Encoded(v) => Some(v)
    case NotJson(_) => None
  }
}

=== FILE: load_history.dfy ===
/**
 * load_history: read one agent's message history, and push its expiry
 * `MESSAGE_EXPIRY_SECONDS` into the future on every successful read.
 *
 * `up` false stands for a store client that raises on the read and
 * `expireUp` false for one that raises on the expiry reset only. The list
 * comes back as whatever `json.loads` produced, provided the `len()` the
 * debug log line takes of it succeeds; every failure reads as `[]`.
 */
module HistoryLoader {
  import opened Wrappers
  import opened Json
  import opened TtlStore
  import opened HistoryKeyMapping

  /** `len(v)` succeeds: a list, an object or a string. */
  predicate Sized(v: Json) {
    v.JArr? || v.JObj? || v.JStr?
  }

  const NoMessages := JArr([])

  /** The key is read at all: both names given and the client answers. */
  predicate Reads(up: bool, workflowId: string, agentType: string) {
    workflowId != "" && agentType != "" && up
  }

  /** A present value was found under the key. */
  predicate Found(st: Store, up: bool, workflowId: string, agentType: string) {
    && Reads(up, workflowId, agentType)
    && Read(st, MessageKey(workflowId, agentType)).Some?
    && Present(Read(st, MessageKey(workflowId, agentType)).value)
  }

  function LoadHistory(st: Store, up: bool, expireUp: bool, expiry: Seconds,
                       workflowId: string, agentType: string): (r: Reply<Json>)
    ensures var k := MessageKey(workflowId, agentType);
            && Untouched(st, r.store, k)
            && Read(r.store, k) == Read(st, k)
    ensures !Found(st, up, workflowId, agentType) ==> r == Reply(st, NoMessages)
    ensures Found(st, up, workflowId, agentType) && expireUp ==>
              Ttl(r.store, MessageKey(workflowId, agentType)) == expiry
    ensures !expireUp ==> r.store == st
    ensures r.value != NoMessages ==>
              Found(st, up, workflowId, agentType)
              && Read(st, MessageKey(workflowId, agentType)) == Some(Encoded(r.value)) && Sized(r.value)
    ensures Found(st, up, workflowId, agentType) ==>
              forall v :: Read(st, MessageKey(workflowId, agentType)) == Some(Encoded(v)) && Sized(v) ==> r.value == v
  {
    if workflowId == "" || agentType == "" then Reply(st, NoMessages)
    else
      var k := MessageKey(workflowId, agentType);
      if !up then Reply(st, NoMessages)
      else match Read(st, k)
        case None => Reply(st, NoMessages)
        case Some(b) =>
          if !Present(b) then Reply(st, NoMessages)
          else
            var st' := if expireUp then Expire(st, k, expiry) else st;
            match Decode(b)
            case None => Reply(st', NoMessages)
            case Some(v) => Reply(st', if Sized(v) then v else NoMessages)
  }

  /** A failing expiry reset changes the store's TTL only, never the messages returned. */
  lemma ExpireFailureKeepsMessages(st: Store, up: bool, expiry: Seconds, workflowId: string, agentType: string)
    ensures LoadHistory(st, up, false, expiry, workflowId, agentType).value
            == LoadHistory(st, up, true, expiry, workflowId, agentType).value
  {
  }

  /** Loading twice returns the same list: the read only moves the expiry. */
  lemma LoadTwiceSame(st: Store, up: bool, expireUp: bool, expiry: Seconds, workflowId: string, agentType: string)
    ensures var r1 := LoadHistory(st, up, expireUp, expiry, workflowId, agentType);
            LoadHistory(r1.store, up, expireUp, expiry, workflowId, agentType).value == r1.value
  {
  }
}

=== FILE: markdown.dfy ===
/**
 * Lines of text as the report formatters build them: `"\n".join(lines)` and
 * its inverse `text.split("\n")`, with the bullet shapes both reports use.
 */
module Markdown {
  import opened Wrappers

  /** `"\n".join(lines)`. */
  function Join(lines: seq<string>): string
    decreases |lines|
  {
    if |lines| == 0 then ""
    else if |lines| == 1 then lines[0]
    else lines[0] + "\n" + Join(lines[1..])
  }

  /** The index of the first newline in `text`, or its length when there is none. */
  function LineEnd(text: string): (i: nat)
    ensures i <= |text|
    ensures i < |text| ==> text[i] == '\n'
    decreases |text|
  {
    if |text| == 0 || text[0] == '\n' then 0 else 1 + LineEnd(text[1..])
  }

  /** `text.split("\n")`: never empty; `""` splits into `[""]`. */
  function Split(text: string): (r: seq<string>)
    ensures |r| >= 1
    decreases |text|
  {
    var i := LineEnd(text);
    if i == |text| then [text] else [text[..i]] + Split(text[i + 1..])
  }

  predicate OneLine(s: string) {
    '\n' !in s
  }

  predicate AllOneLine(lines: seq<string>) {
    forall i :: 0 <= i < |lines| ==> OneLine(lines[i])
  }

  /** The first newline of `a + b` is the first of `a`, or else the first of `b` shifted past `a`. */
  lemma {:induction false} LineEndAppend(a: string, b: string)
    ensures LineEnd(a + b) == if LineEnd(a) < |a| then LineEnd(a) else |a| + LineEnd(b)
    decreases |a|
  {
    if |a| == 0 {
      assert a + b == b;
    } else if a[0] != '\n' {
      assert (a + b)[0] == a[0];
      assert (a + b)[1..] == a[1..] + b;
      LineEndAppend(a[1..], b);
    } else {
      assert (a + b)[0] == '\n';
    }
  }

  /** A text without a newline ends at its length. */
  lemma {:induction false} LineEndOneLine(s: string)
    requires OneLine(s)
    ensures LineEnd(s) == |s|
    decreases |s|
  {
    if |s| > 0 {
      assert s[0] in s;
      assert OneLine(s[1..]) by {
        forall c | c in s[1..] ensures c != '\n' { assert c in s; }
      }
      LineEndOneLine(s[1..]);
    }
  }

  /** What comes before the first newline holds no newline. */
  lemma {:induction false} LineEndNoNewline(text: string)
    ensures OneLine(text[..LineEnd(text)])
    decreases |text|
  {
    if |text| > 0 && text[0] != '\n' {
      var tail := text[1..][..LineEnd(text[1..])];
      LineEndNoNewline(text[1..]);
      assert text[..LineEnd(text)] == [text[0]] + tail;
      forall c | c in [text[0]] + tail ensures c != '\n' {
        if c != text[0] { assert c in tail; }
      }
    }
  }

  lemma SplitOneLine(s: string)
    requires OneLine(s)
    ensures Split(s) == [s]
  {
    LineEndOneLine(s);
  }

  /** Splitting at a newline splits each side separately. */
  lemma {:induction false} SplitConcat(a: string, b: string)
    ensures Split(a + "\n" + b) == Split(a) + Split(b)
    decreases |a|
  {
    var t := a + "\n" + b;
    var i := LineEnd(a);
    assert t == a + ("\n" + b);
    LineEndAppend(a, "\n" + b);
    if i == |a| {
      assert ("\n" + b)[0] == '\n';
      assert LineEnd(t) == |a|;
      assert t[..|a|] == a && t[|a| + 1..] == b;
    } else {
      assert LineEnd(t) == i;
      assert t[..i] == a[..i];
      assert t[i + 1..] == a[i + 1..] + "\n" + b;
      SplitConcat(a[i + 1..], b);
    }
  }

  /** Join then split gives the lines back, when none of them holds a newline. */
  lemma {:induction false} SplitJoin(lines: seq<string>)
    requires |lines| > 0 && AllOneLine(lines)
    ensures Split(Join(lines)) == lines
    decreases |lines|
  {
    SplitOneLine(lines[0]);
    if |lines| > 1 {
      var rest := lines[1..];
      assert Join(lines) == lines[0] + "\n" + Join(rest);
      assert AllOneLine(rest) by {
        forall i | 0 <= i < |rest| ensures OneLine(rest[i]) { assert rest[i] == lines[i + 1]; }
      }
      SplitConcat(lines[0], Join(rest));
      SplitJoin(rest);
      assert [lines[0]] + rest == lines;
    } else {
      assert Join(lines) == lines[0];
    }
  }

  /** Split then join gives any text back. */
  lemma {:induction false} JoinSplit(text: string)
    ensures Join(Split(text)) == text
    decreases |text|
  {
    var i := LineEnd(text);
    if i < |text| {
      var line := text[..i];
      var rest := text[i + 1..];
      assert text == line + "\n" + rest;
      LineEndNoNewline(text);
      SplitOneLine(line);
      SplitConcat(line, rest);
      JoinSplit(rest);
      JoinAppend([line], Split(rest));
    }
  }

  /** Joining two non-empty runs of lines puts one newline between them. */
  lemma {:induction false} JoinAppend(a: seq<string>, b: seq<string>)
    requires |a| > 0 && |b| > 0
    ensures Join(a + b) == Join(a) + "\n" + Join(b)
    decreases |a|
  {
    if |a| > 1 {
      assert (a + b)[1..] == a[1..] + b;
      JoinAppend(a[1..], b);
    } else {
      assert (a + b)[1..] == b;
    }
  }

  /** `f"- **{name}**: "`, the start of a field line. */
  function FieldPrefix(name: string): string {
    "- **" + name + "**: "
  }

  /** `f"- **{name}**: {value}"`. */
  function Field(name: string, value: string): string {
    FieldPrefix(name) + value
  }

  /** The value of a field line with the given name; None for any other line. */
  function FieldValue(line: string, name: string): (r: Option<string>)
    ensures r.Some? ==> line == Field(name, r.value)
  {
    var p := FieldPrefix(name);
    if StartsWith(line, p) then
      assert line == p + line[|p|..];
      Some(line[|p|..])
    else None
  }

  lemma FieldValueInverse(name: string, value: string)
    ensures FieldValue(Field(name, value), name) == Some(value)
  {
    var p := FieldPrefix(name);
    assert (p + value)[..|p|] == p;
    assert (p + value)[|p|..] == value;
  }

  /** `f"- **{title}**"`. */
  function Title(title: string): string {
    "- **" + title + "**"
  }

  /** `f"  - {item}"` for every item, in order. */
  function Bullets(items: seq<string>): (r: seq<string>)
    ensures |r| == |items|
    ensures forall i :: 0 <= i < |items| ==> r[i] == "  - " + items[i]
  {
    seq(|items|, i requires 0 <= i < |items| => "  - " + items[i])
  }

  /** The lines of one list section. */
  function ListLines(title: string, items: seq<string>): seq<string> {
    [Title(title)] + Bullets(items)
  }

  predicate StartsWith(s: string, prefix: string) {
    |prefix| <= |s| && s[..|prefix|] == prefix
  }

  /** `f"## {title}"`. */
  function HeadingLine(title: string): string {
    "## " + title
  }

  /** `f"# {title}"`. */
  function BannerLine(title: string): string {
    "# " + title
  }

  /** A second-level heading line. */
  predicate IsHeading(line: string) {
    StartsWith(line, "## ")
  }

  /** The heading lines, in order. */
  function Headings(lines: seq<string>): (r: seq<string>)
    ensures |r| <= |lines|
    decreases |lines|
  {
    if |lines| == 0 then []
    else (if IsHeading(lines[0]) then [lines[0]] else []) + Headings(lines[1..])
  }

  lemma {:induction false} HeadingsAppend(a: seq<string>, b: seq<string>)
    ensures Headings(a + b) == Headings(a) + Headings(b)
    decreases |a|
  {
    if |a| > 0 {
      assert (a + b)[0] == a[0];
      assert (a + b)[1..] == a[1..] + b;
      HeadingsAppend(a[1..], b);
    } else {
      assert a + b == b;
    }
  }

  /** Bullet and field lines start with `-` or a space, so a list section holds no heading. */
  lemma {:induction false} ListLinesNoHeading(title: string, items: seq<string>)
    ensures Headings(ListLines(title, items)) == []
  {
    var ls := ListLines(title, items);
    assert !IsHeading(ls[0]) by { assert ls[0][0] == '-'; }
    BulletsNoHeading(Bullets(items));
    assert ls[1..] == Bullets(items);
  }

  lemma {:induction false} BulletsNoHeading(lines: seq<string>)
    requires forall i :: 0 <= i < |lines| ==> StartsWith(lines[i], "  - ")
    ensures Headings(lines) == []
    decreases |lines|
  {
    if |lines| > 0 {
      assert lines[0][0] == ' ';
      BulletsNoHeading(lines[1..]);
    }
  }

  /** The items under a title line, each stripped of its bullet; None when a line is not a bullet. */
  function ParseBullets(lines: seq<string>): (r: Option<seq<string>>)
    decreases |lines|
  {
    if |lines| == 0 then Some([])
    else if !StartsWith(lines[0], "  - ") then None
    else match ParseBullets(lines[1..])
      case None => None
      case Some(rest) => Some([lines[0][4..]] + rest)
  }

  /** Read a list section back: its title and its items. */
  function ParseListSection(text: string): Option<(string, seq<string>)> {
    var lines := Split(text);
    var head := lines[0];
    if StartsWith(head, "- **") && |head| >= 6 && head[|head| - 2..] == "**" then
      match ParseBullets(lines[1..])
      case None => None
      case Some(items) => Some((head[4..|head| - 2], items))
    else None
  }

  lemma {:induction false} ParseBulletsInverse(items: seq<string>)
    ensures ParseBullets(Bullets(items)) == Some(items)
    decreases |items|
  {
    if |items| > 0 {
      var b := Bullets(items);
      assert b[1..] == Bullets(items[1..]);
      ParseBulletsInverse(items[1..]);
      assert b[0][4..] == items[0];
      assert [items[0]] + items[1..] == items;
    }
  }

  /**
   * `format_list_section`: the title line, then one bullet per item, joined
   * by newlines. ListSectionRoundTrip reads it back line by line.
   */
  function FormatListSection(title: string, items: seq<string>): (md: string)
    ensures items == [] ==> md == Title(title)
    ensures items != [] ==> StartsWith(md, Title(title) + "\n")
    ensures items != [] ==> EndsWith(md, "\n  - " + items[|items| - 1])
  {
    var ls := ListLines(title, items);
    if |items| > 0 then
      assert Join(ls) == ls[0] + "\n" + Join(ls[1..]);
      JoinLast(ls);
      Join(ls)
    else Join(ls)
  }

  predicate EndsWith(s: string, suffix: string) {
    |suffix| <= |s| && s[|s| - |suffix|..] == suffix
  }

  /** A join of two or more lines ends with a newline and the last line. */
  lemma {:induction false} JoinLast(lines: seq<string>)
    requires |lines| >= 2
    ensures EndsWith(Join(lines), "\n" + lines[|lines| - 1])
    decreases |lines|
  {
    if |lines| > 2 {
      JoinLast(lines[1..]);
      assert lines[1..][|lines[1..]| - 1] == lines[|lines| - 1];
    }
  }

  lemma BulletOneLine(item: string)
    requires OneLine(item)
    ensures OneLine("  - " + item)
  {
    assert "  - "[0] != '\n' && "  - "[1] != '\n' && "  - "[2] != '\n' && "  - "[3] != '\n';
    OneLineAppend("  - ", item);
  }

  lemma TitleOneLine(title: string)
    requires OneLine(title)
    ensures OneLine(Title(title))
  {
    assert "- **"[0] != '\n' && "- **"[1] != '\n' && "- **"[2] != '\n' && "- **"[3] != '\n';
    assert "**"[0] != '\n' && "**"[1] != '\n';
    OneLineAppend("- **", title);
    OneLineAppend("- **" + title, "**");
  }

  /** A list section reads back as its title and items when none of them holds a newline. */
  lemma ListSectionRoundTrip(title: string, items: seq<string>)
    requires OneLine(title) && AllOneLine(items)
    ensures Split(FormatListSection(title, items)) == ListLines(title, items)
    ensures |Split(FormatListSection(title, items))| == |items| + 1
    ensures ParseListSection(FormatListSection(title, items)) == Some((title, items))
  {
    var ls := ListLines(title, items);
    forall i | 0 <= i < |ls| ensures OneLine(ls[i]) {
      if i > 0 {
        BulletOneLine(items[i - 1]);
      } else {
        TitleOneLine(title);
      }
    }
    SplitJoin(ls);
    ParseBulletsInverse(items);
    assert ls[1..] == Bullets(items);
    var head := Title(title);
    assert head[..4] == "- **" && head[|head| - 2..] == "**" && head[4..|head| - 2] == title;
  }

  /** A report file: its path and what is written to it. */
  datatype Artifact = Artifact(path: string, content: string)

  /**
   * One entry of a report's `sections` list: the top banner, a second-level
   * heading (with the blank line before it written as a leading newline), a
   * bold field, a list section, or free text.
   */
  datatype Section =
    | Banner(title: string)
    | Heading(title: string, blank: bool)
    | FieldEntry(name: string, value: string)
    | ListEntry(title: string, items: seq<string>)
    | TextEntry(text: string)

  /** The string the report appends for the entry. */
  function SectionText(e: Section): string {
    match e
    case Banner(t) => BannerLine(t)
    case Heading(t, blank) => (if blank then "\n" else "") + HeadingLine(t)
    case FieldEntry(n, v) => Field(n, v)
    case ListEntry(t, items) => FormatListSection(t, items)
    case TextEntry(t) => t
  }

  /** The lines the entry is meant to show, independent of how its text is built. */
  function SectionLines(e: Section): seq<string> {
    match e
    case Banner(t) => [BannerLine(t)]
    case Heading(t, blank) => (if blank then [""] else []) + [HeadingLine(t)]
    case FieldEntry(n, v) => [Field(n, v)]
    case ListEntry(t, items) => ListLines(t, items)
    case TextEntry(t) => Split(t)
  }

  /** No title, field or item holds a newline; free text may. */
  predicate SectionOneLine(e: Section) {
    match e
    case Banner(t) => OneLine(t)
    case Heading(t, _) => OneLine(t)
    case FieldEntry(n, v) => OneLine(n) && OneLine(v)
    case ListEntry(t, items) => OneLine(t) && AllOneLine(items)
    case TextEntry(_) => true
  }

  lemma OneLineAppend(a: string, b: string)
    requires OneLine(a) && OneLine(b)
    ensures OneLine(a + b)
  {
    assert forall j :: 0 <= j < |a + b| ==> (a + b)[j] == (if j < |a| then a[j] else b[j - |a|]);
  }

  lemma SectionSplit(e: Section)
    requires SectionOneLine(e)
    ensures Split(SectionText(e)) == SectionLines(e)
  {
    match e
    case Banner(t) =>
      OneLineAppend("# ", t);
      SplitOneLine(BannerLine(t));
    case Heading(t, blank) =>
      var h := HeadingLine(t);
      OneLineAppend("## ", t);
      SplitOneLine(h);
      if blank {
        SplitConcat("", h);
        assert "\n" + h == "" + "\n" + h;
      } else {
        assert "" + h == h;
        assert [] + [h] == [h];
      }
    case FieldEntry(n, v) =>
      OneLineAppend("- **", n);
      OneLineAppend("- **" + n, "**: ");
      OneLineAppend(FieldPrefix(n), v);
      SplitOneLine(Field(n, v));
    case ListEntry(t, items) =>
      ListSectionRoundTrip(t, items);
    case TextEntry(t) =>
  }

  /** The strings a report appends, one per entry. */
  function Texts(es: seq<Section>): (r: seq<string>)
    ensures |r| == |es|
    ensures forall i :: 0 <= i < |es| ==> r[i] == SectionText(es[i])
  {
    seq(|es|, i requires 0 <= i < |es| => SectionText(es[i]))
  }

  /** `"\n".join(sections) + "\n"`. */
  function Document(es: seq<Section>): string {
    Join(Texts(es)) + "\n"
  }

  /** The intended lines of the entries, in order. */
  function Flatten(es: seq<Section>): seq<string>
    decreases |es|
  {
    if |es| == 0 then [] else SectionLines(es[0]) + Flatten(es[1..])
  }

  lemma FlattenCons(e: Section, es: seq<Section>)
    ensures Flatten([e] + es) == SectionLines(e) + Flatten(es)
  {
    assert ([e] + es)[1..] == es;
  }

  /** A document's lines are its entries' lines in order, then the empty line after the final newline. */
  lemma {:induction false} DocumentLines(es: seq<Section>)
    requires |es| > 0 && forall i :: 0 <= i < |es| ==> SectionOneLine(es[i])
    ensures Split(Document(es)) == Flatten(es) + [""]
  {
    JoinedLines(es);
    SplitConcat(Join(Texts(es)), "");
    assert Join(Texts(es)) + "\n" == Join(Texts(es)) + "\n" + "";
  }

  lemma {:induction false} JoinedLines(es: seq<Section>)
    requires |es| > 0 && forall i :: 0 <= i < |es| ==> SectionOneLine(es[i])
    ensures Split(Join(Texts(es))) == Flatten(es)
    decreases |es|
  {
    SectionSplit(es[0]);
    var ts := Texts(es);
    if |es| == 1 {
      assert Flatten(es) == SectionLines(es[0]) + Flatten(es[1..]);
    } else {
      assert ts[1..] == Texts(es[1..]);
      SplitConcat(ts[0], Join(ts[1..]));
      JoinedLines(es[1..]);
    }
  }

  /** The headings an entry contributes. */
  function HeadingsIn(e: Section): seq<string> {
    match e
    case Heading(t, _) => [HeadingLine(t)]
    case TextEntry(t) => Headings(Split(t))
    case _ => []
  }

  function HeadingsOf(es: seq<Section>): seq<string>
    decreases |es|
  {
    if |es| == 0 then [] else HeadingsIn(es[0]) + HeadingsOf(es[1..])
  }

  lemma SectionLinesHeadings(e: Section)
    ensures Headings(SectionLines(e)) == HeadingsIn(e)
  {
    match e
    case Banner(t) =>
      assert BannerLine(t)[1] == ' ';
      assert Headings([BannerLine(t)]) == [] + Headings([]);
    case Heading(t, blank) =>
      var h := HeadingLine(t);
      assert h[..3] == "## ";
      assert Headings([h]) == [h] + Headings([]);
      if blank {
        assert ([""] + [h])[1..] == [h];
      } else {
        assert [] + [h] == [h];
      }
    case FieldEntry(n, v) =>
      assert Field(n, v)[0] == '-';
      assert Headings([Field(n, v)]) == [] + Headings([]);
    case ListEntry(t, items) =>
      ListLinesNoHeading(t, items);
    case TextEntry(t) =>
  }

  /** The headings of a list of lines built from entries are the entries' headings. */
  lemma {:induction false} FlattenHeadings(es: seq<Section>)
    ensures Headings(Flatten(es)) == HeadingsOf(es)
    decreases |es|
  {
    if |es| > 0 {
      SectionLinesHeadings(es[0]);
      HeadingsAppend(SectionLines(es[0]), Flatten(es[1..]));
      FlattenHeadings(es[1..]);
    }
  }

  lemma {:induction false} HeadingsOfAppend(a: seq<Section>, b: seq<Section>)
    ensures HeadingsOf(a + b) == HeadingsOf(a) + HeadingsOf(b)
    decreases |a|
  {
    if |a| > 0 {
      assert (a + b)[0] == a[0];
      assert (a + b)[1..] == a[1..] + b;
      HeadingsOfAppend(a[1..], b);
    } else {
      assert a + b == b;
    }
  }

  /** Fields and list sections contribute no heading. */
  lemma {:induction false} NoHeadings(g: seq<Section>)
    requires forall j :: 0 <= j < |g| ==> g[j].FieldEntry? || g[j].ListEntry?
    ensures HeadingsOf(g) == []
    decreases |g|
  {
    if |g| > 0 {
      NoHeadings(g[1..]);
    }
  }

  /** A document of several sections opens with the first one's line and closes with a newline. */
  lemma DocumentShape(es: seq<Section>)
    requires |es| >= 2
    ensures StartsWith(Document(es), SectionText(es[0]) + "\n")
    ensures Document(es)[|Document(es)| - 1] == '\n'
  {
    var ts := Texts(es);
    assert Join(ts) == ts[0] + "\n" + Join(ts[1..]);
  }
}

=== FILE: result_dict.dfy ===
/**
 * The `Dict[str, bool]` that maps workflow ids to analysis outcomes: a Python
 * dict, so it remembers first-insertion order, overwrites in place, and
 * compares keys with Python equality (`True == 1`).
 *
 * `order` holds the keys as first inserted; `vals` maps each key's
 * normal form (its equality class) to the current value.
 */
module ResultDict {
  import opened Wrappers
  import opened Json

  datatype Dict = Dict(order: seq<Json>, vals: map<Json, bool>)

  const Empty := Dict([], map[])

  /**
   * Keys are hashable and pairwise distinct, and the value map holds exactly
   * their classes.
   */
  ghost predicate WellFormed(d: Dict) {
    && (forall i :: 0 <= i < |d.order| ==> Hashable(d.order[i]) && KeyNorm(d.order[i]) in d.vals)
    && (forall i, j :: 0 <= i < j < |d.order| ==> KeyNorm(d.order[i]) != KeyNorm(d.order[j]))
    && (forall n :: n in d.vals ==> exists i :: 0 <= i < |d.order| && KeyNorm(d.order[i]) == n)
  }

  /** `k in d`. */
  predicate HasKey(d: Dict, k: Json) {
    KeyNorm(k) in d.vals
  }

  /** `d.get(k)`. */
  function Lookup(d: Dict, k: Json): (r: Option<bool>)
    ensures r.Some? <==> HasKey(d, k)
  {
    if KeyNorm(k) in d.vals then Some(d.vals[KeyNorm(k)]) else None
  }

  /** `d[k] = v`: an equal key keeps its place and takes the new value; a new key goes last. */
  function Put(d: Dict, k: Json, v: bool): (r: Dict)
    requires Hashable(k)
    ensures forall k' :: Lookup(r, k') == if SameKey(k, k') then Some(v) else Lookup(d, k')
    ensures HasKey(d, k) ==> r.order == d.order
    ensures !HasKey(d, k) ==> r.order == d.order + [k]
  {
    if KeyNorm(k) in d.vals then Dict(d.order, d.vals[KeyNorm(k) := v])
    else Dict(d.order + [k], d.vals[KeyNorm(k) := v])
  }

  /** Assignment preserves well-formedness. */
  lemma PutWellFormed(d: Dict, k: Json, v: bool)
    requires Hashable(k) && WellFormed(d)
    ensures WellFormed(Put(d, k, v))
  {
    if HasKey(d, k) {
      var r := Put(d, k, v);
      assert r.order == d.order && r.vals.Keys == d.vals.Keys;
    } else {
      PutNewWellFormed(d, k, v);
    }
  }

  /** A new key goes last, and its class is the one class it adds. */
  lemma PutNewWellFormed(d: Dict, k: Json, v: bool)
    requires Hashable(k) && WellFormed(d) && !HasKey(d, k)
    ensures WellFormed(Put(d, k, v))
  {
    var r := Put(d, k, v);
    var n := |d.order|;
    assert r.order == d.order + [k] && r.vals.Keys == d.vals.Keys + {KeyNorm(k)};
    forall i | 0 <= i < |r.order| ensures Hashable(r.order[i]) && KeyNorm(r.order[i]) in r.vals {
      if i < n { assert r.order[i] == d.order[i]; }
    }
    forall i, j | 0 <= i < j < |r.order| ensures KeyNorm(r.order[i]) != KeyNorm(r.order[j]) {
      assert r.order[i] == d.order[i];
      if j < n {
        assert r.order[j] == d.order[j];
      } else {
        assert KeyNorm(d.order[i]) in d.vals;
      }
    }
    forall m | m in r.vals ensures exists i :: 0 <= i < |r.order| && KeyNorm(r.order[i]) == m {
      if m in d.vals {
        var i :| 0 <= i < n && KeyNorm(d.order[i]) == m;
        assert r.order[i] == d.order[i];
      } else {
        assert KeyNorm(r.order[n]) == m;
      }
    }
  }

  /** The dict a sequence of assignments `d[k] = v` builds from `{}`. */
  function Collect(items: seq<(Json, bool)>): (d: Dict)
    requires forall i :: 0 <= i < |items| ==> Hashable(items[i].0)
    decreases |items|
  {
    if |items| == 0 then Empty
    else
      var n := |items| - 1;
      Put(Collect(items[..n]), items[n].0, items[n].1)
  }

  /** Collecting keeps the dict well formed. */
  lemma {:induction false} CollectWellFormed(items: seq<(Json, bool)>)
    requires forall i :: 0 <= i < |items| ==> Hashable(items[i].0)
    ensures WellFormed(Collect(items))
    decreases |items|
  {
    if |items| > 0 {
      var n := |items| - 1;
      CollectWellFormed(items[..n]);
      PutWellFormed(Collect(items[..n]), items[n].0, items[n].1);
    }
  }

  /** The keys of the collected dict are the assigned keys. */
  lemma {:induction false} CollectKeys(items: seq<(Json, bool)>, k: Json)
    requires forall i :: 0 <= i < |items| ==> Hashable(items[i].0)
    ensures HasKey(Collect(items), k) <==> exists i :: 0 <= i < |items| && SameKey(items[i].0, k)
    decreases |items|
  {
    if |items| > 0 {
      var n := |items| - 1;
      var front := items[..n];
      assert forall j :: 0 <= j < n ==> front[j] == items[j];
      CollectKeys(front, k);
      assert Lookup(Collect(items), k).Some? <==> SameKey(items[n].0, k) || Lookup(Collect(front), k).Some?;
    }
  }

  /** The last assignment to a key decides its value. */
  lemma {:induction false} CollectLastWins(items: seq<(Json, bool)>, i: int)
    requires forall j :: 0 <= j < |items| ==> Hashable(items[j].0)
    requires 0 <= i < |items|
    requires forall j :: i < j < |items| ==> !SameKey(items[j].0, items[i].0)
    ensures Lookup(Collect(items), items[i].0) == Some(items[i].1)
    decreases |items|
  {
    var n := |items| - 1;
    var front := items[..n];
    assert forall j :: 0 <= j < n ==> front[j] == items[j];
    if i < n {
      CollectLastWins(front, i);
    }
  }

  /** Assignments that are all false build a dict whose values are all false. */
  lemma {:induction false} CollectAllFalse(items: seq<(Json, bool)>, k: Json)
    requires forall i :: 0 <= i < |items| ==> Hashable(items[i].0) && !items[i].1
    ensures Lookup(Collect(items), k) != Some(true)
    decreases |items|
  {
    if |items| > 0 {
      var n := |items| - 1;
      var front := items[..n];
      assert forall j :: 0 <= j < n ==> front[j] == items[j];
      CollectAllFalse(front, k);
    }
  }

  /**
   * The assignments `d[key(x)] = val(x)` a loop over `xs` makes for each `x`
   * it keeps, in order.
   */
  function Assignments<T>(xs: seq<T>, keep: T -> bool, key: T -> Json, val: T -> bool)
    : (items: seq<(Json, bool)>)
    ensures |items| <= |xs|
    decreases |xs|
  {
    if |xs| == 0 then []
    else
      var n := |xs| - 1;
      var prefix := Assignments(xs[..n], keep, key, val);
      if keep(xs[n]) then prefix + [(key(xs[n]), val(xs[n]))] else prefix
  }

  /** Every assignment comes from a kept element. */
  lemma {:induction false} AssignmentsFrom<T>(xs: seq<T>, keep: T -> bool, key: T -> Json, val: T -> bool, j: int)
    requires 0 <= j < |Assignments(xs, keep, key, val)|
    ensures var items := Assignments(xs, keep, key, val);
            exists i :: 0 <= i < |xs| && keep(xs[i]) && items[j] == (key(xs[i]), val(xs[i]))
    decreases |xs|
  {
    var n := |xs| - 1;
    var front := xs[..n];
    var prefix := Assignments(front, keep, key, val);
    var items := Assignments(xs, keep, key, val);
    if j < |prefix| {
      AssignmentsFrom(front, keep, key, val, j);
      var i :| 0 <= i < n && keep(front[i]) && prefix[j] == (key(front[i]), val(front[i]));
      assert front[i] == xs[i];
      assert items[j] == prefix[j];
    } else {
      assert items[j] == (key(xs[n]), val(xs[n]));
    }
  }

  /** Every kept element makes an assignment to its key. */
  lemma {:induction false} AssignmentsHas<T>(xs: seq<T>, keep: T -> bool, key: T -> Json, val: T -> bool, i: int)
    requires 0 <= i < |xs| && keep(xs[i])
    ensures exists j :: 0 <= j < |Assignments(xs, keep, key, val)|
                        && Assignments(xs, keep, key, val)[j].0 == key(xs[i])
    decreases |xs|
  {
    var n := |xs| - 1;
    var front := xs[..n];
    var prefix := Assignments(front, keep, key, val);
    var items := Assignments(xs, keep, key, val);
    assert items == if keep(xs[n]) then prefix + [(key(xs[n]), val(xs[n]))] else prefix;
    if i == n {
      assert items[|prefix|].0 == key(xs[i]);
    } else {
      assert front[i] == xs[i];
      AssignmentsHas(front, keep, key, val, i);
      var j :| 0 <= j < |prefix| && prefix[j].0 == key(xs[i]);
      assert items[j] == prefix[j];
    }
  }

  /** The assigned keys are the kept elements' keys. */
  lemma AssignmentsKeys<T>(xs: seq<T>, keep: T -> bool, key: T -> Json, val: T -> bool, k: Json)
    ensures (exists j :: 0 <= j < |Assignments(xs, keep, key, val)| && SameKey(Assignments(xs, keep, key, val)[j].0, k))
            <==> (exists i :: 0 <= i < |xs| && keep(xs[i]) && SameKey(key(xs[i]), k))
  {
    var items := Assignments(xs, keep, key, val);
    if j :| 0 <= j < |items| && SameKey(items[j].0, k) {
      AssignmentsFrom(xs, keep, key, val, j);
    }
    if i :| 0 <= i < |xs| && keep(xs[i]) && SameKey(key(xs[i]), k) {
      AssignmentsHas(xs, keep, key, val, i);
    }
  }

  /** A kept element with no later kept element of an equal key makes the last assignment to its key. */
  lemma {:induction false} AssignmentsLastWins<T>(xs: seq<T>, keep: T -> bool, key: T -> Json, val: T -> bool, i: int)
    requires 0 <= i < |xs| && keep(xs[i])
    requires forall j :: i < j < |xs| && keep(xs[j]) ==> !SameKey(key(xs[j]), key(xs[i]))
    ensures var items := Assignments(xs, keep, key, val);
            exists j :: 0 <= j < |items|
              && items[j] == (key(xs[i]), val(xs[i]))
              && forall j' :: j < j' < |items| ==> !SameKey(items[j'].0, key(xs[i]))
    decreases |xs|
  {
    var n := |xs| - 1;
    var front := xs[..n];
    assert forall j :: 0 <= j < n ==> front[j] == xs[j];
    var prefix := Assignments(front, keep, key, val);
    var items := Assignments(xs, keep, key, val);
    assert items == if keep(xs[n]) then prefix + [(key(xs[n]), val(xs[n]))] else prefix;
    if i < n {
      AssignmentsLastWins(front, keep, key, val, i);
      var j :| 0 <= j < |prefix|
               && prefix[j] == (key(xs[i]), val(xs[i]))
               && forall j' :: j < j' < |prefix| ==> !SameKey(prefix[j'].0, key(xs[i]));
      assert items[j] == prefix[j];
      forall j' | j < j' < |items| ensures !SameKey(items[j'].0, key(xs[i])) {
        if j' < |prefix| { assert items[j'] == prefix[j']; }
      }
    } else {
      var j := |prefix|;
      assert items[j] == (key(xs[i]), val(xs[i]));
    }
    assert Assignments(xs, keep, key, val) == items;
  }

  /**
   * The dict a loop `for x in xs: if keep(x): d[key(x)] = val(x)` builds
   * from `{}`.
   */
  function Assign<T>(xs: seq<T>, keep: T -> bool, key: T -> Json, val: T -> bool): (d: Dict)
    requires forall i :: 0 <= i < |xs| && keep(xs[i]) ==> Hashable(key(xs[i]))
    ensures WellFormed(d)
    ensures forall k :: HasKey(d, k) <==> exists i :: 0 <= i < |xs| && keep(xs[i]) && SameKey(key(xs[i]), k)
    ensures (forall i :: 0 <= i < |xs| ==> !val(xs[i])) ==> forall k :: Lookup(d, k) != Some(true)
  {
    var items := Assignments(xs, keep, key, val);
    forall j | 0 <= j < |items| ensures Hashable(items[j].0) {
      AssignmentsFrom(xs, keep, key, val, j);
    }
    CollectWellFormed(items);
    forall k ensures HasKey(Collect(items), k) <==> exists i :: 0 <= i < |xs| && keep(xs[i]) && SameKey(key(xs[i]), k) {
      AssignmentsKeys(xs, keep, key, val, k);
      CollectKeys(items, k);
    }
    forall k ensures (forall i :: 0 <= i < |xs| ==> !val(xs[i])) ==> Lookup(Collect(items), k) != Some(true) {
      if forall i :: 0 <= i < |xs| ==> !val(xs[i]) {
        forall j | 0 <= j < |items| ensures !items[j].1 {
          AssignmentsFrom(xs, keep, key, val, j);
        }
        CollectAllFalse(items, k);
      }
    }
    Collect(items)
  }

  /** An element's own value is what the dict holds for its key, unless a later kept element reuses the key. */
  lemma AssignLastWins<T>(xs: seq<T>, keep: T -> bool, key: T -> Json, val: T -> bool, i: int)
    requires forall j :: 0 <= j < |xs| && keep(xs[j]) ==> Hashable(key(xs[j]))
    requires 0 <= i < |xs| && keep(xs[i])
    requires forall j :: i < j < |xs| && keep(xs[j]) ==> !SameKey(key(xs[j]), key(xs[i]))
    ensures Lookup(Assign(xs, keep, key, val), key(xs[i])) == Some(val(xs[i]))
  {
    var items := Assignments(xs, keep, key, val);
    AssignmentsLastWins(xs, keep, key, val, i);
    var j :| 0 <= j < |items|
             && items[j] == (key(xs[i]), val(xs[i]))
             && forall j' :: j < j' < |items| ==> !SameKey(items[j'].0, key(xs[i]));
    forall j | 0 <= j < |items| ensures Hashable(items[j].0) {
      AssignmentsFrom(xs, keep, key, val, j);
    }
    CollectLastWins(items, j);
  }

  /** The value of the `i`-th key in insertion order. */
  function ValueAt(d: Dict, i: int): bool
    requires 0 <= i < |d.order|
  {
    Lookup(d, d.order[i]) == Some(true)
  }

  /** `sum(1 for v in d.values() if v == b)`. */
  function Count(d: Dict, b: bool): (n: nat)
    ensures n <= |d.order|
    decreases |d.order|
  {
    if |d.order| == 0 then 0
    else (if ValueAt(d, 0) == b then 1 else 0) + Count(Dict(d.order[1..], d.vals), b)
  }

  /** Every entry is either a success or a failure. */
  lemma {:induction false} CountSplits(d: Dict)
    ensures Count(d, true) + Count(d, false) == |d.order|
    decreases |d.order|
  {
    if |d.order| > 0 {
      CountSplits(Dict(d.order[1..], d.vals));
    }
  }

  /** The keys whose value is true, in dict order. */
  function TrueKeys(d: Dict): (ks: seq<Json>)
    ensures |ks| == Count(d, true)
    ensures forall k :: k in ks <==> k in d.order && Lookup(d, k) == Some(true)
    decreases |d.order|
  {
    if |d.order| == 0 then []
    else
      var rest := Dict(d.order[1..], d.vals);
      assert forall k :: k in d.order <==> k == d.order[0] || k in rest.order;
      (if ValueAt(d, 0) then [d.order[0]] else []) + TrueKeys(rest)
  }
}

=== FILE: routing.dfy ===
/**
 * What the three state graphs share: the nodes a router can send a run to,
 * and the run itself as the sequence of nodes it executes.
 */
module Routing {

  datatype Node = CompanionAgent | ConversationAnalyzerAgent | GeneralAgent | SummarizeConversation

  /** Where an edge leads: a node, or END. */
  datatype Target = To(node: Node) | End

  /**
   * The nodes a run executes, starting from the target the START edge picks
   * and following `next` after each node. `fuel` bounds the number of steps,
   * standing in for the graph runtime's recursion limit.
   */
  function Steps(start: Target, next: Node -> Target, fuel: nat): (r: seq<Node>)
    ensures |r| <= fuel
    ensures start.End? || fuel == 0 <==> r == []
    ensures |r| > 0 ==> r[0] == start.node
    decreases fuel
  {
    if fuel == 0 || start.End? then [] else [start.node] + Steps(next(start.node), next, fuel - 1)
  }

  /** When every node's edge leads to END, a run executes at most one node: the one START picked. */
  lemma {:induction false} OneNodeRuns(start: Target, next: Node -> Target, fuel: nat)
    requires forall n :: next(n) == End
    ensures |Steps(start, next, fuel)| <= 1
    ensures start.To? && fuel > 0 ==> Steps(start, next, fuel) == [start.node]
  {
    if fuel > 0 && start.To? {
      assert Steps(next(start.node), next, fuel - 1) == [];
    }
  }

  /** A node whose edge leads to END is never followed by another: it can only be the last one run. */
  lemma {:induction false} EndingNodeIsLast(start: Target, next: Node -> Target, fuel: nat, n: Node)
    requires next(n) == End
    ensures forall i :: 0 <= i < |Steps(start, next, fuel)| - 1 ==> Steps(start, next, fuel)[i] != n
    decreases fuel
  {
    if fuel > 0 && start.To? {
      EndingNodeIsLast(next(start.node), next, fuel - 1, n);
    }
  }
}

=== FILE: save_history.dfy ===
/**
 * save_messages_to_redis: write one agent's message history as JSON with the
 * message expiry; an empty history is a successful no-op.
 *
 * The messages are any Python value. JSON values are what `json.dumps`
 * accepts; a pydantic model object anywhere inside makes it raise TypeError.
 */
module HistorySaver {
  import opened Wrappers
  import opened Json
  import opened TtlStore
  import opened HistoryKeyMapping
  import opened HistoryLoader

  /** A Python value as the history code handles it. */
  datatype PyValue =
    | PyJson(j: Json)                        // a value json.dumps accepts as it is
    | PyList(items: seq<PyValue>)
    | PyDict(fields: map<string, PyValue>)
    | PyModel(dump: Json)                    // a pydantic model; `dump` is its model_dump()

  /** `bool(v)`; a model object is truthy. */
  predicate PyTruthy(v: PyValue) {
    match v
    case PyJson(j) => Truthy(j)
    case PyList(items) => |items| > 0
    case PyDict(fields) => |fields| > 0
    case PyModel(_) => true
  }

  /** Some model object sits somewhere inside `v`. */
  predicate HoldsModel(v: PyValue) {
    match v
    case PyJson(_) => false
    case PyList(items) => exists i :: 0 <= i < |items| && HoldsModel(items[i])
    case PyDict(fields) => exists k :: k in fields && HoldsModel(fields[k])
    case PyModel(_) => true
  }

  /** `json.dumps`, as the JSON value the text encodes; None is the TypeError. */
  function Dumps(v: PyValue): (r: Option<Json>)
    ensures r.None? <==> HoldsModel(v)
    ensures v.PyJson? ==> r == Some(v.j)
  {
    match v
    case PyJson(j) => Some(j)
    case PyList(items) =>
      if exists i :: 0 <= i < |items| && Dumps(items[i]).None? then None
      else Some(JArr(seq(|items|, i requires 0 <= i < |items| => Dumps(items[i]).value)))
    case PyDict(fields) =>
      if exists k :: k in fields && Dumps(fields[k]).None? then None
      else Some(JObj(map k | k in fields :: Dumps(fields[k]).value))
    case PyModel(_) => None
  }

  /** The names are given and the list is non-empty, so the function goes on to write. */
  predicate Writes(workflowId: string, agentType: string, messages: PyValue) {
    workflowId != "" && agentType != "" && PyTruthy(messages)
  }

  function SaveMessagesToRedis(st: Store, up: bool, expiry: Seconds,
                               workflowId: string, agentType: string, messages: PyValue): (r: Reply<bool>)
    ensures workflowId == "" || agentType == "" ==> r == Reply(st, false)
    ensures workflowId != "" && agentType != "" && !PyTruthy(messages) ==> r == Reply(st, true)
    ensures Writes(workflowId, agentType, messages) ==> (r.value <==> up && !HoldsModel(messages))
    ensures Writes(workflowId, agentType, messages) && r.value ==>
              var k := MessageKey(workflowId, agentType);
              Read(r.store, k) == Some(Encoded(Dumps(messages).value)) && Ttl(r.store, k) == expiry
    ensures !(Writes(workflowId, agentType, messages) && r.value) ==> r.store == st
    ensures Untouched(st, r.store, MessageKey(workflowId, agentType))
  {
    if workflowId == "" || agentType == "" then Reply(st, false)
    else if !PyTruthy(messages) then Reply(st, true)
    else
      var k := MessageKey(workflowId, agentType);
      if !up then Reply(st, false)
      else match Dumps(messages)
        case None => Reply(st, false)
        case Some(j) => Reply(SetEx(st, k, expiry, Encoded(j)), true)
  }

  /**
   * Round trip: after a save that wrote, loading the same workflow and agent
   * type gives back the list that was written, in its order.
   */
  lemma SaveThenLoad(st: Store, expiry: Seconds, workflowId: string, agentType: string, messages: seq<Json>,
                     expireUp: bool, expiry': Seconds)
    requires workflowId != "" && agentType != "" && |messages| > 0
    ensures var saved := SaveMessagesToRedis(st, true, expiry, workflowId, agentType, PyJson(JArr(messages)));
            && saved.value
            && LoadHistory(saved.store, true, expireUp, expiry', workflowId, agentType).value == JArr(messages)
  {
    var saved := SaveMessagesToRedis(st, true, expiry, workflowId, agentType, PyJson(JArr(messages)));
    var k := MessageKey(workflowId, agentType);
    assert Read(saved.store, k) == Some(Encoded(JArr(messages)));
  }

  /** The same for any list json.dumps accepts: what comes back is its encoding. */
  lemma SaveThenLoadValue(st: Store, expiry: Seconds, workflowId: string, agentType: string, messages: seq<PyValue>,
                          expireUp: bool, expiry': Seconds)
    requires workflowId != "" && agentType != "" && |messages| > 0 && !HoldsModel(PyList(messages))
    ensures var saved := SaveMessagesToRedis(st, true, expiry, workflowId, agentType, PyList(messages));
            && saved.value
            && LoadHistory(saved.store, true, expireUp, expiry', workflowId, agentType).value
               == Dumps(PyList(messages)).value
  {
    var saved := SaveMessagesToRedis(st, true, expiry, workflowId, agentType, PyList(messages));
    var k := MessageKey(workflowId, agentType);
    assert Read(saved.store, k) == Some(Encoded(Dumps(PyList(messages)).value));
  }
}

=== FILE: session_registry.dfy ===
/**
 * The session registry: one JSON record per conversation under
 * `session:{workflow_id}`, written with the message expiry and flipped to
 * analyzed once the analysis has run.
 *
 * Every operation takes `up`: false stands for a store client that raises,
 * which each operation catches and turns into its conservative default.
 */
module SessionRegistry {
  import opened Wrappers
  import opened Json
  import opened TtlStore

  const SessionKeyPrefix := "session:"

  function SessionKey(workflowId: string): string {
    SessionKeyPrefix + workflowId
  }

  /** The record `register_session` writes; `registeredAt` is the opaque timestamp. */
  function NewRecord(userId: string, workflowId: string, agentName: string, registeredAt: string): Object {
    map[
      "user_id" := JStr(userId),
      "workflow_id" := JStr(workflowId),
      "agent_name" := JStr(agentName),
      "registered_at" := JStr(registeredAt),
      "analyzed" := JBool(false)]
  }

  /** The JSON object stored at a live key, if the key holds one. */
  function StoredObject(st: Store, k: string): Option<Object> {
    match Read(st, k)
    case Some(Encoded(JObj(o))) => Some(o)
    case _ => None
  }

  /** register_session: upsert an unanalyzed record with the message expiry. */
  function RegisterSession(st: Store, up: bool, expiry: Seconds,
                           userId: string, workflowId: string, agentName: string,
                           registeredAt: string): (r: Reply<bool>)
    ensures r.value <==> up && userId != "" && workflowId != "" && agentName != ""
    ensures !r.value ==> r.store == st
    ensures r.value ==> StoredObject(r.store, SessionKey(workflowId))
                          == Some(NewRecord(userId, workflowId, agentName, registeredAt))
    ensures r.value ==> Ttl(r.store, SessionKey(workflowId)) == expiry
    ensures Untouched(st, r.store, SessionKey(workflowId))
  {
    if userId == "" || workflowId == "" || agentName == "" then Reply(st, false)
    else if !up then Reply(st, false)
    else
      var rec := NewRecord(userId, workflowId, agentName, registeredAt);
      Reply(SetEx(st, SessionKey(workflowId), expiry, Encoded(JObj(rec))), true)
  }

  /** get_session: the decoded record, or None for an empty id, a missing key or a failure. */
  function GetSession(st: Store, up: bool, workflowId: string): (r: Option<Json>)
    ensures r.Some? <==> up && workflowId != "" && Read(st, SessionKey(workflowId)).Some?
                         && Read(st, SessionKey(workflowId)).value.Encoded?
    ensures r.Some? ==> Read(st, SessionKey(workflowId)) == Some(Encoded(r.value))
  {
    if workflowId == "" || !up then None
    else match Read(st, SessionKey(workflowId))
      case None => None
      case Some(b) => if !Present(b) then None else Decode(b)
  }

  /** What one scanned key contributes to the expiring-soon list. */
  datatype Contribution =
    | Skip                 // no expiry, gone, outside the window, empty or not JSON
    | Tagged(rec: Object)  // the record with `ttl_seconds` attached
    | Abort                // valid JSON that is not an object: the item assignment raises

  /** The record at `k` with its live TTL, when that TTL is inside the window. */
  function Classify(st: Store, k: string, offsetMinutes: int): (c: Contribution)
    ensures c.Tagged? <==> 0 < Ttl(st, k) <= offsetMinutes * 60 && StoredObject(st, k).Some?
    ensures c.Tagged? ==> c.rec == StoredObject(st, k).value["ttl_seconds" := JNum(Ttl(st, k))]
    ensures c.Abort? <==> (0 < Ttl(st, k) <= offsetMinutes * 60 && Read(st, k).value.Encoded?
                           && !Read(st, k).value.value.JObj?)
  {
    var ttl := Ttl(st, k);
    if ttl <= 0 then Skip
    else if ttl > offsetMinutes * 60 then Skip
    else match Read(st, k)
      case None => Skip
      case Some(b) =>
        if !Present(b) then Skip
        else match Decode(b)
          case None => Skip
          case Some(j) => if j.JObj? then Tagged(j.fields["ttl_seconds" := JNum(ttl)]) else Abort
  }

  predicate Aborts(st: Store, scan: seq<string>, offsetMinutes: int) {
    exists i :: 0 <= i < |scan| && Classify(st, scan[i], offsetMinutes).Abort?
  }

  /** The loop over the cursor scan; None when an item assignment raised. */
  function ScanExpiring(st: Store, scan: seq<string>, offsetMinutes: int): (r: Option<seq<Object>>)
    ensures r.None? <==> Aborts(st, scan, offsetMinutes)
    ensures r.Some? ==> |r.value| <= |scan|
    ensures r.Some? ==> forall j :: 0 <= j < |r.value| ==>
              exists i :: 0 <= i < |scan| && Classify(st, scan[i], offsetMinutes) == Tagged(r.value[j])
    ensures r.Some? ==> forall i :: 0 <= i < |scan| && Classify(st, scan[i], offsetMinutes).Tagged? ==>
              Classify(st, scan[i], offsetMinutes).rec in r.value
  {
    if |scan| == 0 then Some([])
    else
      var rest := ScanExpiring(st, scan[1..], offsetMinutes);
      assert forall i :: 1 <= i < |scan| ==> scan[i] == scan[1..][i - 1];
      match Classify(st, scan[0], offsetMinutes)
      case Abort => None
      case Skip => rest
      case Tagged(o) => if rest.None? then None else Some([o] + rest.value)
  }

  /**
   * get_sessions_expiring_soon: the records whose TTL lies in
   * `0 < ttl <= offsetMinutes * 60`, each tagged with `ttl_seconds`;
   * [] when the store fails or a scanned value is JSON but not an object.
   * The store is only read.
   */
  function GetSessionsExpiringSoon(st: Store, up: bool, scan: seq<string>, offsetMinutes: int)
    : (r: seq<Object>)
    ensures !up || Aborts(st, scan, offsetMinutes) ==> r == []
    ensures |r| <= |scan|
    ensures forall j :: 0 <= j < |r| ==>
              exists i :: 0 <= i < |scan| && 0 < Ttl(st, scan[i]) <= offsetMinutes * 60
                && StoredObject(st, scan[i]).Some?
                && r[j] == StoredObject(st, scan[i]).value["ttl_seconds" := JNum(Ttl(st, scan[i]))]
    ensures up && !Aborts(st, scan, offsetMinutes) ==>
              forall i :: (0 <= i < |scan| && 0 < Ttl(st, scan[i]) <= offsetMinutes * 60
                           && StoredObject(st, scan[i]).Some?) ==>
                StoredObject(st, scan[i]).value["ttl_seconds" := JNum(Ttl(st, scan[i]))] in r
  {
    if !up then []
    else
      var found := ScanExpiring(st, scan, offsetMinutes);
      if found.None? then [] else found.value
  }

  /** The new record: analyzed, stamped, every other field kept. */
  predicate MarkedRecord(o: Object, stamp: string, o': Object) {
    && o'.Keys == o.Keys + {"analyzed", "analyzed_at"}
    && o'["analyzed"] == JBool(true)
    && o'["analyzed_at"] == JStr(stamp)
    && forall f :: f in o && f != "analyzed" && f != "analyzed_at" ==> o'[f] == o[f]
  }

  /** mark_session_analyzed: rewrite the record as analyzed under its current remaining TTL. */
  function MarkSessionAnalyzed(st: Store, up: bool, workflowId: string, stamp: string): (r: Reply<bool>)
    ensures r.value <==> up && workflowId != "" && StoredObject(st, SessionKey(workflowId)).Some?
    ensures !r.value ==> r.store == st
    ensures r.value ==> StoredObject(r.store, SessionKey(workflowId)).Some?
                        && MarkedRecord(StoredObject(st, SessionKey(workflowId)).value, stamp,
                                        StoredObject(r.store, SessionKey(workflowId)).value)
    ensures Ttl(r.store, SessionKey(workflowId)) == Ttl(st, SessionKey(workflowId))
    ensures Untouched(st, r.store, SessionKey(workflowId))
  {
    if workflowId == "" || !up then Reply(st, false)
    else
      var k := SessionKey(workflowId);
      match Read(st, k)
      case None => Reply(st, false)
      case Some(b) =>
        if !Present(b) then Reply(st, false)
        else match Decode(b)
          case None => Reply(st, false)
          case Some(j) =>
            if !j.JObj? then Reply(st, false)
            else
              var o' := j.fields["analyzed" := JBool(true)]["analyzed_at" := JStr(stamp)];
              var ttl := Ttl(st, k);
              if ttl > 0 then Reply(SetEx(st, k, ttl, Encoded(JObj(o'))), true)
              else Reply(SetPersist(st, k, Encoded(JObj(o'))), true)
  }

  /**
   * is_session_analyzed: the record's `analyzed` value (default false), false
   * for an unknown id; a truthy record that is not an object makes `.get` raise.
   */
  function IsSessionAnalyzed(st: Store, up: bool, workflowId: string): (r: Raising<Json>)
    ensures GetSession(st, up, workflowId).None? ==> r == Value(JBool(false))
    ensures GetSession(st, up, workflowId).Some? && !Truthy(GetSession(st, up, workflowId).value) ==>
              r == Value(JBool(false))
    ensures StoredObject(st, SessionKey(workflowId)).Some? && up && workflowId != "" ==>
              r == Value(GetOr(StoredObject(st, SessionKey(workflowId)).value, "analyzed", JBool(false)))
    ensures r.Raise? <==> GetSession(st, up, workflowId).Some? && Truthy(GetSession(st, up, workflowId).value)
                          && !GetSession(st, up, workflowId).value.JObj?
  {
    match GetSession(st, up, workflowId)
    case None => Value(JBool(false))
    case Some(j) =>
      if !Truthy(j) then Value(JBool(false))
      else if j.JObj? then Value(GetOr(j.fields, "analyzed", JBool(false)))
      else Raise(AttributeError)
  }

  /** Scanned keys whose TTL probe already says the key is gone. */
  function CountGone(st: Store, scan: seq<string>): (n: nat)
    ensures n <= |scan|
    ensures (forall i :: 0 <= i < |scan| ==> Live(st, scan[i])) ==> n == 0
    ensures (forall i :: 0 <= i < |scan| ==> !Live(st, scan[i])) ==> n == |scan|
  {
    if |scan| == 0 then 0
    else
      assert forall i :: 1 <= i < |scan| ==> scan[i] == scan[1..][i - 1];
      (if Ttl(st, scan[0]) == -2 then 1 else 0) + CountGone(st, scan[1..])
  }

  /** cleanup_expired_sessions: counts vanished keys and deletes nothing. */
  function CleanupExpiredSessions(st: Store, up: bool, scan: seq<string>): (n: nat)
    ensures !up ==> n == 0
    ensures up ==> n == CountGone(st, scan)
  {
    if up then CountGone(st, scan) else 0
  }

  lemma {:induction false} CountGoneAppend(st: Store, a: seq<string>, b: seq<string>)
    ensures CountGone(st, a + b) == CountGone(st, a) + CountGone(st, b)
  {
    if |a| == 0 {
      assert a + b == b;
    } else {
      assert (a + b)[1..] == a[1..] + b;
      CountGoneAppend(st, a[1..], b);
    }
  }

  /** A fresh registration reads back unchanged and unanalyzed, whatever was there before. */
  lemma RegisterThenRead(st: Store, expiry: Seconds, userId: string, workflowId: string,
                         agentName: string, registeredAt: string)
    requires userId != "" && workflowId != "" && agentName != ""
    ensures var r := RegisterSession(st, true, expiry, userId, workflowId, agentName, registeredAt);
            && r.value
            && GetSession(r.store, true, workflowId)
                 == Some(JObj(NewRecord(userId, workflowId, agentName, registeredAt)))
            && IsSessionAnalyzed(r.store, true, workflowId) == Value(JBool(false))
  {
  }

  /** A workflow id never written has no session and is not analyzed. */
  lemma NeverRegistered(st: Store, up: bool, workflowId: string)
    requires SessionKey(workflowId) !in st.entries
    ensures GetSession(st, up, workflowId) == None
    ensures IsSessionAnalyzed(st, up, workflowId) == Value(JBool(false))
  {
  }

  /** After a successful mark the session reads as analyzed. */
  lemma MarkThenAnalyzed(st: Store, workflowId: string, stamp: string)
    requires MarkSessionAnalyzed(st, true, workflowId, stamp).value
    ensures IsSessionAnalyzed(MarkSessionAnalyzed(st, true, workflowId, stamp).store, true, workflowId)
            == Value(JBool(true))
  {
    var r := MarkSessionAnalyzed(st, true, workflowId, stamp);
    var o' := StoredObject(r.store, SessionKey(workflowId)).value;
    assert Read(r.store, SessionKey(workflowId)) == Some(Encoded(JObj(o')));
  }

  /** Marking twice with the same stamp succeeds both times and leaves the store as one mark does. */
  lemma MarkIdempotent(st: Store, workflowId: string, stamp: string)
    requires MarkSessionAnalyzed(st, true, workflowId, stamp).value
    ensures var once := MarkSessionAnalyzed(st, true, workflowId, stamp).store;
            var twice := MarkSessionAnalyzed(once, true, workflowId, stamp);
            twice.value && twice.store == once
  {
    var k := SessionKey(workflowId);
    var o := StoredObject(st, k).value;
    var o' := o["analyzed" := JBool(true)]["analyzed_at" := JStr(stamp)];
    var once := MarkSessionAnalyzed(st, true, workflowId, stamp).store;
    assert StoredObject(once, k) == Some(o');
    assert o'["analyzed" := JBool(true)]["analyzed_at" := JStr(stamp)] == o';
  }

  /**
   * The scan reports a registered session exactly while its remaining TTL is
   * inside the window (given that no scanned value aborts the scan).
   */
  lemma ExpiringIffInWindow(st: Store, scan: seq<string>, offsetMinutes: int, i: int)
    requires 0 <= i < |scan| && !Aborts(st, scan, offsetMinutes)
    requires StoredObject(st, scan[i]).Some?
    ensures var tagged := StoredObject(st, scan[i]).value["ttl_seconds" := JNum(Ttl(st, scan[i]))];
            0 < Ttl(st, scan[i]) <= offsetMinutes * 60 <==>
              tagged in GetSessionsExpiringSoon(st, true, scan, offsetMinutes)
  {
    var k := scan[i];
    var o := StoredObject(st, k).value;
    var tagged := o["ttl_seconds" := JNum(Ttl(st, k))];
    var r := GetSessionsExpiringSoon(st, true, scan, offsetMinutes);
    if tagged in r {
      var j :| 0 <= j < |r| && r[j] == tagged;
      var i' :| 0 <= i' < |scan| && 0 < Ttl(st, scan[i']) <= offsetMinutes * 60
                && StoredObject(st, scan[i']).Some?
                && r[j] == StoredObject(st, scan[i']).value["ttl_seconds" := JNum(Ttl(st, scan[i']))];
      assert r[j]["ttl_seconds"] == JNum(Ttl(st, scan[i']));
      assert tagged["ttl_seconds"] == JNum(Ttl(st, k));
      assert Ttl(st, k) == Ttl(st, scan[i']);
    }
  }

  /**
   * A session registered with a 600-second TTL and probed 350 seconds later
   * shows up with 250 seconds left in a 5-minute window.
   */
  lemma ExpiringScenario(st: Store, stamp: string)
    ensures var reg := RegisterSession(st, true, 600, "u1", "w1", "general_agent", stamp).store;
            var later := Advance(reg, 350);
            GetSessionsExpiringSoon(later, true, [SessionKey("w1")], 5)
              == [NewRecord("u1", "w1", "general_agent", stamp)["ttl_seconds" := JNum(250)]]
  {
    var reg := RegisterSession(st, true, 600, "u1", "w1", "general_agent", stamp).store;
    var later := Advance(reg, 350);
    var k := SessionKey("w1");
    TtlCountsDown(reg, k, 350);
    assert Ttl(later, k) == 250;
    assert Read(later, k) == Read(reg, k);
    assert Classify(later, k, 5) == Tagged(NewRecord("u1", "w1", "general_agent", stamp)["ttl_seconds" := JNum(250)]);
    assert [k][1..] == [];
  }
}

=== FILE: trigger_service.dfy ===
/**
 * The trigger service: holds the workflow graph built by a caller-supplied
 * factory, turns one session into one invocation of the analyzer agent, and
 * fans a batch of sessions out into a workflow-id -> outcome dict.
 *
 * The factory call and the graph's `ainvoke` are code outside this model:
 * each factory call is given as its outcome, and `ainvoke` as a function
 * from the invocation to what it did. The concurrent gather is a sequential
 * map whose entries do not depend on each other.
 */
module TriggerService {
  import opened Wrappers
  import opened Json
  import opened ResultDict

  const AnalyzerAgent := "conversation_analyzer_agent"

  /** What a factory hands back; `hasAinvoke` is false for objects (or None) without `ainvoke`. */
  datatype GraphObject = GraphObject(id: nat, hasAinvoke: bool)

  /** What calling the factory did this time. */
  datatype FactoryCall = FactoryRaises | FactoryReturns(obj: GraphObject)

  datatype Service = Service(graph: Option<GraphObject>, hasFactory: bool)

  /** _initialize_graph. */
  function InitializeGraph(s: Service, call: FactoryCall): (r: Service)
    ensures r.hasFactory == s.hasFactory
    ensures !s.hasFactory ==> r == s
    ensures s.hasFactory ==> (r.graph.Some? <==> call.FactoryReturns? && call.obj.hasAinvoke)
    ensures s.hasFactory && r.graph.Some? ==> r.graph.value == call.obj
  {
    if !s.hasFactory then s
    else match call
      case FactoryRaises => s.(graph := None)
      case FactoryReturns(obj) => s.(graph := if obj.hasAinvoke then Some(obj) else None)
  }

  /** TriggerService(graph_factory): the graph is built only when a factory is given. */
  function NewService(factoryGiven: bool, call: FactoryCall): (s: Service)
    ensures s.hasFactory == factoryGiven
    ensures s.graph.Some? <==> factoryGiven && call.FactoryReturns? && call.obj.hasAinvoke
  {
    var s := Service(None, factoryGiven);
    if factoryGiven then InitializeGraph(s, call) else s
  }

  /** is_healthy. */
  predicate IsHealthy(s: Service) {
    s.graph.Some?
  }

  /** set_graph_factory: install a factory and build the graph with it. */
  function SetGraphFactory(s: Service, call: FactoryCall): (r: Service)
    ensures r.hasFactory
    ensures IsHealthy(r) <==> call.FactoryReturns? && call.obj.hasAinvoke
  {
    InitializeGraph(s.(hasFactory := true), call)
  }

  /** reinitialize: rebuild the graph, then report health; no factory leaves the service as it is. */
  function Reinitialize(s: Service, call: FactoryCall): (r: (Service, bool))
    ensures r.1 == IsHealthy(r.0)
    ensures !s.hasFactory ==> r.0 == s
    ensures s.hasFactory ==> (r.1 <==> call.FactoryReturns? && call.obj.hasAinvoke)
  {
    var s' := InitializeGraph(s, call);
    (s', IsHealthy(s'))
  }

  /** The SystemState built for the analyzer. Identifiers are whatever the session record held. */
  datatype AnalysisState = AnalysisState(
    userId: Json,
    workflowId: Json,
    agentName: string,
    previousAgent: Json,
    userInput: Option<string>,
    agentResponse: Option<string>)

  /** `{"configurable": {"thread_id": ...}}`. */
  datatype RunConfig = RunConfig(threadId: Json)

  datatype Invocation = Invocation(graph: GraphObject, state: AnalysisState, config: RunConfig)

  /** What `ainvoke` did: raised, or returned a result of the given truthiness. */
  datatype InvokeResult = InvokeRaises | InvokeReturns(truthy: bool)

  type Invoker = Invocation -> InvokeResult

  /** A trigger's outcome: the invocation it made, if any, and what it returned. */
  datatype Triggered = Triggered(call: Option<Invocation>, ok: bool)

  /** trigger_conversation_analysis. */
  function TriggerConversationAnalysis(s: Service, invoke: Invoker,
                                       userId: Json, workflowId: Json, agentName: Json): (r: Triggered)
    ensures s.graph.None? ==> r == Triggered(None, false)
    ensures r.call.Some? <==> s.graph.Some? && Truthy(userId) && Truthy(workflowId) && Truthy(agentName)
    ensures r.call.Some? ==> r.call.value.graph == s.graph.value
    ensures r.call.Some? ==>
              r.call.value.state == AnalysisState(userId, workflowId, AnalyzerAgent, agentName, None, None)
    ensures r.call.Some? ==> r.call.value.config.threadId == workflowId
    ensures r.ok <==> r.call.Some? && invoke(r.call.value) == InvokeReturns(true)
  {
    if s.graph.None? then Triggered(None, false)
    else if !(Truthy(userId) && Truthy(workflowId) && Truthy(agentName)) then Triggered(None, false)
    else
      var state := AnalysisState(userId, workflowId, AnalyzerAgent, agentName, None, None);
      var c := Invocation(s.graph.value, state, RunConfig(workflowId));
      match invoke(c)
      case InvokeRaises => Triggered(Some(c), false)
      case InvokeReturns(t) => Triggered(Some(c), t)
  }

  function WorkflowId(session: Object): Json {
    Get(session, "workflow_id")
  }

  /** `not session.get('analyzed', False)`. */
  predicate NotAnalyzed(session: Object) {
    !Truthy(GetOr(session, "analyzed", JBool(false)))
  }

  /** A session the batch keeps: all three identifiers truthy and not yet analyzed. */
  predicate Retained(session: Object) {
    && Truthy(Get(session, "user_id"))
    && Truthy(WorkflowId(session))
    && Truthy(Get(session, "agent_name"))
    && NotAnalyzed(session)
  }

  function TriggerSession(s: Service, invoke: Invoker, session: Object): Triggered {
    TriggerConversationAnalysis(s, invoke, Get(session, "user_id"), WorkflowId(session), Get(session, "agent_name"))
  }

  /** A retained id that cannot be a dict key: both the result loop and its fallback raise TypeError. */
  predicate UnhashableRetained(sessions: seq<Object>) {
    exists i :: 0 <= i < |sessions| && Retained(sessions[i]) && !Hashable(WorkflowId(sessions[i]))
  }

  /** The `ainvoke` calls the gather makes, in session order. */
  function Calls(s: Service, invoke: Invoker, sessions: seq<Object>): (cs: seq<Invocation>)
    ensures |cs| <= |sessions|
    ensures s.graph.None? ==> cs == []
    ensures forall c :: c in cs ==>
              exists i :: 0 <= i < |sessions| && Retained(sessions[i])
                && TriggerSession(s, invoke, sessions[i]).call == Some(c)
    ensures forall i :: 0 <= i < |sessions| && Retained(sessions[i]) && s.graph.Some? ==>
              TriggerSession(s, invoke, sessions[i]).call.value in cs
  {
    if |sessions| == 0 then []
    else
      var rest := Calls(s, invoke, sessions[1..]);
      assert forall i :: 1 <= i < |sessions| ==> sessions[i] == sessions[1..][i - 1];
      var t := TriggerSession(s, invoke, sessions[0]);
      if Retained(sessions[0]) && t.call.Some? then [t.call.value] + rest else rest
  }

  /**
   * The value each kept session's id receives: its own trigger's success, or
   * false throughout when the gather block failed.
   */
  function Outcomes(s: Service, invoke: Invoker, fault: bool): Object -> bool {
    if fault then _ => false else session => TriggerSession(s, invoke, session).ok
  }

  predicate AnyRetained(sessions: seq<Object>) {
    exists i :: 0 <= i < |sessions| && Retained(sessions[i])
  }

  /** The dict, or the TypeError that escapes the method. */
  datatype BatchOutcome = Results(d: Dict) | BatchRaises

  datatype Batch = Batch(calls: seq<Invocation>, outcome: BatchOutcome)

  /**
   * trigger_multiple_analyses. `gatherFault` stands for an exception inside
   * the gather-and-collect block, which the method answers with every kept
   * id mapped to false.
   */
  function TriggerMultipleAnalyses(s: Service, invoke: Invoker, sessions: seq<Object>, gatherFault: bool)
    : (r: Batch)
    ensures |sessions| == 0 ==> r == Batch([], Results(Empty))
    ensures !AnyRetained(sessions) ==> r == Batch([], Results(Empty))
    ensures r.outcome.BatchRaises? <==> UnhashableRetained(sessions)
    ensures r.outcome.Results? ==> WellFormed(r.outcome.d)
    ensures r.outcome.Results? ==> forall k :: HasKey(r.outcome.d, k) <==>
              exists i :: 0 <= i < |sessions| && Retained(sessions[i]) && SameKey(WorkflowId(sessions[i]), k)
    ensures r.outcome.Results? && gatherFault ==> forall k :: Lookup(r.outcome.d, k) != Some(true)
    ensures r.calls == (if AnyRetained(sessions) then Calls(s, invoke, sessions) else [])
  {
    if |sessions| == 0 then Batch([], Results(Empty))
    else if !AnyRetained(sessions) then Batch([], Results(Empty))
    else
      var calls := Calls(s, invoke, sessions);
      if UnhashableRetained(sessions) then Batch(calls, BatchRaises)
      else Batch(calls, Results(Assign(sessions, Retained, WorkflowId, Outcomes(s, invoke, gatherFault))))
  }

  /**
   * Each kept session's entry is its own trigger's outcome: the success of its
   * own invocation, and nothing any other session's invocation did.
   */
  lemma OutcomeIsOwn(s: Service, invoke: Invoker, sessions: seq<Object>, i: int)
    requires 0 <= i < |sessions| && Retained(sessions[i]) && !UnhashableRetained(sessions)
    requires forall j :: i < j < |sessions| && Retained(sessions[j]) ==>
               !SameKey(WorkflowId(sessions[j]), WorkflowId(sessions[i]))
    ensures var r := TriggerMultipleAnalyses(s, invoke, sessions, false);
            && r.outcome.Results?
            && Lookup(r.outcome.d, WorkflowId(sessions[i]))
                 == Some(s.graph.Some?
                         && invoke(Invocation(s.graph.value,
                                              AnalysisState(Get(sessions[i], "user_id"), WorkflowId(sessions[i]),
                                                            AnalyzerAgent, Get(sessions[i], "agent_name"), None, None),
                                              RunConfig(WorkflowId(sessions[i]))))
                            == InvokeReturns(true))
  {
    AssignLastWins(sessions, Retained, WorkflowId, Outcomes(s, invoke, false), i);
  }

  /** When the gather itself fails, every kept id reads false. */
  lemma GatherFaultAllFalse(s: Service, invoke: Invoker, sessions: seq<Object>, k: Json)
    requires !UnhashableRetained(sessions)
    requires exists i :: 0 <= i < |sessions| && Retained(sessions[i]) && SameKey(WorkflowId(sessions[i]), k)
    ensures var r := TriggerMultipleAnalyses(s, invoke, sessions, true);
            r.outcome.Results? && Lookup(r.outcome.d, k) == Some(false)
  {
    var f := Outcomes(s, invoke, true);
    assert forall i :: 0 <= i < |sessions| ==> !f(sessions[i]);
    var d := Assign(sessions, Retained, WorkflowId, f);
    assert HasKey(d, k);
    var v := Lookup(d, k);
    assert v.Some?;
    assert v != Some(true);
    assert v.value == false;
    assert v == Some(false);
    assert TriggerMultipleAnalyses(s, invoke, sessions, true).outcome == Results(d);
  }

  /**
   * Fan-out isolation: with distinct ids, one session whose invocation raises
   * maps to false while every sibling whose invocation succeeds maps to true.
   */
  lemma OneFailureIsolated(s: Service, invoke: Invoker, sessions: seq<Object>, bad: int, i: int)
    requires s.graph.Some? && !UnhashableRetained(sessions)
    requires forall a, b :: 0 <= a < b < |sessions| ==> !SameKey(WorkflowId(sessions[a]), WorkflowId(sessions[b]))
    requires 0 <= bad < |sessions| && 0 <= i < |sessions| && Retained(sessions[i])
    requires forall c: Invocation :: invoke(c) == (if c.state.workflowId == WorkflowId(sessions[bad])
                                                   then InvokeRaises else InvokeReturns(true))
    ensures var r := TriggerMultipleAnalyses(s, invoke, sessions, false);
            r.outcome.Results? && Lookup(r.outcome.d, WorkflowId(sessions[i])) == Some(i != bad)
  {
    AssignLastWins(sessions, Retained, WorkflowId, Outcomes(s, invoke, false), i);
    if i != bad {
      assert WorkflowId(sessions[i]) != WorkflowId(sessions[bad]) by {
        if i < bad {
          assert !SameKey(WorkflowId(sessions[i]), WorkflowId(sessions[bad]));
        } else {
          assert !SameKey(WorkflowId(sessions[bad]), WorkflowId(sessions[i]));
        }
      }
    }
  }
}

=== FILE: ttl_store.dfy ===
/**
 * The key-value store the whole core talks to, with Redis expiry semantics.
 *
 * An entry carries an optional absolute expiry time; the store carries a
 * logical clock. An entry whose expiry has passed may still sit in the map
 * (Redis evicts lazily): every probe treats it as absent, and a cursor scan
 * may still yield its key.
 */
module TtlStore {
  import opened Wrappers
  import opened Json

  /** Strictly positive seconds, as SETEX and EXPIRE are given here. */
  type Seconds = s: int | s > 0 witness 1

  datatype Entry = Entry(blob: Blob, expiresAt: Option<int>)

  datatype Store = Store(now: int, entries: map<string, Entry>)

  /** The result of a store operation: the new store and what the caller gets back. */
  datatype Reply<+T> = Reply(store: Store, value: T)

  predicate Live(st: Store, k: string) {
    k in st.entries && (st.entries[k].expiresAt.None? || st.entries[k].expiresAt.value > st.now)
  }

  /** GET. */
  function Read(st: Store, k: string): (r: Option<Blob>)
    ensures r.Some? <==> Live(st, k)
    ensures r.Some? ==> r.value == st.entries[k].blob
  {
    if Live(st, k) then Some(st.entries[k].blob) else None
  }

  /** TTL: -2 for a missing key, -1 for a key without expiry, else the seconds left. */
  function Ttl(st: Store, k: string): (t: int)
    ensures t == -2 <==> !Live(st, k)
    ensures t == -1 <==> Live(st, k) && st.entries[k].expiresAt.None?
    ensures t > 0 <==> Live(st, k) && st.entries[k].expiresAt.Some?
    ensures t != 0 && t >= -2
  {
    if !Live(st, k) then -2
    else if st.entries[k].expiresAt.None? then -1
    else st.entries[k].expiresAt.value - st.now
  }

  /** Two stores agree on key `k` for every probe the core makes. */
  predicate SameAt(a: Store, b: Store, k: string) {
    Read(a, k) == Read(b, k) && Ttl(a, k) == Ttl(b, k)
  }

  /** Key `k` holds the same entry, or is absent, in both stores. */
  predicate SameEntry(a: Store, b: Store, k: string) {
    && (k in a.entries <==> k in b.entries)
    && (k in a.entries ==> a.entries[k] == b.entries[k])
  }

  /** `r` differs from `st` at most at key `k`, and the clock has not moved. */
  ghost predicate Untouched(st: Store, r: Store, k: string) {
    && r.now == st.now
    && (forall k' :: k' != k ==> (k' in r.entries <==> k' in st.entries))
    && (forall k' :: k' != k && k' in st.entries ==> r.entries[k'] == st.entries[k'])
  }

  lemma UntouchedSameAt(st: Store, r: Store, k: string, k': string)
    requires Untouched(st, r, k) && k' != k
    ensures SameAt(st, r, k')
  {
  }

  /** SETEX: write the value and make it expire `seconds` from now. */
  function SetEx(st: Store, k: string, seconds: Seconds, b: Blob): (r: Store)
    ensures Read(r, k) == Some(b) && Ttl(r, k) == seconds
    ensures Untouched(st, r, k)
  {
    Store(st.now, st.entries[k := Entry(b, Some(st.now + seconds))])
  }

  /** SET without options: write the value and drop any expiry. */
  function SetPersist(st: Store, k: string, b: Blob): (r: Store)
    ensures Read(r, k) == Some(b) && Ttl(r, k) == -1
    ensures Untouched(st, r, k)
  {
    Store(st.now, st.entries[k := Entry(b, None)])
  }

  /** EXPIRE: a live key now expires `seconds` from now; a missing key is left alone. */
  function Expire(st: Store, k: string, seconds: Seconds): (r: Store)
    ensures Read(r, k) == Read(st, k)
    ensures Live(st, k) ==> Ttl(r, k) == seconds
    ensures !Live(st, k) ==> r == st
    ensures Untouched(st, r, k)
  {
    if Live(st, k) then Store(st.now, st.entries[k := Entry(st.entries[k].blob, Some(st.now + seconds))])
    else st
  }

  /** The clock moves forward; nothing is written. */
  function Advance(st: Store, dt: nat): (r: Store)
    ensures r.entries == st.entries && r.now == st.now + dt
  {
    Store(st.now + dt, st.entries)
  }

  /** A key written with a TTL loses exactly the elapsed time while it stays alive. */
  lemma TtlCountsDown(st: Store, k: string, dt: nat)
    requires Ttl(st, k) > 0
    ensures Ttl(st, k) > dt ==> Ttl(Advance(st, dt), k) == Ttl(st, k) - dt
    ensures Ttl(st, k) <= dt ==> Ttl(Advance(st, dt), k) == -2
  {
  }
}

=== FILE: workflow_graph.dfy ===
/**
 * The graph in graph.py, the one the trigger service compiles: START routes
 * on `agent_name` to the companion or the analyzer node, both lead to END,
 * and anything else, a missing name included, ends at once.
 */
module WorkflowGraph {
  import opened Json
  import opened Routing
  import opened TriggerService
  import CompanionGraph

  /** router, on `state.get("agent_name")`. */
  function Router(agentName: Json): (t: Target)
    ensures t == To(CompanionAgent) <==> agentName == JStr(CompanionGraph.CompanionAgentName)
    ensures t == To(ConversationAnalyzerAgent) <==> agentName == JStr(AnalyzerAgent)
    ensures t == End <==> agentName != JStr(CompanionGraph.CompanionAgentName) && agentName != JStr(AnalyzerAgent)
  {
    if agentName == JStr(CompanionGraph.CompanionAgentName) then To(CompanionAgent)
    else if agentName == JStr(AnalyzerAgent) then To(ConversationAnalyzerAgent)
    else End
  }

  /** The fixed edges: both nodes go straight to END. */
  function Edge(n: Node): Target {
    End
  }

  function Run(agentName: Json, fuel: nat): seq<Node> {
    Steps(Router(agentName), Edge, fuel)
  }

  lemma AtMostOneNode(agentName: Json, fuel: nat)
    ensures |Run(agentName, fuel)| <= 1
    ensures fuel > 0 && Router(agentName).To? ==> Run(agentName, fuel) == [Router(agentName).node]
  {
    OneNodeRuns(Router(agentName), Edge, fuel);
  }

  /** The two routers agree everywhere except on a missing name, which only graphs/companion.py sends to the companion. */
  lemma RoutersDifferOnMissingName(agentName: Json)
    ensures Router(agentName) != CompanionGraph.Router(agentName) <==> agentName == JNull
    ensures Router(JNull) == End && CompanionGraph.Router(JNull) == To(CompanionAgent)
  {
  }

  /** The state the trigger service builds runs the analyzer node once, then ends. */
  lemma TriggeredRunIsAnalysis(s: Service, invoke: Invoker, userId: Json, workflowId: Json, agentName: Json, fuel: nat)
    requires fuel > 0
    requires TriggerConversationAnalysis(s, invoke, userId, workflowId, agentName).call.Some?
    ensures var c := TriggerConversationAnalysis(s, invoke, userId, workflowId, agentName).call.value;
            Run(JStr(c.state.agentName), fuel) == [ConversationAnalyzerAgent]
  {
    OneNodeRuns(To(ConversationAnalyzerAgent), Edge, fuel);
  }
}

=== FILE: wrappers.dfy ===
/** Failure-carrying datatypes shared by the whole model. */
module Wrappers {

  /** Python's `None`-or-value. */
  datatype Option<+T> = None | Some(value: T)

  /**
   * The Python exception classes the modelled code can let escape;
   * `PlainException` is a bare `Exception(...)` raised by the code itself.
   */
  datatype Exception = ValueError | TypeError | AttributeError | KeyError | OSError | PlainException

  /** A call that either returns a value or raises. */
  datatype Raising<+T> = Value(value: T) | Raise(error: Exception)
}
